=== FILE: README.md ===
# lever-automation bookkeeping, modelled in Dafny

lever-automation is a bot that walks over every opportunity (a candidate
record) in the Lever recruiting system again and again. It tags records,
assigns leads to cohort postings, and sends a webhook when a record has
changed since the last pass. To avoid notifying twice, it keeps its own
state inside each record:

- a string→string map, stored in one link of the record
  (`BOT_METADATA_PREFIX + id + '?' + <form-encoded pairs>`);
- checksums of the tags and links, so that a pass can tell whether a
  human changed them;
- `last_change_detected`, the time of the last change it reported.

Changes to tags and links are queued on the record while a batch is open,
and are sent when the record is committed.

This project models that bookkeeping as pure functions over immutable
datatypes, and proves what the code promises.

| file | module | what it models |
|---|---|---|
| prelude.dfy | `Prelude` | `Option`, `Result` (`Ok` or `Raised` with a Ruby exception kind) |
| lists.dfy, text.dfy, hashes.dfy, numerals.dfy | `Lists`, `Text`, `Hashes`, `Numerals` | Ruby `Array#delete`, `start_with?`, `include?`, `split`, `join`, `downcase` (ASCII letters only), `sort`, the insertion-ordered `Hash`, `to_s` and `to_i` |
| form_codec.dfy | `FormCodec` | `URI.encode_www_form` and `decode_www_form` (application/x-www-form-urlencoded, section 5 of the WHATWG URL Standard) over UTF-8 bytes |
| config.dfy | `Config` | the prefix constants and `COHORT_JOBS` |
| opportunity.dfy | `Opportunity` | the record, and `Util`'s `has_posting`, `has_application`, `is_cohort_app`, `dup_hash`, `to_query` |
| annotations.dfy | `Annotations` | the mutation queue of app/client.rb: the batch flag, `add_annotations`, `remove_annotations`, the queues, `commit_opp`, `remove_*_with_prefix` |
| bot_metadata.dfy | `BotMetadata` | `bot_metadata`, `set_bot_metadata`, `commit_bot_metadata` (both variants) |
| change_detector.dfy | `ChangeDetector` | `attribute_checksum`, `existing_*_checksum`, `tags_have_changed?`, `links_have_changed?` |
| notifier.dfy | `Notifier` | `latest_change`, the `+100` decision, the no-notify time, `update_changed_tag`, `notify_of_change` |
| tagging.dfy | `Tagging` | `location_from_tags`, `check_no_posting`, both LinkedIn classifiers |
| process.dfy | `Process` | `process_opportunity` (current driver, and the daemon's older one with `last_webhook_change`), `remove_legacy_attributes`, `add_links` |
| legacy_client.dfy | `LegacyClient` | client.rb: the tag queue, `tag_checksum`, `tags_have_changed?`, `location_from_tags`, `source_from_application` |
| commands.dfy | `Commands` | `process_opportunities` (counters, progress log, stop) and the export filter |
| fixes.dfy | `Fixes` | `detect_duplicate_opportunities`, `tidy_opp_bot_notes`, the selection rules of `archive_accidental_postings` and `fix_archived_stage` |

Some inputs are parameters of the model:

- MD5 is an uninterpreted `digest: string -> string`. The properties are
  stated about the string that is hashed.
- The clock is an input `now`.
- The record re-fetched by `refresh_opp` is an input `refreshed`.
- The rule engine and the feedback step are an arbitrary sequence of
  queue operations (`RuleCall`s), plus the times of the notes they add.
- In the run loop, each record's outcome and the stop flag are inputs.

## Model

| member | source | states |
|---|---|---|
| FormCodec.ComponentRoundTrip | controller/process_updates.rb:365 | percent-decoding an encoded component gives back the original string (UTF-8, every char) |
| FormCodec.FormRoundTrip | controller/process_updates.rb:353-370 | decoding a form-encoded list of pairs gives back exactly those pairs, in order |
| FormCodec.DecodeForm | controller/process_updates.rb:354 | `decode_www_form` raises ArgumentError exactly when the input is not ASCII |
| FormCodec.Utf8RoundTrip | controller/process_updates.rb:365 | decoding the UTF-8 bytes of a string gives the string back |
| Numerals.ToIOfToS | controller/process_updates.rb:260-262 | `to_i` of `to_s` of any integer is the integer, so a stored time reads back unchanged |
| Hashes.FromPairs | controller/process_updates.rb:354 | `to_h` gives a Hash with each key once, whose value for a key is the last pair's value |
| Hashes.Put | controller/process_updates.rb:357-360 | `h[k] = v` sets `k`, leaves every other key's value alone, and appends a new key at the end |
| Config.CohortTags | config/config.rb:3-34 | there are 24 cohort jobs, exactly the first six carry a `:tag`, and none has a `:name` |
| Config.LinkPrefixesNest | config/config.rb:51-78 | the metadata prefix extends the bot link prefix, which extends the auto link prefix; the link checksum prefix extends the bot link prefix |
| Config.TagPrefixesNest | config/config.rb:74-77 | the last-change and tag-checksum prefixes extend the bot tag prefix, which extends the auto tag prefix |
| Config.AutoTagsAreData | config/config.rb:51-79 | the location, LinkedIn, duplicate and old opt-out tags are not bot tags, so they count in the tag checksum |
| Config.LegacyPrefixDisjoint | config/config.rb:54 | the legacy metadata prefix (`BOT_METADATA_PREFIX` without `/`, then `?`) never starts a current metadata link |
| Opportunity.HasApplication | app/util.rb:9-17 | a record with an application has a posting |
| Opportunity.DupHashCounts | app/util.rb:29-33 | `dup_hash` maps exactly the elements that occur more than once to their counts |
| Opportunity.DupHashEmpty | app/util.rb:29-33 | `dup_hash` is empty iff all elements are distinct |
| Opportunity.Merge | app/util.rb:25-27 | in `a.merge(b)`, a key of `b` takes `b`'s value and every other key keeps `a`'s |
| Opportunity.ToQueryReadsBack | app/util.rb:25-27 | the query string reads back with every caller parameter, and with `limit=100` unless the caller set `limit` |
| Annotations.QueueAddOne | app/client.rb:150-159 | after queueing an add, the value is queued for add and not for removal; it is appended to the local list (once) only if it was absent, and the list is unchanged otherwise; other values are untouched |
| Annotations.QueueRemoveOne | app/client.rb:161-170 | after queueing a removal, the value is gone from the local list and the add queue; it is queued for removal iff it was not pending addition |
| Annotations.QueuesStayOk | app/client.rb:150-170 | after any sequence of queued adds and removals, neither queue holds a duplicate and the two queues are disjoint |
| Annotations.AddAnnotations | app/client.rb:110-128 | with batching and no commit, nothing is sent and the values go through the add queue; otherwise one add call is sent and both queues are kept; the local list gains the values; the record changes only in that kind's list, and the other kind, the batch flag, the metadata and the notes are unchanged |
| Annotations.RemoveAnnotations | app/client.rb:130-148 | with batching and no commit, nothing is sent and the values go through the remove queue; otherwise one remove call is sent and both queues are kept; the values leave the local list; the record changes only in that kind's list, and the other kind, the batch flag, the metadata and the notes are unchanged |
| Annotations.BatchedCallsAreLocal | app/client.rb:112-132 | while batching, add and remove send nothing; add queues the value, and remove cancels a pending add instead of queueing a removal |
| Annotations.AppendAll | app/client.rb:123-125 | a non-batched add keeps the old list as a prefix and appends only values that were not present |
| Annotations.CommitOpp | app/client.rb:75-80 | commit sends, for Tags and then Links, the add call iff that add queue is non-empty, then the remove call iff that remove queue is non-empty; the queues are kept; the result is true iff something was sent |
| Annotations.RemoveWithPrefixLocal | app/client.rb:90-94 | removing by prefix leaves exactly the entries that do not start with the prefix, in order |
| Annotations.Replace | app/client.rb:90-94 | removing a prefix and then adding one value leaves that value as the only entry with the prefix |
| Annotations.AddIfUnset | controller/process_updates.rb:84-93 | add-if-absent: the local list afterwards holds the old values plus the given ones; when every given value is already present, nothing changes (no call is queued) |
| Annotations.RemoveIfSet | controller/process_updates.rb:85-97 | remove-if-present: the local list afterwards holds the old values minus the given ones; when none of the given values is present, nothing changes (no call is queued) |
| BotMetadata.ReadNothing | controller/process_updates.rb:353-355 | with no link starting with the record's metadata prefix, the map is empty |
| BotMetadata.ReadFirstOnly | controller/process_updates.rb:353-355 | only the first metadata link is read; later ones make no difference |
| BotMetadata.ReadLaterPairWins | controller/process_updates.rb:353-355 | the text after the first `?` is decoded, and a later duplicate key wins |
| BotMetadata.ReadWithoutQueryRaises | controller/process_updates.rb:353-355 | a metadata link without `?` is decoded whole and raises ArgumentError on its non-ASCII prefix |
| BotMetadata.Metadata | controller/process_updates.rb:353-355 | the map is read once and cached; a cached map is returned unchanged |
| BotMetadata.MetadataCached | controller/process_updates.rb:353-355 | once cached, the map does not change when the links change |
| BotMetadata.SetMetadata | controller/process_updates.rb:357-360 | setting a key gives it the new value and keeps every other key's value; it fails only when reading the map fails |
| BotMetadata.LinkIgnoresOrder | controller/process_updates.rb:362-370 | two maps with the same contents produce the same link, whatever their insertion order |
| BotMetadata.CommitMetadata | controller/process_updates.rb:362-370 | commit does nothing and returns false iff the map is empty or the links under the prefix are exactly the new link; otherwise that link is the only one under the prefix, and other links are kept |
| BotMetadata.CommitIdempotent | controller/process_updates.rb:362-370 | a second commit does nothing |
| BotMetadata.CommitThenRead | controller/process_updates.rb:353-370 | reading the committed link gives back each key with its value stringified |
| BotMetadata.LastChangeSurvives | controller/process_updates.rb:260-262 | a `last_change_detected` that is set and committed reads back as the same integer |
| BotMetadata.LastChangeDetected | controller/process_updates.rb:260-262 | the stored time is 0 when the key is absent |
| BotMetadata.CommitMetadataDaemon | app/controller.rb:416-423 | the daemon's commit is a no-op iff the map is empty or the exact link is already present; otherwise the link is the only one under the prefix |
| BotMetadata.DaemonCommitThenRead | app/controller.rb:407-423 | reading the daemon's committed link gives back each key with its value stringified |
| ChangeDetector.ChecksumInputCanonical | controller/process_updates.rb:228-232 | the hashed string depends only on the multiset of entries without the bot prefix |
| ChangeDetector.ChecksumIgnoresOrder | controller/process_updates.rb:228-232 | reordering the entries leaves the hashed string unchanged |
| ChangeDetector.ChecksumIgnoresBotEntries | controller/process_updates.rb:228-232 | adding bot entries leaves the hashed string unchanged |
| ChangeDetector.BookkeepingLinksIgnored | controller/process_updates.rb:228-232 | the metadata link and a link checksum do not count in the link checksum |
| ChangeDetector.ChecksumInputCollides | controller/process_updates.rb:228-232 | the `;;` join is not injective: one tag `a;;b` hashes like the two tags `a` and `b` |
| ChangeDetector.Existing | controller/process_updates.rb:234-258 | the stored checksum is the metadata entry if there is one; otherwise a legacy entry is migrated into the metadata |
| ChangeDetector.ExistingFinds | controller/process_updates.rb:234-258 | the checksum found is the metadata entry, else the legacy entry with its prefix removed, else none |
| ChangeDetector.HaveChanged | controller/process_updates.rb:189-224 | a change timed `now` is reported iff a stored checksum exists and differs from the current one; the current one is stored either way |
| ChangeDetector.FirstSightQuiet | controller/process_updates.rb:189-224 | with no stored and no legacy checksum, no change is reported |
| ChangeDetector.ChangeIffDiffers | controller/process_updates.rb:189-224 | with a stored checksum, a change is reported iff it differs from the current one |
| ChangeDetector.LegacyChecksumHonoured | controller/process_updates.rb:234-258 | with no stored checksum, the first legacy entry (prefix removed) counts as the stored one: a change is reported iff it differs from the current checksum |
| ChangeDetector.SecondCallQuiet | controller/process_updates.rb:189-224 | right after a call, a second call reports nothing and changes nothing |
| Notifier.LatestOf | controller/process_updates.rb:180-186 | the latest change is one of the candidates, is at least as late as each of them, and on a tie is the first one |
| Notifier.LatestChangeIs | controller/process_updates.rb:180-186 | a detected change wins only when it is strictly later than the last interaction, the tag change before the link change |
| Notifier.Detect | controller/process_updates.rb:189-224 | both detectors run; the record, queues and sent calls are unchanged, and detected changes are timed `now` |
| Notifier.Decide | controller/process_updates.rb:17-41 | notify iff the latest change is more than 100 ms past `last_change_detected`, or the rules caused a tag or link change; the change reported is the link change, else the tag change, else the latest |
| Notifier.NoNotifyTime | controller/process_updates.rb:51 | the no-notify time is at least the stored time, the last interaction and every note time, and is one of them |
| Notifier.NoNotifyTimeAgrees | controller/process_updates.rb:51 | the code as written computes the same time when no note was added, and raises otherwise |
| Notifier.DaemonNoNotifyTime | app/controller.rb:142 | the daemon's no-notify time is at least the last interaction and every note time, and is one of them |
| Notifier.DaemonNoNotifyTimeAsWritten | app/controller.rb:142 | as written, the daemon's `max` raises ArgumentError exactly when a note was added |
| Notifier.DaemonNoNotifyTimeAgrees | app/controller.rb:142 | the daemon's code as written computes the intended time when no note was added, and raises otherwise |
| Notifier.UpdateChangedTag | controller/process_updates.rb:171-176 | afterwards `last_change_detected` is the given time; the record and queues are unchanged |
| Notifier.NotifyOfChange | controller/process_updates.rb:125-131 | webhooks are owed iff the record has a posting (a non-empty `applications` list); the change's time is recorded either way |
| Tagging.LocationFromTags | controller/process_updates.rb:344-351 | the cohort found is the one for the first location name in the first tag that contains any, tags scanned in order and then names in table order, on the downcased tag; none is found iff no tag contains any location name |
| Tagging.FirstLocationTagDecides | controller/process_updates.rb:344-351 | tags are scanned in order: tags added later do not change a location already found |
| Tagging.CheckNoPostingAsWritten | controller/process_updates.rb:106-122 | as written, `check_no_posting` raises TypeError exactly when it finds a location, because the entry has no `:name`; otherwise it does what the corrected one does |
| Tagging.CheckNoPosting | controller/process_updates.rb:106-122 | a record with a posting (or an archived one, when skipped) is untouched; otherwise it is assigned iff a location tag is found, and gets the assigned tags, or the none-found tag |
| Tagging.LinkedInExactlyOne | controller/process_updates.rb:68-99 | an InMail lead keeps exactly the expected one of the three LinkedIn tags (accept when it has emails or phones, else potential accept after 1500 ms, else decline); any other record keeps none; other tags are untouched |
| Tagging.CheckLinkedInDaemon | app/controller.rb:154-168 | the suspected-opt-out tag is present iff: no posting, stage `lead-responded`, origin `sourced`, sources `["LinkedIn"]`, and last interaction within 5000 ms of creation |
| Tagging.CheckLinkedInDaemonAsWritten | app/controller.rb:154-168 | as written, every call raises NameError, because both branches read the undefined `TAG_LINKEDIN_SUSPECTED_OPTOUT` |
| Tagging.DaemonIgnoresExpandedStage | app/controller.rb:154-168 | the daemon's classifier misses a lead whose stage is an expanded object, which the current one accepts |
| Process.RemoveLegacy | controller/process_updates.rb:372-379 | legacy cleanup removes exactly the legacy tags and links and keeps everything else |
| Process.DaemonCleanupKeepsSuspectedTag | app/controller.rb:425-431 | the intended suspected-opt-out tag (config/config.rb's "decline (suspected)" tag) is dropped by the current cleanup but kept by the daemon's, so the tag the daemon's classifier leaves survives its cleanup |
| Process.CurrentTagsSurviveCleanup | controller/process_updates.rb:372-379 | the cleanup never removes a current LinkedIn or location tag |
| Process.Assign | controller/process_updates.rb:106-122 | a record is assigned iff it has no posting, is not skipped as archived, and a location tag is found; then it is replaced by the re-fetched record |
| Process.Prepare | controller/process_updates.rb:12-27 | the first half of a pass opens a batch, fails only when reading the metadata fails, and finds a latest change no earlier than the last interaction; the change is `latest_change`'s and the baseline is `last_change_detected` read right after it (:15-17) |
| Process.NoNotifyUpdate | controller/process_updates.rb:47-52 | the no-notify path stores a time no earlier than the last interaction, every note time, and the old stored time |
| Process.Report | controller/process_updates.rb:43-56 | notifying stores the change's time and owes webhooks iff the record has a posting (a non-empty `applications` list); otherwise the no-notify time is stored |
| Process.CohortSteps | controller/process_updates.rb:29-57 | a pass over a cohort record notifies iff the decision over the post-rules detection says so, and then stores the reported change's time |
| Process.ProcessOpportunity | controller/process_updates.rb:7-66 | anonymised records are skipped untouched; a pass fails only when reading the metadata fails; the batch is closed afterwards; webhooks owed implies sent implies updated; a record with a non-cohort posting skips the rules and metadata but still commits its queue; otherwise a webhook is sent iff the latest change is more than 100 ms past `last_change_detected` (:17) or the detectors, run after `prepare_app_responses`, `add_links` and the rules, report a tag or link change (:36-41) |
| Process.Finish | controller/process_updates.rb:29-65 | the second half of a pass closes the batch; webhooks owed implies sent implies updated; a record with a non-cohort posting keeps its metadata, sends no webhook and commits exactly its queued tag and link calls; otherwise the webhook is sent iff `Notifier.Decide` says so over the detection after `prepare_app_responses`, `add_links` and the rules in that order, and without one the stored time is the no-notify maximum of :51 over the notes, the last interaction and the stored time |
| Process.AddLinks | controller/process_updates.rb:281-286 | `add_links` does nothing when the stored `link_rules` is the rules' checksum; otherwise the checksum is stored iff the link rules report a new link; no other metadata key changes |
| Process.AddLinksOnce | controller/process_updates.rb:282-285 | once the checksum is stored, a later pass with the same link rules changes nothing |
| Process.LastWebhookChange | app/controller.rb:309-317 | the time is at least `createdAt`, `lastAdvancedAt`, `last_change_detected`, every application's `createdAt` and every legacy last-change tag |
| Process.DaemonPrepare | app/controller.rb:104-116 | the daemon's first half fails only when reading the metadata fails, and its times are no earlier than the last interaction and the creation time; the change is `latest_change`'s and the baseline is `last_webhook_change` of the record right after it (:105-107) |
| Process.DaemonFinish | app/controller.rb:118-148 | the daemon's second half leaves the batch flag as it was and never reports an update; webhooks owed implies sent; a record with a non-cohort posting keeps its metadata and commits exactly its queued calls; otherwise the webhook is sent iff `Notifier.Decide` says so over the detection after the response and feedback steps, then the legacy cleanup, then the rules (:120-132), and without one the stored time is the corrected `Notifier.DaemonNoNotifyTime` over the notes and the last interaction (:142) |
| Process.DaemonProcessOpportunity | app/controller.rb:100-152 | the daemon never opens a batch or reports an update; webhooks owed implies sent; a record it assigns had no posting; a pass that succeeds had a successful first half, and for a record without a posting or with a cohort application a webhook is sent iff the latest change is more than 100 ms past `last_webhook_change` (:107) or the detectors after the rules report a change (:127-132) |
| LegacyClient.BatchedTagCallsKeepQueues | client.rb:424-442 | while batching, tag calls send nothing, and the tag queues stay duplicate-free and disjoint |
| LegacyClient.TagChecksumIgnoresOrder | client.rb:268-270 | the legacy tag checksum ignores the order of the tags |
| LegacyClient.LegacyChecksumCountsOtherBotTags | client.rb:268-270 | unlike the current checksum, the legacy one counts bot tags other than last-change and checksum tags |
| LegacyClient.TagsHaveChanged | client.rb:253-264 | a change is reported iff a checksum tag exists and differs; a differing checksum tag is replaced, so afterwards the stored checksum is the current one |
| LegacyClient.LegacySecondCallQuiet | client.rb:253-264 | right after a call, a second call reports nothing and changes nothing |
| LegacyClient.LegacyFirstSightQuiet | client.rb:253-264 | with no checksum tag, nothing is reported but the checksum tag is written |
| LegacyClient.LegacyLocationFromTags | client.rb:397-404 | the location is the first one found, scanning tags in order and names in order, by substring on the downcased tag |
| LegacyClient.LocationsAgree | client.rb:397-404 | the legacy and current location lookups find the same location |
| LegacyClient.MapSourceIsLastMatch | client.rb:344-346 | within one mapping table, the last matching phrase wins |
| LegacyClient.FirstWith | client.rb:331 | only the first question whose simplified title contains the phrase is examined |
| LegacyClient.SourceFromQuestions | client.rb:328-370 | a blank answer raises NoMethodError; a non-empty "who referred you" answer gives Referral before the other questions |
| LegacyClient.SourceFromApplication | client.rb:313-371 | without an application the result is a message, and a message means there was no application |
| LegacyClient.LaterQuestionsIgnored | client.rb:331-366 | once each phrase has been found, further questions do not change the outcome |
| Commands.Processed | controller/commands.rb:83 | once the stop flag is set after a record, no later record is processed |
| Commands.ProcessOpportunities | controller/commands.rb:53-87 | `unique_contacts` is the number of distinct contacts; 3+ ≤ duplicates ≤ unique ≤ opportunities; each outcome counter counts its records (the anonymized one read with the Symbol key, as intended) and is at most `opportunities`; the progress lines are exactly the multiples of 50 up to `updated` |
| Commands.ResultKeys | controller/process_updates.rb:8 | the anonymized result has only the Symbol key `:anonymized`, so the String key `'anonymized'` is never truthy; any other result's String-keyed flags read back as set |
| Commands.ProcessOpportunitiesAsWritten | controller/commands.rb:75 | as written, the anonymized counter stays 0 on every run, while the record count, contacts and other counters are as intended |
| Commands.LogThresholds | controller/commands.rb:77-80 | one progress line per multiple of 50, each emitted once, in increasing order |
| Commands.ContactsSeenNested | controller/commands.rb:64-68 | contacts seen three times are among those seen twice, which are among all contacts |
| Commands.ExportFilterAppend | controller/commands.rb:102-104 | the export filter keeps records in reading order: filtering two runs of records is filtering each, one after the other |
| Commands.ExportFilterSnoc | controller/commands.rb:102-104 | a record read after others is kept after their kept records, exactly when it has no posting or a cohort application |
| Commands.ExportRecords | controller/commands.rb:104-135 | exports keep exactly the records that have no posting or a cohort application, in order; a test run keeps at most the first 100 |
| Commands.BigQueryInsertedAsWritten | controller/commands.rb:103-113 | the BigQuery export inserts a prefix of the kept records whose length is a multiple of 100, so fewer than 100 kept records are left out |
| Commands.BigQueryDropsLastBatch | controller/commands.rb:103-113 | the inserted records are all the kept ones iff their number is a multiple of 100; fewer than 100 kept records insert nothing |
| Fixes.DuplicateConditions | controller/fixes.rb:10-17 | same posting iff some id occurs twice (`nil` as `'none'`); different posting iff two distinct real ids; without posting iff a real id and `'none'` both occur |
| Fixes.DetectDuplicatesAsWritten | controller/fixes.rb:8-18 | as written, a call raises NameError iff one of the lines that reads the undefined prefix runs: fewer than two applications, or one of the three conditions |
| Fixes.DetectDuplicatesAlwaysRaises | controller/fixes.rb:8-18 | as written, every call raises NameError, because two or more posting ids always meet one of the three conditions |
| Fixes.DetectDuplicates | client.rb:384-394 | with client.rb's prefix ('🤖 [auto] duplicate opportunity '), each duplicate tag is present iff its condition holds or it was already there with at least two applications; other tags are kept unless they carry the duplicate prefix with fewer than two applications |
| Fixes.FewApplicationsClearDuplicateTags | client.rb:385 | with fewer than two applications, no tag with client.rb's duplicate prefix remains (the corrected `Fixes.DetectDuplicates`) |
| Fixes.TidyNote | controller/fixes.rb:82-94 | a deleted "Referred by" note is reinstated iff the last interaction is within 60000 ms of the deletion; only live bot notes starting with "Updated reporting" or "Assigned to " are deleted; a note without fields raises |
| Fixes.TidyNotes | controller/fixes.rb:80-96 | tidying a list succeeds iff every note does, with one action per note |
| Fixes.ArchiveSelected | controller/fixes.rb:104-114 | a record is selected iff it has a posting and a cohort application by the bot, its last stage change is by the bot to a stage other than `lead-new`/`lead-reached-out`, and it was updated more than 5000 ms from its creation |
| Fixes.StageToRestore | controller/fixes.rb:134-153 | the fix applies iff the last change is by the bot to `applicant-new` and there are two changes or more; it restores the second-to-last target stage |
| Fixes.FixUnarchivedTagPrefix | controller/fixes.rb:120 | the `archive_accidental_postings` tag as written does not start with the auto tag prefix; the corrected tag does and is not a bot tag |
| Fixes.FixTagPrefix | controller/fixes.rb:152 | the `fix_archived_stage` tag as written does not start with the auto tag prefix; the corrected tag does and is not a bot tag |

## Left out

- HTTP and the Lever API (fetching, paging, retries, `add_note`, `assign_to_job`, `add_candidate_to_posting`) are left out; only their effect on the local record is modelled. An added note is only its time.
- Webhooks are forked and concurrent; the model records only whether webhooks are owed and whether the pass counts as updated.
- BigQuery, S3, CSV, Slack, the web router, the CLI, logging and the `SIGTERM` trap are left out. Stopping is the input flag `stopAfter`.
- MD5 is an uninterpreted function, and the rule-source checksums are opaque.
- Date parsing (`DateTime.parse`, `Util.datetimestr_to_timestamp`) is a parameter `parse` in the daemon's `last_webhook_change`.
- The rule engine, `summarise_feedbacks` and feedback fetching are arbitrary queue operations and note times.
- Process.AddLinks: the link rules are a parameter (`LinkRules`: the checksum of their source, their queued calls, the links they report as new). The class behind `rules` and its `update_links` are not defined in the repository's files, so which links it adds and the MD5 of its source text are not modelled. Only the `link_rules` metadata check and write are.
- `refresh_opp` is a parameter: the re-fetched record replaces the current one.
- `Util.is_archived` is not defined in app/util.rb, and `add_tags_if_unset`, `remove_tags_if_set` and `OPP_EXPAND_VALUES` are not defined in app/client.rb. The model takes "archived" to be a field of the record, the two tag calls to mean add-if-absent and remove-if-present, and `client.OPP_EXPAND_VALUES` to be an expand list like the literal at app/controller.rb:78, which only changes what the API returns.
- Commands.ProcessOpportunities: as written, `client.OPP_EXPAND_VALUES` (controller/commands.rb:62) raises NoMethodError before the first record, and so do both exports (:100, :128). The model assumes the expand list exists.
- Tagging.CheckLinkedInDaemon: the tag is a parameter, because app/controller.rb:164 and :166 read `TAG_LINKEDIN_SUSPECTED_OPTOUT`, which no file defines. As written, every call raises NameError (`Tagging.CheckLinkedInDaemonAsWritten`). `Tagging.TAG_LINKEDIN_SUSPECTED_OPTOUT` names the evidently intended value.
- `Text.Downcase` lower-cases ASCII letters only, while Ruby's `downcase` maps all of Unicode. For the six location names the lookups agree: the only non-ASCII characters that downcase to ASCII are U+212A (to 'k') and U+0130 (to 'i' and a combining dot), and no name contains 'k' or ends in 'i'.
- `Util.simplify_str` (controller/process_updates.rb:275-276) is not defined in app/util.rb, so `simple_response_text` is not modelled. `LegacyClient.Simplify` models client.rb's inline `downcase.gsub(/[^a-z ]/, '')` (client.rb:322-323) with the ASCII-only `Text.Downcase`.
- LegacyClient.Simplify: a title or answer containing U+0130 or U+212A keeps an 'i' or a 'k' in Ruby (the combining dot is then removed) but loses the letter in the model. So a phrase with an 'i', such as "how did you hear about ef", can match in Ruby where `LegacyClient.FirstWith` finds nothing.
- `source_from_application`'s log message text is not modelled. Its second "Couldn't find custom question responses." message cannot be reached, because `has_application` already requires custom questions.
- The duplicate-group consolidation (archiving duplicates, original or historic attribution), `summarise_opportunities`, `fix_auto_assigned_tags` and `fix_checksum_links` are not modelled: they have no implementation here, or are one-off data migrations.
- The fixes' remote actions (deleting and re-adding notes, archiving, changing stage) are outcomes (`NoteAction`, a `bool`, the stage id to restore), not calls.
- client.rb's legacy `remove_tags_with_prefix` (client.rb:406-410) has the same delete-during-each skip as app/client.rb; the model uses the corrected removal there too.
- Process.CohortSteps: the no-notify bounds are stated relative to the record as it is after the post-rules detection, not to the record at the start of the pass. The detectors change only checksums, not `last_change_detected`.
- Process.DaemonProcessOpportunity: the time stored on the daemon's no-notify path is stated by `Process.DaemonFinish`, not carried up to this member.
- Commands.ProcessOpportunities: `process_opportunity` raising inside the loop is not modelled; the source has no rescue, so an exception ends the run.
- Process.Prepare: "fails only when reading the metadata fails" holds of the corrected members named under "## Findings" that it composes (`Tagging.LocationFromTags` and `Tagging.CheckNoPosting`). As written, a pass also raises TypeError at controller/process_updates.rb:347 for any record without a posting that has a tag, and at :116 once a location is found.
- Process.ProcessOpportunity: composes the corrected members of "## Findings". As written, a pass also raises TypeError at controller/process_updates.rb:347 or :116, NoMethodError at app/client.rb:78 when a removal is queued, and ArgumentError at controller/process_updates.rb:51 when a note was added and nothing is notified.
- Process.DaemonPrepare: composes the corrected members of "## Findings", with the suspected-opt-out tag as a parameter. As written, once the metadata is read, every pass raises NameError at app/controller.rb:164 or :166 (`Tagging.CheckLinkedInDaemonAsWritten`) before `check_no_posting` runs. With that corrected, it raises TypeError at :401 or :185 for a record without a posting that has a tag.
- Process.DaemonFinish: composes the corrected members of "## Findings". As written, the daemon's pass runs only inside the batch that app/controller.rb:74 opens, and it raises NoMethodError at app/client.rb:78 when a removal is queued, and :142 raises ArgumentError once a note was added and nothing is notified.
- Process.DaemonProcessOpportunity: composes `Process.DaemonPrepare` and `Process.DaemonFinish`, and so the corrected members named there.
- Fixes.TidyNotes: on a failure the result is only the failure. The actions already carried out for earlier notes are not listed.

## Findings

| source | as written | input that shows it | evidently intended | confidence | as-written member | corrected member |
|---|---|---|---|---|---|---|
| app/client.rb:78 | `commit_opp` calls the undefined `remove_annotation` when a remove queue is non-empty | a record with `_removeTags == ['x']` | send the queued removals through `remove_annotations` | high, not executed | Annotations.CommitOppAsWritten | Annotations.CommitOpp |
| app/client.rb:135 | `remove_annotations` outside a batch reads the undefined local `tags` (NameError) | any non-batched remove call | remove `values` locally and send one remove call | high, not executed | Annotations.RemoveAnnotationsAsWritten | Annotations.RemoveAnnotations |
| controller/process_updates.rb:59 | `commit_opp` returns the array `['Tags','Links']`, which is always truthy, so `updated` is always set | a record with both queues empty | updated only when something was sent | high, not executed | Annotations.CommitOppAsWrittenAlwaysTruthy | Annotations.CommitOpp |
| app/client.rb:90-94 | deleting from the array while iterating over it skips the entry after each removed one | tags `['p1', 'p2']` with prefix `'p'` leave `['p2']` | remove every entry with the prefix | high, not executed | Annotations.RemoveWithPrefixSkips | Annotations.RemoveWithPrefixLocal |
| controller/process_updates.rb:347 | `location_from_tags` reads `cohort[:name]`, but the cohort jobs have `:tag`; `include?(nil)` raises TypeError | any record without a posting that has a tag | compare with the cohort's `:tag` | high, not executed | Tagging.LocationFromTagsAsWritten | Tagging.LocationFromTags |
| controller/process_updates.rb:51 | `_addedNoteTimestamp` is the array `[0, time]` (app/client.rb:184 reads the misspelled `_addedNote`), and `max` over an Array and Integers raises ArgumentError | a pass that added a note and does not notify | the max of the note time, the last interaction and the stored time | high, not executed | Notifier.NoNotifyTimeAsWritten | Notifier.NoNotifyTime |
| controller/fixes.rb:120 | the tag of `archive_accidental_postings` starts with the UTF-8 robot bytes read as Windows-1252 ("ðŸ¤– "), not with `AUTO_TAG_PREFIX` | the tag `"ðŸ¤– fix_unarchived_5"` | `AUTO_TAG_PREFIX + 'fix_unarchived_5'` | medium, not executed | Fixes.FixUnarchivedTagPrefix | Fixes.FixUnarchivedTagPrefix |
| controller/fixes.rb:152 | the tag of `fix_archived_stage` has the same Windows-1252 reading of the robot bytes | the tag `"ðŸ¤– fix_archived_stage"` | `AUTO_TAG_PREFIX + 'fix_archived_stage'` | medium, not executed | Fixes.FixTagPrefix | Fixes.FixTagPrefix |
| app/controller.rb:401 | the daemon's `location_from_tags` has the same `cohort[:name]` lookup as controller/process_updates.rb:347, and raises TypeError | any record without a posting that has a tag | compare with the cohort's `:tag` | high, not executed | Tagging.LocationFromTagsAsWritten | Tagging.LocationFromTags |
| controller/process_updates.rb:116 | even with a location found, the assignment tag is `TAG_ASSIGN_TO_LOCATION_PREFIX + location[:name]`; no cohort entry has `:name`, so `String + nil` raises TypeError | with line 347 corrected, a lead without a posting tagged "London" | the cohort's `:tag` after the prefix | high, not executed | Tagging.CheckNoPostingAsWritten | Tagging.CheckNoPosting |
| app/controller.rb:185 | the daemon's `check_no_posting` has the same `location[:name]` concatenation | with line 401 corrected, a lead without a posting tagged "London" | the cohort's `:tag` after the prefix | high, not executed | Tagging.CheckNoPostingAsWritten | Tagging.CheckNoPosting |
| app/controller.rb:142 | the daemon's no-notify time takes `max` over `_addedNoteTimestamp`, which is the array `[0, time]`, and the Integer last interaction; this raises ArgumentError | a daemon pass that added a note and does not notify | the max of the note time and the last interaction | high, not executed | Notifier.DaemonNoNotifyTimeAsWritten | Notifier.DaemonNoNotifyTime |
| controller/commands.rb:75 | `process_opportunity` returns `{'anonymized': true}` (controller/process_updates.rb:8), whose key is the Symbol `:anonymized`; `result['anonymized']` reads the String key, which is nil, so the anonymized counter is never incremented | a run over one anonymized record | count the anonymized records | high, not executed | Commands.ProcessOpportunitiesAsWritten | Commands.ProcessOpportunities |
| controller/fixes.rb:9 | `TAG_DUPLICATE_OPPS_PREFIX` is defined only in the legacy client.rb:29, not in config/config.rb or app/client.rb, so `detect_duplicate_opportunities` raises NameError on every call | any record | client.rb's prefix, as the legacy copy at client.rb:384-394 uses it | high, not executed | Fixes.DetectDuplicatesAsWritten | Fixes.DetectDuplicates |
| app/controller.rb:437 | the daemon's copy of `detect_duplicate_opportunities` reads the same undefined constant | any record | client.rb's prefix | high, not executed | Fixes.DetectDuplicatesAsWritten | Fixes.DetectDuplicates |
| app/controller.rb:164 | `check_linkedin_optout` passes `TAG_LINKEDIN_SUSPECTED_OPTOUT` in both branches (:164, :166); config/config.rb defines only `TAG_LINKEDIN_OPTOUT_OLD` (:79), and the daemon calls it on every record (:109), so every pass raises NameError | any record | `TAG_LINKEDIN_OPTOUT_OLD`, "decline (suspected)", which the daemon's cleanup keeps | medium, not executed | Tagging.CheckLinkedInDaemonAsWritten | Tagging.CheckLinkedInDaemon |
| controller/commands.rb:107-110 | `export_to_bigquery` inserts only when a batch reaches 100 records and never inserts the rest after the loop | an export that keeps 5 records inserts none | insert the last partial batch after the loop | medium, not executed | Commands.BigQueryInsertedAsWritten | Commands.ExportRecords |

=== FILE: annotations.dfy ===
/** The annotation (tag and link) mutations of app/client.rb.

    The client either sends an add or remove call to Lever right away, or,
    while batching, records the change in the record's `_addTags`,
    `_removeTags`, `_addLinks`, `_removeLinks` queues (and in its local
    `tags` / `links`) for `commit_opp` to send later. Remote calls are not
    made here: each one is appended to `sent`, and its effect on the local
    record is applied as the source applies it.

    Members suffixed `AsWritten` follow the source line by line where it
    fails or misbehaves; the rest of the model uses the corrected members. */
module Annotations {
  import opened Prelude
  import opened Lists
  import opened Text
  import opened Hashes
  import opened Opportunity

  datatype Kind = Tags | Links
  datatype Op = Add | Remove

  /** One remote call: `POST /opportunities/:id/addTags` and the like. */
  datatype Call = Call(op: Op, kind: Kind, values: seq<string>)

  /** `_addX` and `_removeX` of one kind (nil and `[]` behave alike). */
  datatype Queue = Queue(add: seq<string>, remove: seq<string>)

  /** Everything processing one record changes: the client's batch flag and
      the calls it has sent; the record with its queues, its bot-metadata
      cache (`_bot_metadata`, None until first read) and the times of the
      notes added to it. */
  datatype State = State(
    batch: bool,
    sent: seq<Call>,
    opp: Opp,
    tagQ: Queue,
    linkQ: Queue,
    meta: Option<Hash<MetaValue>>,
    notes: seq<int>)

  /** The local list and both queues of one kind. */
  datatype Side = Side(local: seq<string>, add: seq<string>, remove: seq<string>)

  function GetSide(st: State, kind: Kind): Side {
    match kind
    case Tags => Side(st.opp.tags, st.tagQ.add, st.tagQ.remove)
    case Links => Side(st.opp.links, st.linkQ.add, st.linkQ.remove)
  }

  function SetSide(st: State, kind: Kind, s: Side): (r: State)
    ensures GetSide(r, kind) == s
    ensures r.batch == st.batch && r.sent == st.sent && r.meta == st.meta && r.notes == st.notes
    ensures r.opp.id == st.opp.id
    ensures kind == Tags ==> r.opp == st.opp.(tags := s.local)
    ensures kind == Links ==> r.opp == st.opp.(links := s.local)
    ensures forall k :: k != kind ==> GetSide(r, k) == GetSide(st, k)
  {
    match kind
    case Tags => st.(opp := st.opp.(tags := s.local), tagQ := Queue(s.add, s.remove))
    case Links => st.(opp := st.opp.(links := s.local), linkQ := Queue(s.add, s.remove))
  }

  function Local(st: State, kind: Kind): seq<string> { GetSide(st, kind).local }

  /** `batch_updates(batch)`. */
  function BatchUpdates(st: State, batch: bool): State { st.(batch := batch) }

  // ---------------------------------------------------------------------
  // The queues

  /** Both queues are free of duplicates and share no value. */
  predicate QueuesOk(s: Side) {
    NoDup(s.add) && NoDup(s.remove) && forall v :: v in s.add ==> v !in s.remove
  }

  /** One step of `queue_add_annotations`. */
  function QueueAddOne(s: Side, v: string): (r: Side)
    ensures v in r.local && v in r.add && v !in r.remove
    ensures v !in s.local ==> Count(r.local, v) == 1
    ensures v in s.local ==> r.local == s.local
    ensures forall w :: w != v ==> (w in r.add <==> w in s.add) && (w in r.remove <==> w in s.remove)
    ensures forall w :: w != v ==> Count(r.local, w) == Count(s.local, w)
  {
    var local := AppendNew(s.local, v);
    forall w | w != v ensures Count(local, w) == Count(s.local, w) {
      if v !in s.local { CountSnoc(s.local, v, w); }
    }
    Side(local, AppendNew(s.add, v), Delete(s.remove, v))
  }

  /** One step of `queue_remove_annotations`: a pending add is cancelled
      instead of queueing a removal. */
  function QueueRemoveOne(s: Side, v: string): (r: Side)
    ensures v !in r.local && v !in r.add
    ensures v in r.remove <==> v in s.remove || v !in s.add
    ensures forall w :: w != v ==> (w in r.add <==> w in s.add) && (w in r.remove <==> w in s.remove)
    ensures forall w :: w != v ==> Count(r.local, w) == Count(s.local, w)
  {
    Side(Delete(s.local, v), Delete(s.add, v),
         if v in s.remove || v in s.add then s.remove else s.remove + [v])
  }

  function QueueAdd(s: Side, values: seq<string>): Side
    decreases |values|
  {
    if |values| == 0 then s else QueueAdd(QueueAddOne(s, values[0]), values[1..])
  }

  function QueueRemove(s: Side, values: seq<string>): Side
    decreases |values|
  {
    if |values| == 0 then s else QueueRemove(QueueRemoveOne(s, values[0]), values[1..])
  }

  lemma NoDupDelete(s: seq<string>, x: string)
    requires NoDup(s)
    ensures NoDup(Delete(s, x))
  {
    var r := Delete(s, x);
    forall i, j | 0 <= i < j < |r| ensures r[i] != r[j] {
      if r[i] == r[j] {
        CountDistinct(r, i, j);
        NoDupCount(s, r[i]);
        assert false;
      }
    }
  }

  lemma CountDistinct(s: seq<string>, i: nat, j: nat)
    requires i < j < |s| && s[i] == s[j]
    ensures Count(s, s[i]) >= 2
  {
    if i > 0 {
      CountDistinct(s[1..], i - 1, j - 1);
    } else {
      assert s[1..][j - 1] == s[i];
      CountZero(s[1..], s[i]);
    }
  }

  lemma QueueAddOneOk(s: Side, v: string)
    requires QueuesOk(s)
    ensures QueuesOk(QueueAddOne(s, v))
  {
    NoDupDelete(s.remove, v);
    if v !in s.add { NoDupSnoc(s.add, v); }
  }

  lemma QueueRemoveOneOk(s: Side, v: string)
    requires QueuesOk(s)
    ensures QueuesOk(QueueRemoveOne(s, v))
  {
    NoDupDelete(s.add, v);
    if !(v in s.remove || v in s.add) { NoDupSnoc(s.remove, v); }
  }

  /** A queue request: `queue_add_annotations` or `queue_remove_annotations` of some values. */
  datatype Request = QAdd(values: seq<string>) | QRemove(values: seq<string>)

  function Apply(s: Side, reqs: seq<Request>): Side
    decreases |reqs|
  {
    if |reqs| == 0 then s
    else
      var s' := match reqs[0]
        case QAdd(vs) => QueueAdd(s, vs)
        case QRemove(vs) => QueueRemove(s, vs);
      Apply(s', reqs[1..])
  }

  lemma {:induction false} QueueAddOk(s: Side, values: seq<string>)
    requires QueuesOk(s)
    ensures QueuesOk(QueueAdd(s, values))
    decreases |values|
  {
    if |values| > 0 {
      QueueAddOneOk(s, values[0]);
      QueueAddOk(QueueAddOne(s, values[0]), values[1..]);
    }
  }

  lemma {:induction false} QueueRemoveOk(s: Side, values: seq<string>)
    requires QueuesOk(s)
    ensures QueuesOk(QueueRemove(s, values))
    decreases |values|
  {
    if |values| > 0 {
      QueueRemoveOneOk(s, values[0]);
      QueueRemoveOk(QueueRemoveOne(s, values[0]), values[1..]);
    }
  }

  /** After any sequence of queue requests, starting from well-formed queues
      (empty ones, say), neither queue holds a duplicate and no value is
      both pending addition and pending removal. */
  lemma {:induction false} QueuesStayOk(s: Side, reqs: seq<Request>)
    requires QueuesOk(s)
    ensures QueuesOk(Apply(s, reqs))
    decreases |reqs|
  {
    if |reqs| > 0 {
      match reqs[0]
      case QAdd(vs) => QueueAddOk(s, vs); QueuesStayOk(QueueAdd(s, vs), reqs[1..]);
      case QRemove(vs) => QueueRemoveOk(s, vs); QueuesStayOk(QueueRemove(s, vs), reqs[1..]);
    }
  }

  // ---------------------------------------------------------------------
  // Local effects of sent calls

  /** `values.each { |v| local += [v] unless local.include?(v) }`. */
  function AppendAll(local: seq<string>, values: seq<string>): (r: seq<string>)
    ensures local <= r
    ensures forall w :: w in r <==> w in local || w in values
    ensures forall i :: |local| <= i < |r| ==> r[i] !in local
    decreases |values|
  {
    if |values| == 0 then local
    else
      var r := AppendAll(AppendNew(local, values[0]), values[1..]);
      assert local <= AppendNew(local, values[0]);
      r
  }

  /** `values.each { |v| local.delete(v) }`. */
  function DeleteAll(local: seq<string>, values: seq<string>): (r: seq<string>)
    ensures forall w :: w in r <==> w in local && w !in values
    ensures |r| <= |local|
    decreases |values|
  {
    if |values| == 0 then local else DeleteAll(Delete(local, values[0]), values[1..])
  }

  // ---------------------------------------------------------------------
  // add_annotations / remove_annotations

  /** `add_annotations(opp, type, values, commit)`. */
  function AddAnnotations(st: State, kind: Kind, values: seq<string>, commit: bool): (r: State)
    ensures st.batch && !commit ==> r.sent == st.sent
    ensures !(st.batch && !commit) ==> r.sent == st.sent + [Call(Add, kind, values)]
    ensures forall w :: w in Local(r, kind) <==> w in Local(st, kind) || w in values
    ensures !(st.batch && !commit) ==>
              GetSide(r, kind).add == GetSide(st, kind).add && GetSide(r, kind).remove == GetSide(st, kind).remove
    ensures st.batch && !commit ==> GetSide(r, kind) == QueueAdd(GetSide(st, kind), values)
    ensures forall k :: k != kind ==> GetSide(r, k) == GetSide(st, k)
    ensures kind == Tags ==> r.opp == st.opp.(tags := r.opp.tags)
    ensures kind == Links ==> r.opp == st.opp.(links := r.opp.links)
    ensures r.batch == st.batch && r.meta == st.meta && r.notes == st.notes && r.opp.id == st.opp.id
  {
    if st.batch && !commit then
      QueueAddMembers(GetSide(st, kind), values);
      SetSide(st, kind, QueueAdd(GetSide(st, kind), values))
    else
      var s := GetSide(st, kind);
      SetSide(st, kind, s.(local := AppendAll(s.local, values))).(sent := st.sent + [Call(Add, kind, values)])
  }

  lemma {:induction false} QueueAddMembers(s: Side, values: seq<string>)
    ensures forall w :: w in QueueAdd(s, values).local <==> w in s.local || w in values
    decreases |values|
  {
    if |values| > 0 { QueueAddMembers(QueueAddOne(s, values[0]), values[1..]); }
  }

  lemma {:induction false} QueueRemoveMembers(s: Side, values: seq<string>)
    ensures forall w :: w in QueueRemove(s, values).local <==> w in s.local && w !in values
    ensures |QueueRemove(s, values).local| <= |s.local|
    decreases |values|
  {
    if |values| > 0 {
      QueueRemoveMembers(QueueRemoveOne(s, values[0]), values[1..]);
    }
  }

  /** `remove_annotations(opp, type, values, commit)` as app/client.rb:130-148
      has it: the unbatched path logs `tags`, which is not defined there. */
  function RemoveAnnotationsAsWritten(st: State, kind: Kind, values: seq<string>, commit: bool): (r: Result<State>)
    ensures r.Raised? <==> !(st.batch && !commit)
    ensures r.Raised? ==> r.failure == NameError
  {
    if st.batch && !commit then Ok(SetSide(st, kind, QueueRemove(GetSide(st, kind), values)))
    else Raised(NameError)
  }

  /** `remove_annotations` as intended: send the removal and delete the values locally. */
  function RemoveAnnotations(st: State, kind: Kind, values: seq<string>, commit: bool): (r: State)
    ensures st.batch && !commit ==> r.sent == st.sent
    ensures !(st.batch && !commit) ==> r.sent == st.sent + [Call(Remove, kind, values)]
    ensures forall w :: w in Local(r, kind) <==> w in Local(st, kind) && w !in values
    ensures |Local(r, kind)| <= |Local(st, kind)|
    ensures !(st.batch && !commit) ==>
              GetSide(r, kind).add == GetSide(st, kind).add && GetSide(r, kind).remove == GetSide(st, kind).remove
    ensures st.batch && !commit ==> GetSide(r, kind) == QueueRemove(GetSide(st, kind), values)
    ensures forall k :: k != kind ==> GetSide(r, k) == GetSide(st, k)
    ensures kind == Tags ==> r.opp == st.opp.(tags := r.opp.tags)
    ensures kind == Links ==> r.opp == st.opp.(links := r.opp.links)
    ensures r.batch == st.batch && r.meta == st.meta && r.notes == st.notes && r.opp.id == st.opp.id
  {
    if st.batch && !commit then
      QueueRemoveMembers(GetSide(st, kind), values);
      SetSide(st, kind, QueueRemove(GetSide(st, kind), values))
    else
      var s := GetSide(st, kind);
      SetSide(st, kind, s.(local := DeleteAll(s.local, values))).(sent := st.sent + [Call(Remove, kind, values)])
  }

  /** The batching contract: while batching, a non-committing add or remove
      sends nothing and only changes the queues and the local list; the
      value ends up queued on the right side. */
  lemma BatchedCallsAreLocal(st: State, kind: Kind, v: string)
    requires st.batch
    requires QueuesOk(GetSide(st, kind))
    ensures AddAnnotations(st, kind, [v], false).sent == st.sent
    ensures RemoveAnnotations(st, kind, [v], false).sent == st.sent
    ensures v in GetSide(AddAnnotations(st, kind, [v], false), kind).add
    ensures v !in GetSide(AddAnnotations(st, kind, [v], false), kind).remove
    ensures v !in GetSide(RemoveAnnotations(st, kind, [v], false), kind).add
    ensures v in GetSide(RemoveAnnotations(st, kind, [v], false), kind).remove <==> v !in GetSide(st, kind).add
  {
    var s := GetSide(st, kind);
    assert QueueAdd(s, [v]) == QueueAddOne(s, v);
    assert QueueRemove(s, [v]) == QueueRemoveOne(s, v);
  }

  // ---------------------------------------------------------------------
  // add_tags_if_unset / remove_tags_if_set (not in app/client.rb: assumed)

  /** Add the values not yet present, if there are any. */
  function AddIfUnset(st: State, kind: Kind, values: seq<string>): (r: State)
    ensures forall w :: w in Local(r, kind) <==> w in Local(st, kind) || w in values
    ensures (forall w :: w in values ==> w in Local(st, kind)) ==> r == st
    ensures forall k :: k != kind ==> GetSide(r, k) == GetSide(st, k)
    ensures r.batch == st.batch && r.meta == st.meta && r.notes == st.notes && r.opp.id == st.opp.id
  {
    var missing := Filter(values, (w: string) => w !in Local(st, kind));
    assert |missing| > 0 ==> missing[0] in values && missing[0] !in Local(st, kind);
    if |missing| == 0 then st else AddAnnotations(st, kind, missing, false)
  }

  /** Remove the values that are present, if there are any. */
  function RemoveIfSet(st: State, kind: Kind, values: seq<string>): (r: State)
    ensures forall w :: w in Local(r, kind) <==> w in Local(st, kind) && w !in values
    ensures (forall w :: w in values ==> w !in Local(st, kind)) ==> r == st
    ensures forall k :: k != kind ==> GetSide(r, k) == GetSide(st, k)
    ensures r.batch == st.batch && r.meta == st.meta && r.notes == st.notes && r.opp.id == st.opp.id
  {
    var present := Filter(values, (w: string) => w in Local(st, kind));
    assert |present| > 0 ==> present[0] in values && present[0] in Local(st, kind);
    if |present| == 0 then st else RemoveAnnotations(st, kind, present, false)
  }

  // ---------------------------------------------------------------------
  // commit_opp

  /** The calls `commit_opp` owes for one kind: the adds if any are queued,
      then the removals if any are queued. */
  function OwedFor(st: State, kind: Kind): seq<Call> {
    var q := GetSide(st, kind);
    (if |q.add| > 0 then [Call(Add, kind, q.add)] else [])
    + (if |q.remove| > 0 then [Call(Remove, kind, q.remove)] else [])
  }

  /** Everything `commit_opp` owes: tags first, then links. */
  function OwedCalls(st: State): seq<Call> {
    OwedFor(st, Tags) + OwedFor(st, Links)
  }

  function CommitKind(st: State, kind: Kind): (r: State)
    ensures GetSide(r, kind).add == GetSide(st, kind).add && GetSide(r, kind).remove == GetSide(st, kind).remove
    ensures forall k :: k != kind ==> GetSide(r, k) == GetSide(st, k)
    ensures r.batch == st.batch && r.meta == st.meta && r.notes == st.notes && r.opp.id == st.opp.id
    ensures r.sent == st.sent + OwedFor(st, kind)
    ensures r.tagQ == st.tagQ && r.linkQ == st.linkQ
  {
    var q := GetSide(st, kind);
    var st1 := if |q.add| > 0 then AddAnnotations(st, kind, q.add, true) else st;
    if |q.remove| > 0 then RemoveAnnotations(st1, kind, q.remove, true) else st1
  }

  /** `commit_opp` as intended: it sends what is queued and reports whether it sent anything. */
  function CommitOpp(st: State): (r: (State, bool))
    ensures r.0.sent == st.sent + OwedFor(st, Tags) + OwedFor(st, Links)
    ensures r.1 <==> |OwedCalls(st)| > 0
    ensures r.0.tagQ == st.tagQ && r.0.linkQ == st.linkQ
    ensures r.0.batch == st.batch && r.0.meta == st.meta && r.0.notes == st.notes && r.0.opp.id == st.opp.id
  {
    var st1 := CommitKind(st, Tags);
    var st2 := CommitKind(st1, Links);
    assert GetSide(st1, Links) == GetSide(st, Links);
    (st2, |st2.sent| > |st.sent|)
  }

  /** `commit_opp` as app/client.rb:75-80 has it: the removal step calls the
      undefined `remove_annotation`, and the value returned is the array
      `['Tags', 'Links']`, which is always truthy. */
  function CommitOppAsWritten(st: State): (r: Result<(State, bool)>)
    ensures r.Raised? <==> |st.tagQ.remove| > 0 || |st.linkQ.remove| > 0
    ensures r.Raised? ==> r.failure == NoMethodError
    ensures r.Ok? ==> r.value.1
  {
    if |st.tagQ.remove| > 0 then Raised(NoMethodError)
    else
      var st1 := if |st.tagQ.add| > 0 then AddAnnotations(st, Tags, st.tagQ.add, true) else st;
      if |st1.linkQ.remove| > 0 then Raised(NoMethodError)
      else
        var st2 := if |st1.linkQ.add| > 0 then AddAnnotations(st1, Links, st1.linkQ.add, true) else st1;
        Ok((st2, true))
  }

  /** With nothing queued, the source's `commit_opp` sends nothing yet reports an update. */
  lemma CommitOppAsWrittenAlwaysTruthy(st: State)
    requires st.tagQ == Queue([], []) && st.linkQ == Queue([], [])
    ensures CommitOppAsWritten(st) == Ok((st, true))
    ensures CommitOpp(st) == (st, false)
  {}

  // ---------------------------------------------------------------------
  // remove_tags_with_prefix / remove_links_with_prefix

  /** `local.each { |v| remove(v) if v.start_with?(prefix) }` as Ruby runs it
      when the removal deletes from the very array being iterated: `each`
      walks an index, so the element right after each deleted one is skipped. */
  function EachRemoveAsWritten(st: State, kind: Kind, prefix: string, i: nat): (r: Result<State>)
    decreases |Local(st, kind)| - i
  {
    if i >= |Local(st, kind)| then Ok(st)
    else
      var v := Local(st, kind)[i];
      if StartsWith(v, prefix) then
        match RemoveAnnotationsAsWritten(st, kind, [v], false)
        case Raised(e) => Raised(e)
        case Ok(st') =>
          QueueRemoveMembers(GetSide(st, kind), [v]);
          EachRemoveAsWritten(st', kind, prefix, i + 1)
      else EachRemoveAsWritten(st, kind, prefix, i + 1)
  }

  /** `remove_tags_with_prefix` / `remove_links_with_prefix` as app/client.rb:90-94, 104-108 have them. */
  function RemoveWithPrefixAsWritten(st: State, kind: Kind, prefix: string): Result<State> {
    EachRemoveAsWritten(st, kind, prefix, 0)
  }

  /** Two adjacent matches: the second survives the source's removal. */
  lemma RemoveWithPrefixSkips(st: State)
    requires st.batch && st.opp.tags == ["p1", "p2"] && st.tagQ == Queue([], [])
    ensures RemoveWithPrefixAsWritten(st, Tags, "p").Ok?
    ensures Local(RemoveWithPrefixAsWritten(st, Tags, "p").value, Tags) == ["p2"]
    ensures Local(RemoveWithPrefix(st, Tags, "p"), Tags) == []
  {
    var s := GetSide(st, Tags);
    assert QueueRemove(s, ["p1"]) == QueueRemoveOne(s, "p1");
    assert Delete(["p1", "p2"], "p1") == ["p2"];
    var st1 := SetSide(st, Tags, QueueRemoveOne(s, "p1"));
    assert Local(st1, Tags) == ["p2"];
    assert EachRemoveAsWritten(st, Tags, "p", 0) == EachRemoveAsWritten(st1, Tags, "p", 1);
    RemoveWithPrefixLocal(st, Tags, "p");
    assert WithoutPrefix(st.opp.tags, "p") == [];
  }

  /** Remove each of `values` in turn with an uncommitted `remove`. */
  function RemoveEach(st: State, kind: Kind, values: seq<string>): (r: State)
    ensures Local(r, kind) == DeleteAll(Local(st, kind), values)
    ensures forall k :: k != kind ==> GetSide(r, k) == GetSide(st, k)
    ensures r.batch == st.batch && r.meta == st.meta && r.notes == st.notes && r.opp.id == st.opp.id
    decreases |values|
  {
    if |values| == 0 then st
    else
      var st1 := RemoveAnnotations(st, kind, [values[0]], false);
      RemoveOneLocal(st, kind, values[0]);
      RemoveEach(st1, kind, values[1..])
  }

  lemma RemoveOneLocal(st: State, kind: Kind, v: string)
    ensures Local(RemoveAnnotations(st, kind, [v], false), kind) == Delete(Local(st, kind), v)
  {
    var s := GetSide(st, kind);
    assert QueueRemove(s, [v]) == QueueRemoveOne(s, v);
    assert DeleteAll(s.local, [v]) == Delete(s.local, v);
  }

  /** `remove_*_with_prefix` as intended: every matching entry, found before any is removed. */
  function RemoveWithPrefix(st: State, kind: Kind, prefix: string): State {
    RemoveEach(st, kind, WithPrefix(Local(st, kind), prefix))
  }

  /** The elements of `s` that are not in `vs`, in order. */
  function Keep(s: seq<string>, vs: seq<string>): seq<string> {
    if |s| == 0 then [] else (if s[0] in vs then [] else [s[0]]) + Keep(s[1..], vs)
  }

  lemma {:induction false} KeepDelete(s: seq<string>, v: string, vs: seq<string>)
    ensures Keep(Delete(s, v), vs) == Keep(s, [v] + vs)
  {
    if |s| > 0 {
      KeepDelete(s[1..], v, vs);
      if s[0] != v {
        assert Delete(s, v) == [s[0]] + Delete(s[1..], v);
        assert ([s[0]] + Delete(s[1..], v))[1..] == Delete(s[1..], v);
      }
    }
  }

  lemma {:induction false} DeleteAllKeep(s: seq<string>, vs: seq<string>)
    ensures DeleteAll(s, vs) == Keep(s, vs)
    decreases |vs|
  {
    if |vs| == 0 {
      KeepNone(s);
    } else {
      DeleteAllKeep(Delete(s, vs[0]), vs[1..]);
      KeepDelete(s, vs[0], vs[1..]);
      assert [vs[0]] + vs[1..] == vs;
    }
  }

  lemma {:induction false} KeepNone(s: seq<string>)
    ensures Keep(s, []) == s
  {
    if |s| > 0 { KeepNone(s[1..]); assert s == [s[0]] + s[1..]; }
  }

  lemma {:induction false} KeepPrefixed(s: seq<string>, vs: seq<string>, prefix: string)
    requires forall i :: 0 <= i < |s| ==> (s[i] in vs <==> StartsWith(s[i], prefix))
    ensures Keep(s, vs) == WithoutPrefix(s, prefix)
  {
    if |s| > 0 { KeepPrefixed(s[1..], vs, prefix); }
  }

  /** The intended removal deletes exactly the entries with the prefix and keeps
      every other entry, in order. */
  lemma RemoveWithPrefixLocal(st: State, kind: Kind, prefix: string)
    ensures Local(RemoveWithPrefix(st, kind, prefix), kind) == WithoutPrefix(Local(st, kind), prefix)
  {
    var local := Local(st, kind);
    var matches := WithPrefix(local, prefix);
    DeleteAllKeep(local, matches);
    KeepPrefixed(local, matches, prefix);
  }

  /** Adding one value with an uncommitted add appends it unless present, batched or not. */
  lemma AddOneLocal(st: State, kind: Kind, v: string)
    ensures Local(AddAnnotations(st, kind, [v], false), kind) == AppendNew(Local(st, kind), v)
  {
    var s := GetSide(st, kind);
    assert QueueAdd(s, [v]) == QueueAddOne(s, v);
    assert AppendAll(s.local, [v]) == AppendNew(s.local, v);
  }

  /** `remove_*_with_prefix(opp, prefix)` then `add_*(opp, v)`: the bot's
      way of replacing the entry it keeps under a prefix. */
  function Replace(st: State, kind: Kind, prefix: string, v: string): (r: State)
    requires StartsWith(v, prefix)
    ensures Local(r, kind) == WithoutPrefix(Local(st, kind), prefix) + [v]
    ensures WithPrefix(Local(r, kind), prefix) == [v]
    ensures forall k :: k != kind ==> GetSide(r, k) == GetSide(st, k)
    ensures r.batch == st.batch && r.meta == st.meta && r.notes == st.notes && r.opp.id == st.opp.id
  {
    var st1 := RemoveWithPrefix(st, kind, prefix);
    var kept := WithoutPrefix(Local(st, kind), prefix);
    RemoveWithPrefixLocal(st, kind, prefix);
    AddOneLocal(st1, kind, v);
    assert v !in kept;
    WithPrefixConcat(kept, [v], prefix);
    WithPrefixOfWithout(Local(st, kind), prefix);
    assert WithPrefix([v], prefix) == [v];
    AddAnnotations(st1, kind, [v], false)
  }
}

=== FILE: bot_metadata.dfy ===
/** The bot's own key/value store, kept inside one link of the record:
    `BOT_METADATA_PREFIX + id + '?' + encode_www_form(pairs sorted by key)`
    (controller/process_updates.rb `bot_metadata`, `set_bot_metadata`,
    `commit_bot_metadata`; the daemon's copy in app/controller.rb).

    The map is read from the links once and cached in `_bot_metadata`;
    changes go to the cache, and the link is rewritten at the end of
    processing only when it differs from what the record already carries. */
module BotMetadata {
  import opened Prelude
  import opened Lists
  import opened Text
  import opened Hashes
  import opened Numerals
  import opened FormCodec
  import opened Config
  import opened Opportunity
  import opened Annotations

  /** The prefix `bot_metadata` selects links by. */
  function ReadPrefix(id: string): string { BOT_METADATA_PREFIX + id }

  /** The prefix `commit_bot_metadata` writes and replaces. */
  function WritePrefix(id: string): (p: string)
    ensures StartsWith(p, ReadPrefix(id))
  {
    ReadPrefix(id) + "?"
  }

  /** `s.sub(/[^?]*\?/, '')`: the text after the first `?`; all of `s` when there is none. */
  function AfterQuery(s: string): (r: string)
    ensures '?' !in s ==> r == s
  {
    var i := IndexOf(s, '?');
    if i == |s| then s else s[i + 1..]
  }

  lemma AfterQueryOf(a: string, b: string)
    requires '?' !in a
    ensures AfterQuery(a + "?" + b) == b
  {
    IndexOfAfter(a, '?', b);
  }

  lemma NoQueryInPrefix()
    ensures '?' !in BOT_METADATA_PREFIX
  {
    assert BOT_METADATA_PREFIX == "http://\U{1F916}/bot/data/";
  }

  /** Decoded pairs: every value is a String. */
  function AsStrings(ps: seq<(string, string)>): (r: seq<(string, MetaValue)>)
    ensures |r| == |ps|
    ensures forall i :: 0 <= i < |ps| ==> r[i] == (ps[i].0, Str(ps[i].1))
  {
    if |ps| == 0 then [] else [(ps[0].0, Str(ps[0].1))] + AsStrings(ps[1..])
  }

  /** The map stored in `links` for record `id`: decoded from the first link
      under `ReadPrefix(id)`, or from the empty string when there is none. */
  function ReadLinks(links: seq<string>, id: string): (r: Result<Hash<MetaValue>>)
    ensures r.Ok? ==> Keyed(r.value)
    ensures r.Raised? ==> r.failure == ArgumentError
  {
    var matching := WithPrefix(links, ReadPrefix(id));
    var source := if |matching| > 0 then matching[0] else "";
    match DecodeForm(AfterQuery(source))
    case Raised(e) => Raised(e)
    case Ok(pairs) => Ok(FromPairs(AsStrings(pairs)))
  }

  /** The map read depends only on the links under the prefix. */
  lemma SameSelectionSameRead(l1: seq<string>, l2: seq<string>, id: string)
    requires WithPrefix(l1, ReadPrefix(id)) == WithPrefix(l2, ReadPrefix(id))
    ensures ReadLinks(l1, id) == ReadLinks(l2, id)
  {}

  /** No link for the record: the empty map. */
  lemma ReadNothing(links: seq<string>, id: string)
    requires forall i :: 0 <= i < |links| ==> !StartsWith(links[i], ReadPrefix(id))
    ensures ReadLinks(links, id) == Ok([])
  {
    WithPrefixNone(links, ReadPrefix(id));
  }

  /** Only the first link under the prefix is read: what follows it does not matter. */
  lemma ReadFirstOnly(before: seq<string>, link: string, after: seq<string>, id: string)
    requires forall i :: 0 <= i < |before| ==> !StartsWith(before[i], ReadPrefix(id))
    requires StartsWith(link, ReadPrefix(id))
    ensures ReadLinks(before + [link] + after, id) == ReadLinks([link], id)
  {
    WithPrefixConcat(before, [link] + after, ReadPrefix(id));
    WithPrefixConcat([link], after, ReadPrefix(id));
    WithPrefixNone(before, ReadPrefix(id));
    assert before + [link] + after == before + ([link] + after);
  }

  /** The text after the first `?` is decoded with `decode_www_form`, and
      of two pairs with the same name the later one wins. */
  lemma ReadLaterPairWins(id: string, rest: string, pairs: seq<(string, string)>, k: string)
    requires '?' !in id + rest
    ensures var r := ReadLinks([ReadPrefix(id) + rest + "?" + EncodeForm(pairs)], id);
            r.Ok? && Get(r.value, k) == LastValue(AsStrings(pairs), k)
  {
    var link := ReadPrefix(id) + rest + "?" + EncodeForm(pairs);
    NoQueryInPrefix();
    assert ReadPrefix(id) + rest == BOT_METADATA_PREFIX + (id + rest);
    AfterQueryOf(ReadPrefix(id) + rest, EncodeForm(pairs));
    assert WithPrefix([link], ReadPrefix(id)) == [link];
    FormRoundTrip(pairs);
  }

  /** A metadata link with no `?` holds the robot emoji, which
      `decode_www_form` rejects. */
  lemma ReadWithoutQueryRaises(id: string)
    requires '?' !in id
    ensures ReadLinks([ReadPrefix(id)], id) == Raised(ArgumentError)
  {
    NoQueryInPrefix();
    assert WithPrefix([ReadPrefix(id)], ReadPrefix(id)) == [ReadPrefix(id)];
    assert ReadPrefix(id)[7] == '\U{1F916}';
  }

  // ---------------------------------------------------------------------
  // The cache

  /** `bot_metadata(opp)`: `opp['_bot_metadata'] ||= <read from links>`. */
  function Metadata(st: State): (r: Result<(State, Hash<MetaValue>)>)
    ensures st.meta.Some? ==> r == Ok((st, st.meta.value))
    ensures r.Ok? ==> r.value.0 == st.(meta := Some(r.value.1))
    ensures st.meta.None? ==> r.Raised? == ReadLinks(st.opp.links, st.opp.id).Raised?
  {
    if st.meta.Some? then Ok((st, st.meta.value))
    else
      match ReadLinks(st.opp.links, st.opp.id)
      case Raised(e) => Raised(e)
      case Ok(h) => Ok((st.(meta := Some(h)), h))
  }

  /** Once read, the map is served from the cache: later link changes are not re-read. */
  lemma MetadataCached(st: State, links: seq<string>)
    requires Metadata(st).Ok?
    ensures var st1 := Metadata(st).value.0;
            Metadata(st1.(opp := st1.opp.(links := links))).Ok?
            && Metadata(st1.(opp := st1.opp.(links := links))).value.1 == Metadata(st).value.1
  {}

  /** The cache is a well-formed Ruby Hash (every key once), or absent. */
  predicate MetaOk(st: State) { st.meta.Some? ==> Keyed(st.meta.value) }

  /** `set_bot_metadata(opp, key, value)`. */
  function SetMetadata(st: State, key: string, value: MetaValue): (r: Result<State>)
    requires MetaOk(st)
    ensures r.Raised? <==> Metadata(st).Raised?
    ensures r.Ok? ==> MetaOk(r.value) && r.value.meta.Some?
    ensures r.Ok? ==> Get(r.value.meta.value, key) == Some(value)
    ensures r.Ok? ==> forall k :: k != key ==> Get(r.value.meta.value, k) == Get(Metadata(st).value.1, k)
    ensures r.Ok? ==> r.value.opp == st.opp && r.value.sent == st.sent && r.value.batch == st.batch
                      && r.value.tagQ == st.tagQ && r.value.linkQ == st.linkQ && r.value.notes == st.notes
  {
    match Metadata(st)
    case Raised(e) => Raised(e)
    case Ok((st1, h)) =>
      PutKeyed(h, key, value);
      Ok(st1.(meta := Some(Put(h, key, value))))
  }

  // ---------------------------------------------------------------------
  // The payload

  /** `value.to_s` as `encode_www_form` writes it. */
  function Stringify(v: MetaValue): string {
    match v
    case Str(s) => s
    case Num(n) => IntToString(n)
  }

  /** The pairs `[k, h[k]]` for the keys `ks`, in that order. */
  function PairsAt(h: Hash<MetaValue>, ks: seq<string>): (r: seq<(string, string)>)
    requires forall i :: 0 <= i < |ks| ==> ks[i] in Keys(h)
    ensures |r| == |ks|
    ensures forall i :: 0 <= i < |ks| ==> r[i] == (ks[i], Stringify(Get(h, ks[i]).value))
  {
    if |ks| == 0 then [] else [(ks[0], Stringify(Get(h, ks[0]).value))] + PairsAt(h, ks[1..])
  }

  /** `h.sort` on a Hash: its pairs in key order (keys are distinct, so values never decide). */
  function SortedPairs(h: Hash<MetaValue>): seq<(string, string)> {
    SortedKeys(h);
    PairsAt(h, Sort(Keys(h)))
  }

  lemma SortedKeys(h: Hash<MetaValue>)
    ensures forall k :: k in Sort(Keys(h)) <==> k in Keys(h)
  {
    var ks := Sort(Keys(h));
    forall k ensures k in ks <==> k in Keys(h) {
      assert k in ks <==> k in multiset(ks);
      assert k in Keys(h) <==> k in multiset(Keys(h));
    }
  }

  /** The link `commit_bot_metadata` writes for the map `h` of record `id`. */
  function Link(id: string, h: Hash<MetaValue>): (link: string)
    ensures StartsWith(link, WritePrefix(id))
  {
    WritePrefix(id) + EncodeForm(SortedPairs(h))
  }

  /** The link depends on the map's contents only, not on the order keys were set in. */
  lemma LinkIgnoresOrder(id: string, h1: Hash<MetaValue>, h2: Hash<MetaValue>)
    requires Keyed(h1) && Keyed(h2)
    requires forall k :: Get(h1, k) == Get(h2, k)
    ensures Link(id, h1) == Link(id, h2)
  {
    forall k ensures (k in Keys(h1)) == (k in Keys(h2)) {
      assert Get(h1, k).None? == Get(h2, k).None?;
    }
    SameContentsSameKeys(h1, h2);
    SortPermutation(Keys(h1), Keys(h2));
    assert SortedPairs(h1) == SortedPairs(h2);
  }

  lemma PairsAtValue(h: Hash<MetaValue>, ks: seq<string>, k: string)
    requires forall i :: 0 <= i < |ks| ==> ks[i] in Keys(h)
    ensures LastValue(AsStrings(PairsAt(h, ks)), k)
         == if k in ks then Some(Str(Stringify(Get(h, k).value))) else None
  {
    var ps := AsStrings(PairsAt(h, ks));
    assert Keys(ps) == ks;
    if k in ks {
      LastValueUniform(ps, k, Str(Stringify(Get(h, k).value)));
    } else {
      LastValueUniform(ps, k, Str(""));
    }
  }

  /** The sorted pairs carry each key of the map once, with its value as a string. */
  lemma SortedPairsValue(h: Hash<MetaValue>, k: string)
    ensures LastValue(AsStrings(SortedPairs(h)), k)
         == if k in Keys(h) then Some(Str(Stringify(Get(h, k).value))) else None
  {
    SortedKeys(h);
    PairsAtValue(h, Sort(Keys(h)), k);
  }

  /** Reading the written link gives back the map, each value as its string. */
  lemma ReadLink(id: string, h: Hash<MetaValue>, k: string)
    requires '?' !in id
    ensures var r := ReadLinks([Link(id, h)], id);
            r.Ok? && Get(r.value, k) == if k in Keys(h) then Some(Str(Stringify(Get(h, k).value))) else None
  {
    var pairs := SortedPairs(h);
    var link := Link(id, h);
    NoQueryInPrefix();
    AfterQueryOf(ReadPrefix(id), EncodeForm(pairs));
    assert WithPrefix([link], ReadPrefix(id)) == [link];
    FormRoundTrip(pairs);
    SortedPairsValue(h, k);
  }

  // ---------------------------------------------------------------------
  // commit_bot_metadata

  /** `commit_bot_metadata(opp)`: the flag is true when the link was rewritten (nil otherwise). */
  function CommitMetadata(st: State): (r: (State, bool))
    ensures !r.1 ==> r.0 == st
    ensures r.1 <==> st.meta.Some? && |st.meta.value| > 0
                     && WithPrefix(st.opp.links, WritePrefix(st.opp.id)) != [Link(st.opp.id, st.meta.value)]
    ensures r.1 ==> WithPrefix(Local(r.0, Links), WritePrefix(st.opp.id)) == [Link(st.opp.id, st.meta.value)]
    ensures r.1 ==> forall l :: !StartsWith(l, WritePrefix(st.opp.id)) ==> (l in Local(r.0, Links) <==> l in st.opp.links)
    ensures r.0.meta == st.meta && r.0.opp.id == st.opp.id && r.0.batch == st.batch && GetSide(r.0, Tags) == GetSide(st, Tags)
  {
    if st.meta.None? || |st.meta.value| == 0 then (st, false)
    else
      var prefix := WritePrefix(st.opp.id);
      var link := Link(st.opp.id, st.meta.value);
      if WithPrefix(st.opp.links, prefix) == [link] then (st, false)
      else
        (Replace(st, Links, prefix, link), true)
  }

  /** Committing twice in a row: the second commit finds its link and does nothing. */
  lemma CommitIdempotent(st: State)
    ensures !CommitMetadata(CommitMetadata(st).0).1
  {}

  /** The round trip across passes: after the commit, a fresh read of the
      record's links gives back every key of the cache with its value as a
      string, and no other key. The record's links must not already hold
      some other link under `BOT_METADATA_PREFIX + id` without the `?`. */
  lemma CommitThenRead(st: State, k: string)
    requires st.meta.Some? && |st.meta.value| > 0
    requires '?' !in st.opp.id
    requires forall i :: 0 <= i < |st.opp.links| ==>
               StartsWith(st.opp.links[i], ReadPrefix(st.opp.id)) ==> StartsWith(st.opp.links[i], WritePrefix(st.opp.id))
    ensures var h := st.meta.value;
            var r := ReadLinks(Local(CommitMetadata(st).0, Links), st.opp.id);
            r.Ok? && Get(r.value, k) == if k in Keys(h) then Some(Str(Stringify(Get(h, k).value))) else None
  {
    var id := st.opp.id;
    var h := st.meta.value;
    var links := Local(CommitMetadata(st).0, Links);
    assert WithPrefix(links, WritePrefix(id)) == [Link(id, h)];
    forall i | 0 <= i < |links| && StartsWith(links[i], ReadPrefix(id))
      ensures StartsWith(links[i], WritePrefix(id))
    {
      var l := links[i];
      assert StartsWith(l, WritePrefix(id)) || l in st.opp.links;
      if l in st.opp.links {
        var j :| 0 <= j < |st.opp.links| && st.opp.links[j] == l;
      }
    }
    WithPrefixNarrow(links, ReadPrefix(id), WritePrefix(id));
    WithPrefixNarrow([Link(id, h)], ReadPrefix(id), WritePrefix(id));
    assert ReadLinks(links, id) == ReadLinks([Link(id, h)], id);
    ReadLink(id, h, k);
  }

  /** `bot_metadata(opp)['last_change_detected'].to_i`: 0 when the key is absent. */
  function LastChangeDetected(h: Hash<MetaValue>): (t: int)
    ensures Get(h, "last_change_detected").None? ==> t == 0
  {
    var v: Option<MetaValue> := Get(h, "last_change_detected");
    match v
    case None => 0
    case Some(Num(n)) => n
    case Some(Str(s)) => ToI(s)
  }

  /** A time stored during one pass is read back as the same number in the next. */
  lemma LastChangeSurvives(st: State, t: int)
    requires MetaOk(st) && SetMetadata(st, "last_change_detected", Num(t)).Ok?
    requires '?' !in st.opp.id
    requires forall i :: 0 <= i < |st.opp.links| ==>
               StartsWith(st.opp.links[i], ReadPrefix(st.opp.id)) ==> StartsWith(st.opp.links[i], WritePrefix(st.opp.id))
    ensures var st1 := SetMetadata(st, "last_change_detected", Num(t)).value;
            var r := ReadLinks(Local(CommitMetadata(st1).0, Links), st.opp.id);
            r.Ok? && LastChangeDetected(r.value) == t
  {
    var st1 := SetMetadata(st, "last_change_detected", Num(t)).value;
    assert "last_change_detected" in Keys(st1.meta.value);
    CommitThenRead(st1, "last_change_detected");
    ToIOfToS(t);
  }

  // ---------------------------------------------------------------------
  // The daemon's copy (app/controller.rb)

  /** `commit_bot_metadata` of app/controller.rb: skips when the exact link is
      present anywhere, and replaces every link under `BOT_METADATA_PREFIX + id`. */
  function CommitMetadataDaemon(st: State): (r: (State, bool))
    ensures !r.1 ==> r.0 == st
    ensures r.1 <==> st.meta.Some? && |st.meta.value| > 0 && Link(st.opp.id, st.meta.value) !in st.opp.links
    ensures r.1 ==> WithPrefix(Local(r.0, Links), ReadPrefix(st.opp.id)) == [Link(st.opp.id, st.meta.value)]
    ensures r.0.meta == st.meta && r.0.opp.id == st.opp.id && r.0.batch == st.batch && GetSide(r.0, Tags) == GetSide(st, Tags)
  {
    if st.meta.None? || |st.meta.value| == 0 then (st, false)
    else
      var link := Link(st.opp.id, st.meta.value);
      if link in st.opp.links then (st, false)
      else
        (Replace(st, Links, ReadPrefix(st.opp.id), link), true)
  }

  /** After the daemon's commit the record holds exactly one metadata link
      for itself, the one just written, so the next read finds it. */
  lemma DaemonCommitThenRead(st: State, k: string)
    requires st.meta.Some? && |st.meta.value| > 0 && Link(st.opp.id, st.meta.value) !in st.opp.links
    requires '?' !in st.opp.id
    ensures var h := st.meta.value;
            var r := ReadLinks(Local(CommitMetadataDaemon(st).0, Links), st.opp.id);
            r.Ok? && Get(r.value, k) == if k in Keys(h) then Some(Str(Stringify(Get(h, k).value))) else None
  {
    var id := st.opp.id;
    var h := st.meta.value;
    var link := Link(id, h);
    var links := Local(CommitMetadataDaemon(st).0, Links);
    assert WithPrefix(links, ReadPrefix(id)) == [link];
    assert WithPrefix([link], ReadPrefix(id)) == [link];
    SameSelectionSameRead(links, [link], id);
    ReadLink(id, h, k);
  }
}

=== FILE: change_detector.dfy ===
/** Change detection by checksum (controller/process_updates.rb
    `attribute_checksum`, `tags_have_changed?`, `links_have_changed?`,
    `existing_tag_checksum`, `existing_link_checksum`; app/controller.rb
    carries the same code).

    The checksum is MD5 of a canonical string built from the record's tags
    or links; MD5 itself is a parameter `digest` about which nothing is
    assumed, so every property is stated about the canonical string or
    holds for any digest. */
module ChangeDetector {
  import opened Prelude
  import opened Text
  import opened Hashes
  import opened Config
  import opened Opportunity
  import opened Annotations
  import opened BotMetadata

  /** What a detected change reports: its time, and which kind of change it was
      (the Ruby message text is not modelled). */
  datatype Source = NewInteraction | TagsUpdated | LinksUpdated
  datatype Change = Change(time: int, source: Source)

  /** Entries starting with this prefix are the bot's own and never count as a change. */
  function BotPrefix(kind: Kind): string {
    match kind
    case Tags => BOT_TAG_PREFIX
    case Links => BOT_LINK_PREFIX
  }

  /** The metadata key the checksum is stored under. */
  function MetaKey(kind: Kind): (k: string)
    ensures k == "tag_checksum" || k == "link_checksum"
  {
    match kind
    case Tags => "tag_checksum"
    case Links => "link_checksum"
  }

  /** Where checksums were kept before the metadata link existed. */
  function LegacyPrefix(kind: Kind): string {
    match kind
    case Tags => TAG_CHECKSUM_PREFIX
    case Links => LINK_CHECKSUM_PREFIX
  }

  /** The string `attribute_checksum` hashes: the entries without the bot
      prefix, sorted, joined with `;;`. */
  function ChecksumInput(entries: seq<string>, botPrefix: string): string {
    Join(Sort(WithoutPrefix(entries, botPrefix)), ";;")
  }

  /** `attribute_checksum(opp, type)`. */
  function Checksum(digest: string -> string, st: State, kind: Kind): string {
    digest(ChecksumInput(Local(st, kind), BotPrefix(kind)))
  }

  /** The canonical input sees only how often each non-bot entry occurs:
      reordering entries and adding or dropping bot entries changes nothing. */
  lemma ChecksumInputCanonical(a: seq<string>, b: seq<string>, p: string)
    requires forall x :: !StartsWith(x, p) ==> multiset(a)[x] == multiset(b)[x]
    ensures ChecksumInput(a, p) == ChecksumInput(b, p)
  {
    WithoutPrefixMultiset(a, p);
    WithoutPrefixMultiset(b, p);
    assert multiset(WithoutPrefix(a, p)) == multiset(WithoutPrefix(b, p));
    SortPermutation(WithoutPrefix(a, p), WithoutPrefix(b, p));
  }

  /** Reordering the entries leaves the checksum unchanged. */
  lemma ChecksumIgnoresOrder(a: seq<string>, b: seq<string>, p: string)
    requires multiset(a) == multiset(b)
    ensures ChecksumInput(a, p) == ChecksumInput(b, p)
  {
    ChecksumInputCanonical(a, b, p);
  }

  /** Adding bot entries leaves the checksum unchanged. */
  lemma ChecksumIgnoresBotEntries(a: seq<string>, bots: seq<string>, p: string)
    requires forall i :: 0 <= i < |bots| ==> StartsWith(bots[i], p)
    ensures ChecksumInput(a + bots, p) == ChecksumInput(a, p)
  {
    forall x | !StartsWith(x, p) ensures multiset(a + bots)[x] == multiset(a)[x] {
      assert x !in bots;
    }
    ChecksumInputCanonical(a + bots, a, p);
  }

  /** The metadata link and the checksum links are bot links, so writing
      them never changes the link checksum. */
  lemma BookkeepingLinksIgnored(links: seq<string>, id: string, payload: string, checksum: string)
    ensures ChecksumInput(links + [WritePrefix(id) + payload], BOT_LINK_PREFIX) == ChecksumInput(links, BOT_LINK_PREFIX)
    ensures ChecksumInput(links + [LINK_CHECKSUM_PREFIX + checksum], BOT_LINK_PREFIX) == ChecksumInput(links, BOT_LINK_PREFIX)
  {
    LinkPrefixesNest(WritePrefix(id) + payload);
    LinkPrefixesNest(LINK_CHECKSUM_PREFIX + checksum);
    ChecksumIgnoresBotEntries(links, [WritePrefix(id) + payload], BOT_LINK_PREFIX);
    ChecksumIgnoresBotEntries(links, [LINK_CHECKSUM_PREFIX + checksum], BOT_LINK_PREFIX);
  }

  /** Joining with `;;` is ambiguous: one tag `a;;b` and two tags `a`, `b`
      give the same canonical string, so the detector cannot tell them apart. */
  lemma ChecksumInputCollides()
    ensures ChecksumInput(["a;;b"], BOT_TAG_PREFIX) == ChecksumInput(["a", "b"], BOT_TAG_PREFIX)
  {
    assert !StartsWith("a;;b", BOT_TAG_PREFIX) by { assert BOT_TAG_PREFIX[0] != 'a'; }
    assert !StartsWith("a", BOT_TAG_PREFIX) by { assert BOT_TAG_PREFIX[0] != 'a'; }
    assert !StartsWith("b", BOT_TAG_PREFIX) by { assert BOT_TAG_PREFIX[0] != 'b'; }
    assert WithoutPrefix(["a", "b"], BOT_TAG_PREFIX) == ["a", "b"];
    assert Sort(["b"]) == ["b"];
    assert Lt("a", "b");
    assert Sort(["a", "b"]) == ["a", "b"];
  }

  // ---------------------------------------------------------------------
  // The stored checksum

  /** The first legacy checksum entry, if any. */
  function LegacyEntry(st: State, kind: Kind): (r: Option<string>)
    ensures r.Some? ==> r.value in Local(st, kind) && StartsWith(r.value, LegacyPrefix(kind))
    ensures r.None? <==> forall x :: x in Local(st, kind) ==> !StartsWith(x, LegacyPrefix(kind))
  {
    var found := WithPrefix(Local(st, kind), LegacyPrefix(kind));
    if |found| > 0 then
      assert found[0] in found;
      Some(found[0])
    else None
  }

  /** `existing_tag_checksum` / `existing_link_checksum`: the stored
      checksum, else the first legacy one, which is then copied into the
      metadata; nil when neither exists. */
  function Existing(st: State, kind: Kind): (r: Result<(State, Option<MetaValue>)>)
    requires MetaOk(st)
    ensures r.Raised? <==> Metadata(st).Raised?
    ensures r.Ok? ==> MetaOk(r.value.0) && r.value.0.meta.Some?
    ensures r.Ok? ==> r.value.0.opp == st.opp && r.value.0.sent == st.sent && r.value.0.batch == st.batch
                      && r.value.0.tagQ == st.tagQ && r.value.0.linkQ == st.linkQ && r.value.0.notes == st.notes
    ensures r.Ok? && r.value.1.Some? ==> Get(r.value.0.meta.value, MetaKey(kind)) == r.value.1
    ensures r.Ok? && r.value.1.None? ==> r.value.0 == Metadata(st).value.0
  {
    match Metadata(st)
    case Raised(e) => Raised(e)
    case Ok((st1, h)) =>
      var stored: Option<MetaValue> := Get(h, MetaKey(kind));
      if stored.Some? then Ok((st1, stored))
      else
        match LegacyEntry(st1, kind)
        case None => Ok((st1, None))
        case Some(t) =>
          var checksum := Str(DeletePrefix(t, LegacyPrefix(kind)));
          var st2 := SetMetadata(st1, MetaKey(kind), checksum).value;
          Ok((st2, Some(checksum)))
  }

  /** What `Existing` finds: the stored value when there is one, else the first legacy entry without its prefix. */
  lemma ExistingFinds(st: State, kind: Kind)
    requires MetaOk(st) && Metadata(st).Ok?
    ensures var h := Metadata(st).value.1;
            var r := Existing(st, kind).value.1;
            (Get(h, MetaKey(kind)).Some? ==> r == Get(h, MetaKey(kind)))
            && (Get(h, MetaKey(kind)).None? && LegacyEntry(st, kind).None? ==> r.None?)
            && (Get(h, MetaKey(kind)).None? && LegacyEntry(st, kind).Some? ==>
                  r == Some(Str(DeletePrefix(LegacyEntry(st, kind).value, LegacyPrefix(kind)))))
  {
    assert GetSide(Metadata(st).value.0, kind) == GetSide(st, kind);
  }

  // ---------------------------------------------------------------------
  // tags_have_changed? / links_have_changed?

  function SourceOf(kind: Kind): Source {
    match kind
    case Tags => TagsUpdated
    case Links => LinksUpdated
  }

  /** `tags_have_changed?(opp)` / `links_have_changed?(opp)` at time `now`. */
  function HaveChanged(digest: string -> string, now: int, st: State, kind: Kind): (r: Result<(State, Option<Change>)>)
    requires MetaOk(st)
    ensures r.Raised? <==> Metadata(st).Raised?
    ensures r.Ok? ==> MetaOk(r.value.0) && r.value.0.meta.Some?
    ensures r.Ok? ==> Get(r.value.0.meta.value, MetaKey(kind)) == Some(Str(Checksum(digest, st, kind)))
    ensures r.Ok? ==> r.value.0.opp == st.opp && r.value.0.sent == st.sent && r.value.0.batch == st.batch
                      && r.value.0.tagQ == st.tagQ && r.value.0.linkQ == st.linkQ && r.value.0.notes == st.notes
    ensures r.Ok? ==> (r.value.1.Some? <==>
                         Existing(st, kind).value.1.Some? && Existing(st, kind).value.1 != Some(Str(Checksum(digest, st, kind))))
    ensures r.Ok? && r.value.1.Some? ==> r.value.1.value == Change(now, SourceOf(kind))
  {
    var checksum := Checksum(digest, st, kind);
    match Existing(st, kind)
    case Raised(e) => Raised(e)
    case Ok((st1, existing)) =>
      var differs := existing != Some(Str(checksum));
      var st2 := if differs then SetMetadata(st1, MetaKey(kind), Str(checksum)).value else st1;
      Ok((st2, if differs && existing.Some? then Some(Change(now, SourceOf(kind))) else None))
  }

  /** First sight: with no stored and no legacy checksum nothing is reported,
      but the checksum is stored. */
  lemma FirstSightQuiet(digest: string -> string, now: int, st: State, kind: Kind)
    requires MetaOk(st) && Metadata(st).Ok?
    requires Get(Metadata(st).value.1, MetaKey(kind)).None?
    requires forall x :: x in Local(st, kind) ==> !StartsWith(x, LegacyPrefix(kind))
    ensures HaveChanged(digest, now, st, kind).Ok?
    ensures HaveChanged(digest, now, st, kind).value.1.None?
  {
    ExistingFinds(st, kind);
    assert LegacyEntry(st, kind).None?;
  }

  /** With a stored checksum, a change is reported exactly when it differs from the current one. */
  lemma ChangeIffDiffers(digest: string -> string, now: int, st: State, kind: Kind, stored: string)
    requires MetaOk(st) && Metadata(st).Ok?
    requires Get(Metadata(st).value.1, MetaKey(kind)) == Some(Str(stored))
    ensures HaveChanged(digest, now, st, kind).Ok?
    ensures HaveChanged(digest, now, st, kind).value.1.Some? <==> stored != Checksum(digest, st, kind)
  {
    ExistingFinds(st, kind);
  }

  /** A legacy checksum is honoured: it counts as the stored one. */
  lemma LegacyChecksumHonoured(digest: string -> string, now: int, st: State, kind: Kind)
    requires MetaOk(st) && Metadata(st).Ok?
    requires Get(Metadata(st).value.1, MetaKey(kind)).None?
    requires LegacyEntry(st, kind).Some?
    ensures HaveChanged(digest, now, st, kind).Ok?
    ensures HaveChanged(digest, now, st, kind).value.1.Some?
        <==> DeletePrefix(LegacyEntry(st, kind).value, LegacyPrefix(kind)) != Checksum(digest, st, kind)
  {
    ExistingFinds(st, kind);
  }

  /** Asking again straight away reports nothing and changes nothing. */
  lemma SecondCallQuiet(digest: string -> string, now: int, later: int, st: State, kind: Kind)
    requires MetaOk(st) && HaveChanged(digest, now, st, kind).Ok?
    ensures var st1 := HaveChanged(digest, now, st, kind).value.0;
            HaveChanged(digest, later, st1, kind) == Ok((st1, None))
  {
    var st1 := HaveChanged(digest, now, st, kind).value.0;
    assert Checksum(digest, st1, kind) == Checksum(digest, st, kind);
    ExistingFinds(st1, kind);
  }
}

=== FILE: commands.dfy ===
/** The batch commands of controller/commands.rb: the run summary of
    `process_opportunities`, with its progress log and cooperative stop,
    and the record filter of the two exports. Each record's outcome is the
    `result` hash `process_opportunity` returned for it, and whether
    `terminating?` held after it is part of the input. */
module Commands {
  import opened Prelude
  import opened Lists
  import opened Opportunity
  import Process

  /** One record of the paged listing as the loop sees it. */
  datatype RunItem = RunItem(contact: string, outcome: Process.Outcome, stopAfter: bool)

  /** The `summary` hash of `process_opportunities`. */
  datatype Summary = Summary(
    opportunities: nat,
    uniqueContacts: nat,
    contactsWithDuplicates: nat,
    contactsWith3Plus: nat,
    updated: nat,
    sentWebhook: nat,
    assignedToJob: nat,
    anonymized: nat)

  /** The contacts seen, as a set. */
  function ContactSet(items: seq<RunItem>): set<string> {
    set i | 0 <= i < |items| :: items[i].contact
  }

  /** The contacts seen at least `n` times. */
  function ContactsSeen(items: seq<RunItem>, n: nat): set<string> {
    set c | c in ContactSet(items) && CountContact(items, c) >= n
  }

  function CountContact(items: seq<RunItem>, c: string): nat
    decreases |items|
  {
    if |items| == 0 then 0 else CountContact(items[..|items| - 1], c) + (if items[|items| - 1].contact == c then 1 else 0)
  }

  /** The records processed: up to and including the first after which
      `terminating?` held, or all of them. */
  function Processed(items: seq<RunItem>): (n: nat)
    ensures n <= |items|
    ensures forall i :: 0 <= i < n - 1 ==> !items[i].stopAfter
    ensures n < |items| ==> n > 0 && items[n - 1].stopAfter
    decreases |items|
  {
    if |items| == 0 then 0
    else if items[0].stopAfter then 1
    else
      var n := Processed(items[1..]) + 1;
      assert forall i :: 1 <= i < |items| ==> items[i] == items[1..][i - 1];
      n
  }

  function CountIf(items: seq<RunItem>, p: Process.Outcome -> bool): (n: nat)
    ensures n <= |items|
    decreases |items|
  {
    if |items| == 0 then 0 else CountIf(items[..|items| - 1], p) + (if p(items[|items| - 1].outcome) then 1 else 0)
  }

  lemma ContactSetSnoc(items: seq<RunItem>, x: RunItem)
    ensures ContactSet(items + [x]) == ContactSet(items) + {x.contact}
  {
    var s := items + [x];
    forall c | c in ContactSet(s) ensures c in ContactSet(items) + {x.contact} {
      var i :| 0 <= i < |s| && s[i].contact == c;
      if i < |items| { assert items[i] == s[i]; }
    }
    forall c | c in ContactSet(items) ensures c in ContactSet(s) {
      var i :| 0 <= i < |items| && items[i].contact == c;
      assert s[i] == items[i];
    }
    assert s[|items|] == x;
  }

  lemma CountContactPositive(items: seq<RunItem>, c: string)
    ensures CountContact(items, c) > 0 <==> c in ContactSet(items)
    decreases |items|
  {
    if |items| > 0 {
      var init := items[..|items| - 1];
      CountContactPositive(init, c);
      assert items == init + [items[|items| - 1]];
      ContactSetSnoc(init, items[|items| - 1]);
    }
  }

  /** One step of `ContactsSeen`: a contact crosses threshold `n` exactly
      when this record brings its count to `n`. */
  lemma {:induction false} ContactsSeenSnoc(items: seq<RunItem>, x: RunItem, n: nat)
    requires n > 0
    ensures ContactsSeen(items + [x], n) ==
              ContactsSeen(items, n) + (if CountContact(items, x.contact) + 1 == n then {x.contact} else {})
    ensures CountContact(items, x.contact) + 1 == n ==> x.contact !in ContactsSeen(items, n)
  {
    var s := items + [x];
    assert s[..|s| - 1] == items;
    ContactSetSnoc(items, x);
    forall c ensures CountContact(s, c) == CountContact(items, c) + (if x.contact == c then 1 else 0) {
    }
    CountContactPositive(items, x.contact);
    var lhs := ContactsSeen(s, n);
    var rhs := ContactsSeen(items, n) + (if CountContact(items, x.contact) + 1 == n then {x.contact} else {});
    forall c | c in lhs ensures c in rhs {}
    forall c | c in rhs ensures c in lhs {
      if c != x.contact { assert c in ContactSet(items); }
    }
    assert lhs == rhs;
  }

  /** The three contact thresholds nest. */
  lemma ContactsSeenNested(items: seq<RunItem>)
    ensures ContactsSeen(items, 3) <= ContactsSeen(items, 2) <= ContactsSeen(items, 1) == ContactSet(items)
  {
    forall c | c in ContactSet(items) ensures CountContact(items, c) >= 1 {
      CountContactPositive(items, c);
    }
  }

  /** Progress is logged each time `updated` reaches a new multiple of 50. */
  function LogThresholds(updated: nat): (r: seq<nat>)
    ensures |r| == updated / 50
    ensures forall k :: 0 <= k < |r| ==> r[k] == 50 * (k + 1)
  {
    seq(updated / 50, k requires 0 <= k < updated / 50 => 50 * (k + 1))
  }

  predicate IsUpdated(o: Process.Outcome) { o.updated }
  predicate IsSent(o: Process.Outcome) { o.sentWebhook }
  predicate IsAssigned(o: Process.Outcome) { o.assignedToJob }
  predicate IsAnonymized(o: Process.Outcome) { o.anonymized }

  /** A key of the hash `process_opportunity` returns. Its early return
      `{'anonymized': true}` (controller/process_updates.rb:8) has the
      Symbol key `:anonymized`; every other entry is set with a String key. */
  datatype ResultKey = SymKey(name: string) | StrKey(name: string)

  /** The hash returned for an outcome: the anonymized shortcut alone, or
      the String-keyed flags that were set. */
  function ResultHash(o: Process.Outcome): seq<(ResultKey, bool)> {
    if o.anonymized then [(SymKey("anonymized"), true)]
    else
      (if o.assignedToJob then [(StrKey("assigned_to_job"), true)] else [])
      + (if o.sentWebhook then [(StrKey("sent_webhook"), true)] else [])
      + (if o.updated then [(StrKey("updated"), true)] else [])
  }

  /** `result[key]` is truthy. */
  predicate Truthy(h: seq<(ResultKey, bool)>, k: ResultKey) {
    exists i :: 0 <= i < |h| && h[i] == (k, true)
  }

  /** The anonymized flag as the loop reads it: `result['anonymized']` as
      controller/commands.rb:75 writes it, or `result[:anonymized]` as
      intended. */
  predicate AnonymizedRead(o: Process.Outcome, asWritten: bool) {
    Truthy(ResultHash(o), if asWritten then StrKey("anonymized") else SymKey("anonymized"))
  }

  /** The String key `'anonymized'` is never in the hash, while the Symbol
      key is there exactly for an anonymized record; the String-keyed flags
      of any other record read back as set. */
  lemma ResultKeys(o: Process.Outcome)
    ensures !AnonymizedRead(o, true)
    ensures AnonymizedRead(o, false) <==> o.anonymized
    ensures !o.anonymized ==>
              && (Truthy(ResultHash(o), StrKey("updated")) <==> o.updated)
              && (Truthy(ResultHash(o), StrKey("sent_webhook")) <==> o.sentWebhook)
              && (Truthy(ResultHash(o), StrKey("assigned_to_job")) <==> o.assignedToJob)
  {
    var h := ResultHash(o);
    if o.anonymized {
      assert h[0] == (SymKey("anonymized"), true);
    } else {
      forall i | 0 <= i < |h| ensures h[i].0.StrKey? && h[i].0.name != "anonymized" {}
      if o.updated { assert h[|h| - 1] == (StrKey("updated"), true); }
      if o.assignedToJob { assert h[0] == (StrKey("assigned_to_job"), true); }
      if o.sentWebhook {
        var k := if o.assignedToJob then 1 else 0;
        assert h[k] == (StrKey("sent_webhook"), true);
      }
    }
  }

  /** The loop's state: the summary, the `contacts` tally and the log index. */
  datatype Run = Run(s: Summary, counts: map<string, nat>, logIndex: nat, logged: seq<nat>)

  /** The contact counters agree with the records processed so far. */
  ghost predicate ContactsInv(items: seq<RunItem>, r: Run) {
    && r.s.opportunities == |items|
    && (forall c :: c in r.counts <==> c in ContactSet(items))
    && (forall c :: c in r.counts ==> r.counts[c] == CountContact(items, c))
    && r.s.uniqueContacts == |ContactsSeen(items, 1)|
    && r.s.contactsWithDuplicates == |ContactsSeen(items, 2)|
    && r.s.contactsWith3Plus == |ContactsSeen(items, 3)|
  }

  /** The outcome counters agree with the records processed so far; read
      as written, the anonymized counter stays at 0. */
  predicate OutcomesInv(items: seq<RunItem>, r: Run, asWritten: bool) {
    && r.s.updated == CountIf(items, IsUpdated)
    && r.s.sentWebhook == CountIf(items, IsSent)
    && r.s.assignedToJob == CountIf(items, IsAssigned)
    && r.s.anonymized == (if asWritten then 0 else CountIf(items, IsAnonymized))
  }

  /** The log index is the last multiple of 50 logged, and every multiple reached was logged. */
  predicate LogInv(r: Run) {
    r.logIndex == 50 * (r.s.updated / 50) && r.logged == LogThresholds(r.s.updated)
  }

  /** The body of the loop for one record. */
  function Step(r: Run, x: RunItem, asWritten: bool): Run {
    var n := if x.contact in r.counts then r.counts[x.contact] + 1 else 1;
    var o := x.outcome;
    var s := r.s.(opportunities := r.s.opportunities + 1,
                  uniqueContacts := r.s.uniqueContacts + (if n == 1 then 1 else 0),
                  contactsWithDuplicates := r.s.contactsWithDuplicates + (if n == 2 then 1 else 0),
                  contactsWith3Plus := r.s.contactsWith3Plus + (if n == 3 then 1 else 0),
                  updated := r.s.updated + (if o.updated then 1 else 0),
                  sentWebhook := r.s.sentWebhook + (if o.sentWebhook then 1 else 0),
                  assignedToJob := r.s.assignedToJob + (if o.assignedToJob then 1 else 0),
                  anonymized := r.s.anonymized + (if AnonymizedRead(o, asWritten) then 1 else 0));
    if s.updated > 0 && s.updated % 50 == 0 && s.updated > r.logIndex then
      Run(s, r.counts[x.contact := n], s.updated, r.logged + [s.updated])
    else
      Run(s, r.counts[x.contact := n], r.logIndex, r.logged)
  }

  /** The tally value the loop computes for the new record's contact. */
  lemma StepTally(items: seq<RunItem>, r: Run, x: RunItem)
    requires ContactsInv(items, r)
    ensures (if x.contact in r.counts then r.counts[x.contact] + 1 else 1) == CountContact(items, x.contact) + 1
  {
    CountContactPositive(items, x.contact);
  }

  lemma StepCounts(items: seq<RunItem>, r: Run, x: RunItem, asWritten: bool)
    requires ContactsInv(items, r)
    ensures var r' := Step(r, x, asWritten);
            && (forall c :: c in r'.counts <==> c in ContactSet(items + [x]))
            && (forall c :: c in r'.counts ==> r'.counts[c] == CountContact(items + [x], c))
  {
    var s := items + [x];
    assert s[..|s| - 1] == items;
    StepTally(items, r, x);
    ContactSetSnoc(items, x);
  }

  lemma StepSeen(items: seq<RunItem>, r: Run, x: RunItem, k: nat, before: nat, after: nat)
    requires k > 0 && before == |ContactsSeen(items, k)|
    requires ContactsInv(items, r)
    requires after == before + (if (if x.contact in r.counts then r.counts[x.contact] + 1 else 1) == k then 1 else 0)
    ensures after == |ContactsSeen(items + [x], k)|
  {
    StepTally(items, r, x);
    ContactsSeenSnoc(items, x, k);
  }

  lemma StepContacts(items: seq<RunItem>, r: Run, x: RunItem, asWritten: bool)
    requires ContactsInv(items, r)
    ensures ContactsInv(items + [x], Step(r, x, asWritten))
  {
    var r' := Step(r, x, asWritten);
    StepCounts(items, r, x, asWritten);
    StepSeen(items, r, x, 1, r.s.uniqueContacts, r'.s.uniqueContacts);
    StepSeen(items, r, x, 2, r.s.contactsWithDuplicates, r'.s.contactsWithDuplicates);
    StepSeen(items, r, x, 3, r.s.contactsWith3Plus, r'.s.contactsWith3Plus);
  }

  lemma StepOutcomes(items: seq<RunItem>, r: Run, x: RunItem, asWritten: bool)
    requires OutcomesInv(items, r, asWritten)
    ensures OutcomesInv(items + [x], Step(r, x, asWritten), asWritten)
  {
    var s := items + [x];
    assert s[..|s| - 1] == items;
    ResultKeys(x.outcome);
  }

  lemma StepLog(r: Run, x: RunItem, asWritten: bool)
    requires LogInv(r)
    ensures LogInv(Step(r, x, asWritten))
  {
    var r' := Step(r, x, asWritten);
    if r'.s.updated % 50 == 0 && r'.s.updated != r.s.updated {
      assert r'.logged == r.logged + [r'.s.updated];
      assert LogThresholds(r'.s.updated) == LogThresholds(r.s.updated) + [r'.s.updated];
    } else {
      assert r'.s.updated / 50 == r.s.updated / 50;
    }
  }

  ghost predicate RunInv(items: seq<RunItem>, r: Run, asWritten: bool) {
    ContactsInv(items, r) && OutcomesInv(items, r, asWritten) && LogInv(r)
  }

  lemma StepRun(items: seq<RunItem>, r: Run, x: RunItem, asWritten: bool)
    requires RunInv(items, r, asWritten)
    ensures RunInv(items + [x], Step(r, x, asWritten), asWritten)
  {
    StepContacts(items, r, x, asWritten);
    StepOutcomes(items, r, x, asWritten);
    StepLog(r, x, asWritten);
  }

  /** One more record processed extends the invariant to one more item. */
  lemma StepPrefix(items: seq<RunItem>, i: nat, r: Run, asWritten: bool)
    requires i < |items| && RunInv(items[..i], r, asWritten)
    ensures RunInv(items[..i + 1], Step(r, items[i], asWritten), asWritten)
  {
    assert items[..i + 1] == items[..i] + [items[i]];
    StepRun(items[..i], r, items[i], asWritten);
  }

  /** What the loop's state says once it stops. */
  lemma Finish(items: seq<RunItem>, r: Run, asWritten: bool)
    requires RunInv(items, r, asWritten)
    ensures r.s.opportunities == |items|
    ensures r.s.uniqueContacts == |ContactSet(items)|
    ensures r.s.contactsWithDuplicates == |ContactsSeen(items, 2)|
    ensures r.s.contactsWith3Plus == |ContactsSeen(items, 3)|
    ensures r.s.contactsWith3Plus <= r.s.contactsWithDuplicates <= r.s.uniqueContacts <= r.s.opportunities
    ensures OutcomesInv(items, r, asWritten) && r.logged == LogThresholds(r.s.updated)
  {
    ContactsSeenNested(items);
    SubsetSize(ContactsSeen(items, 3), ContactsSeen(items, 2));
    SubsetSize(ContactsSeen(items, 2), ContactsSeen(items, 1));
    assert ContactsSeen(items, 1) == ContactSet(items);
    ContactSetSize(items);
  }

  /** The loop of `process_opportunities`: it steps through the records
      until one asks to stop, keeping the run's invariant. */
  method RunLoop(items: seq<RunItem>, asWritten: bool) returns (run: Run, processed: nat)
    ensures processed == Processed(items) <= |items|
    ensures RunInv(items[..processed], run, asWritten)
  {
    run := Run(Summary(0, 0, 0, 0, 0, 0, 0, 0), map[], 0, []);
    var i := 0;
    var stop := false;
    assert items[..0] == [];
    assert ContactSet([]) == {};
    while i < |items| && !stop
      invariant 0 <= i <= |items|
      invariant stop ==> i > 0 && items[i - 1].stopAfter
      invariant forall j :: 0 <= j < i - 1 ==> !items[j].stopAfter
      invariant !stop && i > 0 ==> !items[i - 1].stopAfter
      invariant RunInv(items[..i], run, asWritten)
      decreases |items| - i, if stop then 0 else 1
    {
      var x := items[i];
      assert forall j :: 0 <= j < i ==> !items[j].stopAfter;
      StepPrefix(items, i, run, asWritten);
      run := Step(run, x, asWritten);
      i := i + 1;
      stop := x.stopAfter;
    }
    ProcessedIs(items, i);
    processed := i;
  }

  /** `process_opportunities`: the summary counters, the values of
      `summary[:updated]` at which a progress line is logged, and the
      number of records processed before `terminating?` stopped the loop. */
  method ProcessOpportunities(items: seq<RunItem>) returns (s: Summary, logged: seq<nat>, processed: nat)
    ensures processed == Processed(items)
    ensures s.opportunities == processed
    ensures s.uniqueContacts == |ContactSet(items[..processed])|
    ensures s.contactsWithDuplicates == |ContactsSeen(items[..processed], 2)|
    ensures s.contactsWith3Plus == |ContactsSeen(items[..processed], 3)|
    ensures s.contactsWith3Plus <= s.contactsWithDuplicates <= s.uniqueContacts <= s.opportunities
    ensures s.updated == CountIf(items[..processed], IsUpdated)
    ensures s.sentWebhook == CountIf(items[..processed], IsSent)
    ensures s.assignedToJob == CountIf(items[..processed], IsAssigned)
    ensures s.anonymized == CountIf(items[..processed], IsAnonymized)
    ensures s.updated <= s.opportunities && s.sentWebhook <= s.opportunities
    ensures s.assignedToJob <= s.opportunities && s.anonymized <= s.opportunities
    ensures logged == LogThresholds(s.updated)
  {
    var run;
    run, processed := RunLoop(items, false);
    Finish(items[..processed], run, false);
    s := run.s;
    logged := run.logged;
  }

  /** `process_opportunities` as controller/commands.rb:75 reads the
      outcome: `result['anonymized']` never finds the Symbol key, so the
      anonymized counter stays at 0 while every other counter is kept as
      intended. */
  method ProcessOpportunitiesAsWritten(items: seq<RunItem>) returns (s: Summary, logged: seq<nat>, processed: nat)
    ensures processed == Processed(items)
    ensures s.anonymized == 0
    ensures s.opportunities == processed
    ensures s.uniqueContacts == |ContactSet(items[..processed])|
    ensures s.updated == CountIf(items[..processed], IsUpdated)
    ensures s.sentWebhook == CountIf(items[..processed], IsSent)
    ensures s.assignedToJob == CountIf(items[..processed], IsAssigned)
    ensures logged == LogThresholds(s.updated)
  {
    var run;
    run, processed := RunLoop(items, true);
    Finish(items[..processed], run, true);
    s := run.s;
    logged := run.logged;
  }

  /** `Processed` is characterised by where the first stop is. */
  lemma {:induction false} ProcessedIs(items: seq<RunItem>, n: nat)
    requires n <= |items|
    requires forall j :: 0 <= j < n - 1 ==> !items[j].stopAfter
    requires n == |items| || (n > 0 && items[n - 1].stopAfter)
    requires n == 0 ==> |items| == 0
    ensures Processed(items) == n
    decreases |items|
  {
    if |items| > 0 && !items[0].stopAfter {
      ProcessedIs(items[1..], n - 1);
    }
  }

  lemma SubsetSize(a: set<string>, b: set<string>)
    requires a <= b
    ensures |a| <= |b|
  {
    if a != {} {
      var x :| x in a;
      SubsetSize(a - {x}, b - {x});
    }
  }

  /** At most as many contacts as records. */
  lemma {:induction false} ContactSetSize(items: seq<RunItem>)
    ensures |ContactSet(items)| <= |items|
    decreases |items|
  {
    if |items| == 0 {
      assert ContactSet(items) == {};
    } else {
      var init := items[..|items| - 1];
      assert items == init + [items[|items| - 1]];
      ContactSetSnoc(init, items[|items| - 1]);
      ContactSetSize(init);
    }
  }

  // ---------------------------------------------------------------------
  // The export filter

  /** `next if Util.has_posting(opp) && !Util.is_cohort_app(opp)`: exports
      keep leads without a posting and cohort applications. */
  predicate Exported(opp: Opp) { !HasPosting(opp) || IsCohortApp(opp) }

  /** The records the export loop keeps, in order. */
  function ExportFilter(opps: seq<Opp>): (r: seq<Opp>)
    ensures |r| <= |opps|
    ensures forall x :: x in r <==> x in opps && Exported(x)
    decreases |opps|
  {
    if |opps| == 0 then [] else (if Exported(opps[0]) then [opps[0]] else []) + ExportFilter(opps[1..])
  }

  /** Filtering distributes over concatenation: the kept records of two
      runs of records are the kept records of each, one after the other. */
  lemma {:induction false} ExportFilterAppend(a: seq<Opp>, b: seq<Opp>)
    ensures ExportFilter(a + b) == ExportFilter(a) + ExportFilter(b)
    decreases |a|
  {
    if |a| == 0 {
      assert a + b == b;
    } else {
      assert (a + b)[0] == a[0];
      assert (a + b)[1..] == a[1..] + b;
      ExportFilterAppend(a[1..], b);
    }
  }

  /** The loop appends one record at a time: a record read after `a` is
      kept after `a`'s kept records, exactly when it is exported. */
  lemma ExportFilterSnoc(a: seq<Opp>, x: Opp)
    ensures ExportFilter(a + [x]) == ExportFilter(a) + (if Exported(x) then [x] else [])
  {
    ExportFilterAppend(a, [x]);
    assert [x][1..] == [];
  }

  /** The records an export keeps, which are the records it is meant to
      write; a test run stops once 100 are kept. */
  function ExportRecords(opps: seq<Opp>, test: bool): (r: seq<Opp>)
    ensures forall x :: x in r ==> x in opps && Exported(x)
    ensures !test ==> forall x :: x in opps && Exported(x) ==> x in r
    ensures test ==> |r| <= 100 && |r| <= |ExportFilter(opps)| && r == ExportFilter(opps)[..|r|]
    ensures test && |r| < 100 ==> r == ExportFilter(opps)
  {
    var f := ExportFilter(opps);
    if test && |f| > 100 then f[..100] else f
  }

  /** The records `export_to_bigquery` inserts as controller/commands.rb:103-113
      writes it: the kept records are inserted in batches of 100, and the
      batch still open when the loop ends is never inserted. */
  function BigQueryInsertedAsWritten(opps: seq<Opp>, test: bool): (r: seq<Opp>)
    ensures r <= ExportRecords(opps, test)
    ensures |r| % 100 == 0
    ensures |ExportRecords(opps, test)| - |r| < 100
  {
    var kept := ExportRecords(opps, test);
    kept[..|kept| / 100 * 100]
  }

  /** An export that keeps fewer than 100 records inserts none of them, and
      one that keeps a number that is not a multiple of 100 loses its tail. */
  lemma BigQueryDropsLastBatch(opps: seq<Opp>, test: bool)
    ensures 0 < |ExportRecords(opps, test)| < 100 ==> BigQueryInsertedAsWritten(opps, test) == []
    ensures (BigQueryInsertedAsWritten(opps, test) == ExportRecords(opps, test)) <==> |ExportRecords(opps, test)| % 100 == 0
  {}
}

=== FILE: config.dfy ===
/** The constants of config/config.rb that the bookkeeping depends on: the
    partition of tags and links into candidate data (`AUTO_` prefixes) and bot
    bookkeeping (`BOT_` prefixes, ignored when detecting changes), and the
    cohort postings table. */
module Config {
  import opened Prelude
  import opened Text

  const AUTO_TAG_PREFIX: string := "\U{1F916} "
  const AUTO_LINK_PREFIX: string := "http://\U{1F916}/"
  const BOT_LINK_PREFIX: string := AUTO_LINK_PREFIX + "bot/"
  const BOT_METADATA_PREFIX: string := BOT_LINK_PREFIX + "data/"

  const TAG_ASSIGN_TO_LOCATION_NONE_FOUND: string := AUTO_TAG_PREFIX + "No location tag"
  const TAG_ASSIGN_TO_LOCATION_PREFIX: string := AUTO_TAG_PREFIX + "Auto-assigned to cohort: "
  const TAG_ASSIGNED_TO_LOCATION: string := AUTO_TAG_PREFIX + "Auto-assigned to cohort"

  const TAG_LINKEDIN_OPTOUT: string := AUTO_TAG_PREFIX + "LinkedIn InMail likely decline"
  const TAG_LINKEDIN_OPTIN_LIKELY: string := AUTO_TAG_PREFIX + "LinkedIn InMail potential accept"
  const TAG_LINKEDIN_OPTIN: string := AUTO_TAG_PREFIX + "LinkedIn InMail accept awaiting followup"

  const LINK_ALL_FEEDBACK_SUMMARY_PREFIX: string := AUTO_LINK_PREFIX + "feedback/all/"

  const TAG_DUPLICATE_ARCHIVED: string := AUTO_TAG_PREFIX + "Archived duplicate"
  const TAG_DUPLICATE_PREFIX: string := AUTO_TAG_PREFIX + "Duplicate: "
  const TAG_ORIGINAL_PREFIX: string := AUTO_TAG_PREFIX + "[Original] "
  const TAG_HISTORIC_PREFIX: string := AUTO_TAG_PREFIX + "[Historic] "

  const BOT_TAG_PREFIX: string := "\U{1F916} [bot] "
  const LAST_CHANGE_TAG_PREFIX: string := BOT_TAG_PREFIX + "last change detected: "
  const TAG_CHECKSUM_PREFIX: string := BOT_TAG_PREFIX + "tag checksum: "
  const LINK_CHECKSUM_PREFIX: string := BOT_LINK_PREFIX + "checksum/"
  const TAG_LINKEDIN_OPTOUT_OLD: string := AUTO_TAG_PREFIX + "LinkedIn InMail decline (suspected)"

  const COHORT_JOB_TAG: string := "EF Cohort"
  const LEVER_BOT_USER: string := "e6414a92-e785-46eb-ad30-181c18db19b5"

  /** The prefix metadata links had before the id was added: `BOT_METADATA_PREFIX.chomp('/') + '?'`. */
  const LEGACY_METADATA_PREFIX: string := BOT_LINK_PREFIX + "data?"

  /** One entry of `COHORT_JOBS`: a Ruby hash with keys `posting_id`, `cohort`
      and, for the current intakes only, `tag`. */
  datatype CohortJob = CohortJob(postingId: string, cohort: string, tag: Option<string>)

  /** The symbols a caller may look up in a cohort entry. */
  datatype CohortKey = PostingIdKey | CohortKey | TagKey | NameKey

  /** `cohort[key]`: nil for a key the entry does not have. */
  function Lookup(job: CohortJob, key: CohortKey): (r: Option<string>)
    ensures key == NameKey ==> r == None
    ensures key == TagKey ==> r == job.tag
  {
    match key
    case PostingIdKey => Some(job.postingId)
    case CohortKey => Some(job.cohort)
    case TagKey => job.tag
    case NameKey => None
  }

  const COHORT_JOBS: seq<CohortJob> := [
    CohortJob("b65f18c3-27f3-4812-92af-b0f66a5694b8", "BA5", Some("bangalore")),
    CohortJob("9d662b61-de96-40c0-bb81-89d3f84ef1b2", "LD16", Some("london")),
    CohortJob("fc7a7137-4433-4522-9c51-61bc8fde864f", "SG9", Some("singapore")),
    CohortJob("6fe2ce13-2296-4acd-8b1e-2e5b4a14c58c", "PA6", Some("paris")),
    CohortJob("394f29ca-7054-4e57-bc64-54886ce98eb2", "BE7", Some("berlin")),
    CohortJob("4a924c27-5737-48fe-8d45-48a1163745c0", "TO2", Some("toronto")),
    CohortJob("d924991a-614a-4cde-ab4e-600a5fce2af4", "BA4", None),
    CohortJob("23bf8c07-b32e-483f-9007-1b9c2a004eb6", "BA4", None),
    CohortJob("46ac9eaf-31d1-4b41-8b2b-1d43014aacc0", "BE5", None),
    CohortJob("b9c2b6b8-3d82-4c45-9b06-b549d223b017", "BE6", None),
    CohortJob("ee0ed9ee-7148-4967-a402-e6962e4c6bc1", "BE5", None),
    CohortJob("b88a4eba-bbb4-492e-a77a-f36c1328d9dd", "LD14", None),
    CohortJob("c404cfc6-0621-4fce-9e76-5d908e36fd9c", "LD15", None),
    CohortJob("ad446668-5642-4b1f-b027-7798a7472db7", "LD14", None),
    CohortJob("c88fa46b-b06c-47e3-81d6-4e63078fd509", "PA4", None),
    CohortJob("e57c60e3-f129-4088-9c7f-1e9ea270fbf6", "PA4", None),
    CohortJob("f7a6dd4e-9f3a-4633-b676-15abe9165025", "SG8", None),
    CohortJob("3b2c714a-edee-4fd0-974d-413bae32c818", "SG8", None),
    CohortJob("df1e30e5-c08d-47bd-bd43-8f3eaf96163e", "TO1", None),
    CohortJob("e23deb1a-c0ab-43b8-9a3a-e47e3cca0970", "PA5", None),
    CohortJob("faeae4e5-6529-4f95-b705-3f9974bb682c", "PA7", None),
    CohortJob("3eaed985-8d2e-4a88-b6bb-a1295cb57373", "PA8", None),
    CohortJob("210435bd-7ff7-4ced-a3e8-dbeed1c19f08", "PA9", None),
    CohortJob("0b785d4c-3a6e-4597-829e-fcafb06cae2b", "TO1", None)
  ]

  /** Only the six current intakes carry a location tag, and no entry answers `:name`. */
  lemma CohortTags()
    ensures |COHORT_JOBS| == 24
    ensures forall i :: 0 <= i < |COHORT_JOBS| ==> (COHORT_JOBS[i].tag.Some? <==> i < 6)
    ensures forall i :: 0 <= i < |COHORT_JOBS| ==> Lookup(COHORT_JOBS[i], NameKey).None?
  {}

  /** The bot's links nest: metadata links are bot links, bot links are auto links.
      So every metadata link is excluded from the link checksum. */
  lemma LinkPrefixesNest(link: string)
    ensures StartsWith(link, BOT_METADATA_PREFIX) ==> StartsWith(link, BOT_LINK_PREFIX)
    ensures StartsWith(link, BOT_LINK_PREFIX) ==> StartsWith(link, AUTO_LINK_PREFIX)
    ensures StartsWith(link, LINK_CHECKSUM_PREFIX) ==> StartsWith(link, BOT_LINK_PREFIX)
  {
    PrefixTransitive(link, BOT_METADATA_PREFIX, BOT_LINK_PREFIX);
    PrefixTransitive(link, BOT_LINK_PREFIX, AUTO_LINK_PREFIX);
    PrefixTransitive(link, LINK_CHECKSUM_PREFIX, BOT_LINK_PREFIX);
  }

  /** The deprecated bookkeeping tags are bot tags; bot tags are auto tags. */
  lemma TagPrefixesNest(tag: string)
    ensures StartsWith(tag, LAST_CHANGE_TAG_PREFIX) ==> StartsWith(tag, BOT_TAG_PREFIX)
    ensures StartsWith(tag, TAG_CHECKSUM_PREFIX) ==> StartsWith(tag, BOT_TAG_PREFIX)
    ensures StartsWith(tag, BOT_TAG_PREFIX) ==> StartsWith(tag, AUTO_TAG_PREFIX)
  {
    PrefixTransitive(tag, LAST_CHANGE_TAG_PREFIX, BOT_TAG_PREFIX);
    PrefixTransitive(tag, TAG_CHECKSUM_PREFIX, BOT_TAG_PREFIX);
    PrefixTransitive(tag, BOT_TAG_PREFIX, AUTO_TAG_PREFIX);
  }

  /** The tags the bot adds about the candidate are not bot bookkeeping, so
      they count towards the tag checksum. */
  lemma AutoTagsAreData()
    ensures !StartsWith(TAG_ASSIGN_TO_LOCATION_NONE_FOUND, BOT_TAG_PREFIX)
    ensures !StartsWith(TAG_ASSIGN_TO_LOCATION_PREFIX, BOT_TAG_PREFIX)
    ensures !StartsWith(TAG_ASSIGNED_TO_LOCATION, BOT_TAG_PREFIX)
    ensures !StartsWith(TAG_LINKEDIN_OPTOUT, BOT_TAG_PREFIX)
    ensures !StartsWith(TAG_LINKEDIN_OPTIN_LIKELY, BOT_TAG_PREFIX)
    ensures !StartsWith(TAG_LINKEDIN_OPTIN, BOT_TAG_PREFIX)
    ensures !StartsWith(TAG_DUPLICATE_ARCHIVED, BOT_TAG_PREFIX)
    ensures !StartsWith(TAG_DUPLICATE_PREFIX, BOT_TAG_PREFIX)
    ensures !StartsWith(TAG_ORIGINAL_PREFIX, BOT_TAG_PREFIX)
    ensures !StartsWith(TAG_HISTORIC_PREFIX, BOT_TAG_PREFIX)
    ensures !StartsWith(TAG_LINKEDIN_OPTOUT_OLD, BOT_TAG_PREFIX)
  {
    var k := |AUTO_TAG_PREFIX|;
    assert BOT_TAG_PREFIX[k] == '[';
    assert TAG_ASSIGN_TO_LOCATION_NONE_FOUND[k] == 'N';
    assert TAG_ASSIGN_TO_LOCATION_PREFIX[k] == 'A';
    assert TAG_ASSIGNED_TO_LOCATION[k] == 'A';
    assert TAG_LINKEDIN_OPTOUT[k] == 'L';
    assert TAG_LINKEDIN_OPTIN_LIKELY[k] == 'L';
    assert TAG_LINKEDIN_OPTIN[k] == 'L';
    assert TAG_DUPLICATE_ARCHIVED[k] == 'A';
    assert TAG_DUPLICATE_PREFIX[k] == 'D';
    assert TAG_ORIGINAL_PREFIX[k + 1] == 'O';
    assert BOT_TAG_PREFIX[k + 1] == 'b';
    assert TAG_HISTORIC_PREFIX[k + 1] == 'H';
    assert TAG_LINKEDIN_OPTOUT_OLD[k] == 'L';
  }

  /** A link written under the current scheme is never mistaken for a legacy one. */
  lemma LegacyPrefixDisjoint(id: string, payload: string)
    ensures !StartsWith(BOT_METADATA_PREFIX + id + "?" + payload, LEGACY_METADATA_PREFIX)
  {
    var link := BOT_METADATA_PREFIX + id + "?" + payload;
    var k := |BOT_LINK_PREFIX| + 4;
    assert link[k] == '/';
    assert LEGACY_METADATA_PREFIX[k] == '?';
  }

  lemma PrefixTransitive(s: string, p: string, q: string)
    requires StartsWith(p, q)
    ensures StartsWith(s, p) ==> StartsWith(s, q)
  {}
}

=== FILE: fixes.dfy ===
/** The one-off repair passes of controller/fixes.rb: the duplicate-posting
    tags of `detect_duplicate_opportunities`, and the per-record selection
    rules of `tidy_opp_bot_notes`, `archive_accidental_postings` and
    `fix_archived_stage`. Paging, note deletion and stage updates are calls
    into the API and are left out; what is modelled is which records and
    notes they act on. */
module Fixes {
  import opened Prelude
  import opened Lists
  import opened Text
  import opened Config
  import opened Opportunity
  import opened Annotations

  // ---------------------------------------------------------------------
  // detect_duplicate_opportunities

  /** `TAG_DUPLICATE_OPPS_PREFIX` as client.rb:19,29 define it: that file's
      own `AUTO_TAG_PREFIX` ('🤖 [auto] ') followed by "duplicate opportunity ".
      config/config.rb has no such constant. */
  const TAG_DUPLICATE_OPPS_PREFIX: string := "\U{1F916} [auto] duplicate opportunity "

  /** The three tags; the source appends to a prefix that already ends in a space. */
  const TAG_SAME_POSTING: string := TAG_DUPLICATE_OPPS_PREFIX + " same posting"
  const TAG_DIFFERENT_POSTING: string := TAG_DUPLICATE_OPPS_PREFIX + " different posting"
  const TAG_WITHOUT_POSTING: string := TAG_DUPLICATE_OPPS_PREFIX + " without posting"

  /** The three tags differ, and each lies under the prefix. */
  lemma DuplicateTagsDistinct()
    ensures TAG_SAME_POSTING != TAG_DIFFERENT_POSTING && TAG_SAME_POSTING != TAG_WITHOUT_POSTING
    ensures TAG_DIFFERENT_POSTING != TAG_WITHOUT_POSTING
    ensures StartsWith(TAG_SAME_POSTING, TAG_DUPLICATE_OPPS_PREFIX)
    ensures StartsWith(TAG_DIFFERENT_POSTING, TAG_DUPLICATE_OPPS_PREFIX)
    ensures StartsWith(TAG_WITHOUT_POSTING, TAG_DUPLICATE_OPPS_PREFIX)
  {
    var k := |TAG_DUPLICATE_OPPS_PREFIX| + 1;
    assert TAG_SAME_POSTING[k] == 's';
    assert TAG_DIFFERENT_POSTING[k] == 'd';
    assert TAG_WITHOUT_POSTING[k] == 'w';
  }

  /** `a["posting"] || 'none'` for each application. */
  function PostingIds(apps: seq<Application>): (r: seq<string>)
    ensures |r| == |apps|
    ensures forall i :: 0 <= i < |apps| ==> r[i] == if apps[i].posting.Some? then apps[i].posting.value else "none"
  {
    seq(|apps|, i requires 0 <= i < |apps| => if apps[i].posting.Some? then apps[i].posting.value else "none")
  }

  /** `ids.reject { |p| p == 'none' }`. */
  function RealIds(ids: seq<string>): (r: seq<string>)
    ensures |r| <= |ids|
    ensures forall x :: x in r <==> x in ids && x != "none"
  {
    if |ids| == 0 then []
    else (if ids[0] == "none" then [] else [ids[0]]) + RealIds(ids[1..])
  }

  /** Ruby's `uniq`: first occurrences, in order. */
  function Uniq(s: seq<string>): (r: seq<string>)
    ensures NoDup(r) && |r| <= |s|
    ensures forall x :: x in r <==> x in s
    decreases |s|
  {
    if |s| == 0 then []
    else
      var t := Uniq(Delete(s[1..], s[0]));
      NoDupCons(s[0], t);
      [s[0]] + t
  }

  /** A list has two or more distinct values exactly when it holds two different elements. */
  lemma UniqAtLeastTwo(s: seq<string>)
    ensures |Uniq(s)| > 1 <==> exists x, y :: x in s && y in s && x != y
  {
    var u := Uniq(s);
    if |u| > 1 {
      assert u[0] in s && u[1] in s && u[0] != u[1];
    }
    if exists x, y :: x in s && y in s && x != y {
      var x, y :| x in s && y in s && x != y;
      assert x in u && y in u;
    }
  }

  /** `dup_hash(posting_ids).length > 0`. */
  predicate SamePosting(ids: seq<string>) { |DupHash(ids)| > 0 }

  /** `posting_ids.reject { |p| p == 'none' }.uniq.length > 1`. */
  predicate DifferentPosting(ids: seq<string>) { |Uniq(RealIds(ids))| > 1 }

  /** `posting_ids.reject { |p| p == 'none' }.length > 0 && posting_ids.include?("none")`. */
  predicate WithoutPosting(ids: seq<string>) { |RealIds(ids)| > 0 && "none" in ids }

  /** The three conditions in terms of the posting ids themselves: some id
      (`'none'` included) repeats; two different real ids occur; a real id
      and `'none'` both occur. */
  lemma DuplicateConditions(ids: seq<string>)
    ensures SamePosting(ids) <==> exists i, j :: 0 <= i < j < |ids| && ids[i] == ids[j]
    ensures DifferentPosting(ids) <==> exists x, y :: x in ids && y in ids && x != y && x != "none" && y != "none"
    ensures WithoutPosting(ids) <==> "none" in ids && exists x :: x in ids && x != "none"
  {
    DupHashEmpty(ids);
    UniqAtLeastTwo(RealIds(ids));
    var r := RealIds(ids);
    if |r| > 0 {
      assert r[0] in r;
    }
  }

  /** With fewer than two applications none of the three conditions can hold. */
  lemma FewIdsNoCondition(ids: seq<string>)
    requires |ids| < 2
    ensures !SamePosting(ids) && !DifferentPosting(ids) && !WithoutPosting(ids)
  {
    DupHashEmpty(ids);
    if |ids| == 1 && "none" in ids {
      assert ids == ["none"];
      assert RealIds(ids[1..]) == [];
    }
  }

  /** `add_tag(opp, tag) if cond`. */
  function AddTagIf(st: State, cond: bool, tag: string): (r: State)
    ensures forall t :: t in Local(r, Tags) <==> t in Local(st, Tags) || (cond && t == tag)
    ensures GetSide(r, Links) == GetSide(st, Links) && r.batch == st.batch && r.meta == st.meta && r.opp.id == st.opp.id
  {
    if cond then AddAnnotations(st, Tags, [tag], false) else st
  }

  /** The first step of `detect_duplicate_opportunities`: a record with
      fewer than two applications loses every duplicate tag. */
  function ClearDuplicateTags(st: State): (r: State)
    ensures forall t :: t in Local(r, Tags) <==>
              t in Local(st, Tags) && (|st.opp.applications| >= 2 || !StartsWith(t, TAG_DUPLICATE_OPPS_PREFIX))
    ensures GetSide(r, Links) == GetSide(st, Links) && r.batch == st.batch && r.meta == st.meta
  {
    RemoveWithPrefixLocal(st, Tags, TAG_DUPLICATE_OPPS_PREFIX);
    if |st.opp.applications| < 2 then RemoveWithPrefix(st, Tags, TAG_DUPLICATE_OPPS_PREFIX) else st
  }

  /** The three conditional `add_tag` calls of `detect_duplicate_opportunities`. */
  function AddDuplicateTags(st: State, same: bool, different: bool, without: bool): (r: State)
    ensures forall t :: t in Local(r, Tags) <==>
              t in Local(st, Tags) || (same && t == TAG_SAME_POSTING)
              || (different && t == TAG_DIFFERENT_POSTING) || (without && t == TAG_WITHOUT_POSTING)
    ensures GetSide(r, Links) == GetSide(st, Links) && r.batch == st.batch && r.meta == st.meta
  {
    var st1 := AddTagIf(st, same, TAG_SAME_POSTING);
    var st2 := AddTagIf(st1, different, TAG_DIFFERENT_POSTING);
    AddTagIf(st2, without, TAG_WITHOUT_POSTING)
  }

  /** `detect_duplicate_opportunities(opp)` (controller/fixes.rb and
      client.rb:384-394), with the prefix removal that removes every
      matching tag. */
  function DetectDuplicates(st: State): (r: State)
    ensures var ids := PostingIds(st.opp.applications);
            var kept := |st.opp.applications| >= 2;
            && (TAG_SAME_POSTING in Local(r, Tags) <==> SamePosting(ids) || (kept && TAG_SAME_POSTING in Local(st, Tags)))
            && (TAG_DIFFERENT_POSTING in Local(r, Tags) <==> DifferentPosting(ids) || (kept && TAG_DIFFERENT_POSTING in Local(st, Tags)))
            && (TAG_WITHOUT_POSTING in Local(r, Tags) <==> WithoutPosting(ids) || (kept && TAG_WITHOUT_POSTING in Local(st, Tags)))
    ensures forall t :: t != TAG_SAME_POSTING && t != TAG_DIFFERENT_POSTING && t != TAG_WITHOUT_POSTING ==>
              (t in Local(r, Tags) <==> t in Local(st, Tags) && (|st.opp.applications| >= 2 || !StartsWith(t, TAG_DUPLICATE_OPPS_PREFIX)))
    ensures GetSide(r, Links) == GetSide(st, Links) && r.batch == st.batch && r.meta == st.meta
  {
    var ids := PostingIds(st.opp.applications);
    var st1 := ClearDuplicateTags(st);
    DuplicateTagsDistinct();
    AddDuplicateTags(st1, SamePosting(ids), DifferentPosting(ids), WithoutPosting(ids))
  }

  /** `detect_duplicate_opportunities` as controller/fixes.rb:8-18 (and its
      copy at app/controller.rb:436-446) have it. Neither config/config.rb
      nor app/client.rb defines `TAG_DUPLICATE_OPPS_PREFIX`, so each line
      that reads it raises NameError. Line 9 reads it only with fewer than
      two applications, and lines 13, 15 and 17 only when their condition
      holds. */
  function DetectDuplicatesAsWritten(st: State): (r: Result<State>)
    ensures var ids := PostingIds(st.opp.applications);
            r.Raised? <==> |ids| < 2 || SamePosting(ids) || DifferentPosting(ids) || WithoutPosting(ids)
    ensures r.Raised? ==> r.failure == NameError
    ensures r.Ok? ==> r.value == st
  {
    var ids := PostingIds(st.opp.applications);
    if |st.opp.applications| < 2 then Raised(NameError)
    else if SamePosting(ids) then Raised(NameError)
    else if DifferentPosting(ids) then Raised(NameError)
    else if WithoutPosting(ids) then Raised(NameError)
    else Ok(st)
  }

  /** Two or more posting ids always meet one of the three conditions: a
      repeat, two different real ids, or a real id beside `'none'`. */
  lemma TwoIdsMeetACondition(ids: seq<string>)
    requires |ids| >= 2
    ensures SamePosting(ids) || DifferentPosting(ids) || WithoutPosting(ids)
  {
    DuplicateConditions(ids);
    if !SamePosting(ids) {
      assert ids[0] in ids && ids[1] in ids;
      if ids[0] == "none" || ids[1] == "none" {
        assert WithoutPosting(ids);
      } else {
        assert DifferentPosting(ids);
      }
    }
  }

  /** As written, every call raises NameError. */
  lemma DetectDuplicatesAlwaysRaises(st: State)
    ensures DetectDuplicatesAsWritten(st) == Raised(NameError)
  {
    var ids := PostingIds(st.opp.applications);
    if |ids| >= 2 {
      TwoIdsMeetACondition(ids);
    }
  }

  /** A record with fewer than two applications keeps no duplicate tag. */
  lemma FewApplicationsClearDuplicateTags(st: State)
    requires |st.opp.applications| < 2
    ensures forall t :: t in Local(DetectDuplicates(st), Tags) ==> !StartsWith(t, TAG_DUPLICATE_OPPS_PREFIX)
  {
    FewIdsNoCondition(PostingIds(st.opp.applications));
    assert StartsWith(TAG_SAME_POSTING, TAG_DUPLICATE_OPPS_PREFIX);
  }

  // ---------------------------------------------------------------------
  // tidy_opp_bot_notes

  /** A note as the notes endpoint returns it; `fields` are the texts of its fields. */
  datatype Note = Note(id: string, user: string, deletedAt: Option<int>, fields: seq<string>)

  /** What the pass does with one note. */
  datatype NoteAction = Reinstate(text: string) | DeleteNote(id: string) | Skip

  /** The body of `tidy_opp_bot_notes` for one note. Reading the first field
      of a note without fields is `nil.start_with?`, a NoMethodError. */
  function TidyNote(lastInteractionAt: int, n: Note): (r: Result<NoteAction>)
    ensures r.Ok? && r.value.Reinstate? <==>
              n.deletedAt.Some? && |n.fields| > 0 && StartsWith(n.fields[0], "Referred by")
              && lastInteractionAt <= n.deletedAt.value + 60000
    ensures r.Ok? && r.value.Reinstate? ==> r.value.text == n.fields[0]
    ensures r.Ok? && r.value.DeleteNote? <==>
              n.deletedAt.None? && n.user == LEVER_BOT_USER && |n.fields| > 0
              && (StartsWith(n.fields[0], "Updated reporting") || StartsWith(n.fields[0], "Assigned to "))
    ensures r.Ok? && r.value.DeleteNote? ==> r.value.id == n.id
    ensures r.Raised? <==> |n.fields| == 0 && (n.deletedAt.Some? || n.user == LEVER_BOT_USER)
  {
    if n.deletedAt.Some? then
      if |n.fields| == 0 then Raised(NoMethodError)
      else if StartsWith(n.fields[0], "Referred by") && !(lastInteractionAt > n.deletedAt.value + 60000) then
        Ok(Reinstate(n.fields[0]))
      else Ok(Skip)
    else if n.user != LEVER_BOT_USER then Ok(Skip)
    else if |n.fields| == 0 then Raised(NoMethodError)
    else if StartsWith(n.fields[0], "Updated reporting") || StartsWith(n.fields[0], "Assigned to ") then
      Ok(DeleteNote(n.id))
    else Ok(Skip)
  }

  /** `tidy_opp_bot_notes(opp)` over all notes: one action per note, in
      order, when no note raises; otherwise the failure of the first note
      that raises. The source has already carried out the actions of the
      notes before that one, and the result does not list them. */
  function TidyNotes(lastInteractionAt: int, notes: seq<Note>): (r: Result<seq<NoteAction>>)
    ensures r.Ok? <==> forall i :: 0 <= i < |notes| ==> TidyNote(lastInteractionAt, notes[i]).Ok?
    ensures r.Ok? ==> |r.value| == |notes|
                      && forall i :: 0 <= i < |notes| ==> r.value[i] == TidyNote(lastInteractionAt, notes[i]).value
    decreases |notes|
  {
    if |notes| == 0 then Ok([])
    else
      var a := TidyNote(lastInteractionAt, notes[0]);
      var rest := TidyNotes(lastInteractionAt, notes[1..]);
      assert forall i :: 1 <= i < |notes| ==> notes[i] == notes[1..][i - 1];
      if a.Raised? then Raised(a.failure)
      else if rest.Raised? then Raised(rest.failure)
      else Ok([a.value] + rest.value)
  }

  // ---------------------------------------------------------------------
  // archive_accidental_postings / fix_archived_stage

  /** The first three filters both passes share: a cohort application that
      the bot itself created. */
  predicate BotCohortApp(opp: Opp) {
    HasPosting(opp) && IsCohortApp(opp) && opp.applications[0].user == LEVER_BOT_USER
  }

  /** Ruby's inclusive `between?(lo, hi)`. */
  predicate Between(x: int, lo: int, hi: int) { lo <= x <= hi }

  /** The selection of `archive_accidental_postings`: `stageChanges.last`
      of a record without stage changes is nil, and reading its `userId`
      raises NoMethodError. */
  function ArchiveSelected(opp: Opp): (r: Result<bool>)
    ensures r.Raised? <==> BotCohortApp(opp) && |opp.stageChanges| == 0
    ensures r == Ok(true) <==>
              BotCohortApp(opp) && |opp.stageChanges| > 0
              && var last := opp.stageChanges[|opp.stageChanges| - 1];
                 && last.userId == LEVER_BOT_USER
                 && last.toStageId != "lead-new" && last.toStageId != "lead-reached-out"
                 && (last.updatedAt - opp.createdAt > 5000 || opp.createdAt - last.updatedAt > 5000)
  {
    if !HasPosting(opp) || !IsCohortApp(opp) || opp.applications[0].user != LEVER_BOT_USER then Ok(false)
    else if |opp.stageChanges| == 0 then Raised(NoMethodError)
    else
      var last := opp.stageChanges[|opp.stageChanges| - 1];
      if last.userId != LEVER_BOT_USER then Ok(false)
      else if last.toStageId in ["lead-new", "lead-reached-out"] then Ok(false)
      else if Between(last.updatedAt - opp.createdAt, -5000, 5000) then Ok(false)
      else Ok(true)
  }

  /** The selection of `fix_archived_stage`: the stage to restore, if the
      record qualifies. */
  function StageToRestore(opp: Opp): (r: Result<Option<string>>)
    ensures r.Raised? <==> BotCohortApp(opp) && |opp.stageChanges| == 0
    ensures r.Ok? && r.value.Some? <==>
              BotCohortApp(opp) && |opp.stageChanges| >= 2
              && opp.stageChanges[|opp.stageChanges| - 1].userId == LEVER_BOT_USER
              && opp.stageChanges[|opp.stageChanges| - 1].toStageId == "applicant-new"
    ensures r.Ok? && r.value.Some? ==> r.value.value == opp.stageChanges[|opp.stageChanges| - 2].toStageId
  {
    if !BotCohortApp(opp) then Ok(None)
    else if |opp.stageChanges| == 0 then Raised(NoMethodError)
    else
      var sc := opp.stageChanges;
      var last := sc[|sc| - 1];
      if last.userId != LEVER_BOT_USER then Ok(None)
      else if last.toStageId !in ["applicant-new"] then Ok(None)
      else if |sc| < 2 then Ok(None)
      else
        var prior := sc[|sc| - 2..][0];
        Ok(Some(prior.toStageId))
  }

  // ---------------------------------------------------------------------
  // The tags the repair passes add

  /** The tags `archive_accidental_postings` and `fix_archived_stage` add,
      as the file spells them: the robot emoji's UTF-8 bytes read as
      Windows-1252 characters. */
  const FIX_UNARCHIVED_TAG_AS_WRITTEN: string := "ðŸ¤– fix_unarchived_5"
  const FIX_ARCHIVED_STAGE_TAG_AS_WRITTEN: string := "ðŸ¤– fix_archived_stage"

  /** The tags as evidently intended. */
  const FIX_UNARCHIVED_TAG: string := AUTO_TAG_PREFIX + "fix_unarchived_5"
  const FIX_ARCHIVED_STAGE_TAG: string := AUTO_TAG_PREFIX + "fix_archived_stage"

  /** As written the `archive_accidental_postings` tag is outside the bot's
      naming scheme; as intended it is an AUTO tag that is not a BOT tag,
      so it still counts in the tag checksum. */
  lemma FixUnarchivedTagPrefix()
    ensures !StartsWith(FIX_UNARCHIVED_TAG_AS_WRITTEN, AUTO_TAG_PREFIX)
    ensures StartsWith(FIX_UNARCHIVED_TAG, AUTO_TAG_PREFIX)
    ensures !StartsWith(FIX_UNARCHIVED_TAG, BOT_TAG_PREFIX)
  {
    assert FIX_UNARCHIVED_TAG_AS_WRITTEN[0] != AUTO_TAG_PREFIX[0];
    assert FIX_UNARCHIVED_TAG[|AUTO_TAG_PREFIX|] != BOT_TAG_PREFIX[|AUTO_TAG_PREFIX|];
  }

  /** The same for the `fix_archived_stage` tag. */
  lemma FixTagPrefix()
    ensures !StartsWith(FIX_ARCHIVED_STAGE_TAG_AS_WRITTEN, AUTO_TAG_PREFIX)
    ensures StartsWith(FIX_ARCHIVED_STAGE_TAG, AUTO_TAG_PREFIX)
    ensures !StartsWith(FIX_ARCHIVED_STAGE_TAG, BOT_TAG_PREFIX)
  {
    assert FIX_ARCHIVED_STAGE_TAG_AS_WRITTEN[0] != AUTO_TAG_PREFIX[0];
    assert FIX_ARCHIVED_STAGE_TAG[|AUTO_TAG_PREFIX|] != BOT_TAG_PREFIX[|AUTO_TAG_PREFIX|];
  }
}

=== FILE: form_codec.dfy ===
/** The application/x-www-form-urlencoded serializer and parser of section 5
    of the WHATWG URL Standard, as Ruby's `URI.encode_www_form` and
    `URI.decode_www_form` implement it.

    Serializing: each name and value is turned into UTF-8 bytes; the bytes
    `*-._`, digits and ASCII letters stay as they are, a space becomes `+`,
    every other byte becomes `%XX` with upper-case hex digits; a pair is
    `name=value` and pairs are joined with `&`.

    Parsing: a string that is not all ASCII raises ArgumentError; the empty
    string gives no pairs; otherwise the string is cut after every `&` (so a
    trailing `&` adds no empty field), each field is split at its first `=`
    (no `=` means an empty value), `+` becomes a space, `%` followed by two
    hex digits (either case) becomes that byte, and the bytes are read back
    as UTF-8 with every malformed sequence replaced by U+FFFD. */
module FormCodec {
  import opened Prelude
  import opened Text

  type Byte = b: int | 0 <= b < 256

  // ---------------------------------------------------------------------
  // UTF-8

  /** The UTF-8 bytes of one scalar value. */
  function EncodeChar(c: char): (bs: seq<Byte>)
    ensures 1 <= |bs| <= 4
  {
    var n := c as int;
    if n < 0x80 then [n]
    else if n < 0x800 then [0xC0 + n / 64, 0x80 + n % 64]
    else if n < 0x10000 then [0xE0 + n / 4096, 0x80 + (n / 64) % 64, 0x80 + n % 64]
    else [0xF0 + n / 262144, 0x80 + (n / 4096) % 64, 0x80 + (n / 64) % 64, 0x80 + n % 64]
  }

  /** `s.b`: the UTF-8 bytes of a string. */
  function Utf8(s: string): seq<Byte> {
    if |s| == 0 then [] else EncodeChar(s[0]) + Utf8(s[1..])
  }

  const Replacement: char := '\U{FFFD}'

  predicate IsCont(b: Byte) { 0x80 <= b <= 0xBF }

  /** The first scalar value of `bs` and the number of bytes it takes; a
      malformed sequence yields U+FFFD and consumes its maximal subpart. */
  function DecodeOne(bs: seq<Byte>): (r: (char, nat))
    requires |bs| > 0
    ensures 1 <= r.1 <= |bs|
  {
    var b0 := bs[0] as int;
    var b1 := if |bs| >= 2 then bs[1] as int else 0;
    var b2 := if |bs| >= 3 then bs[2] as int else 0;
    var b3 := if |bs| >= 4 then bs[3] as int else 0;
    if b0 < 0x80 then (b0 as char, 1)
    else if 0xC2 <= b0 <= 0xDF then
      if |bs| >= 2 && IsCont(bs[1]) then (((b0 - 0xC0) * 64 + (b1 - 0x80)) as char, 2)
      else (Replacement, 1)
    else if 0xE0 <= b0 <= 0xEF then
      var lo := if b0 == 0xE0 then 0xA0 else 0x80;
      var hi := if b0 == 0xED then 0x9F else 0xBF;
      if |bs| >= 2 && lo <= bs[1] <= hi then
        if |bs| >= 3 && IsCont(bs[2]) then
          (((b0 - 0xE0) * 4096 + (b1 - 0x80) * 64 + (b2 - 0x80)) as char, 3)
        else (Replacement, 2)
      else (Replacement, 1)
    else if 0xF0 <= b0 <= 0xF4 then
      var lo := if b0 == 0xF0 then 0x90 else 0x80;
      var hi := if b0 == 0xF4 then 0x8F else 0xBF;
      if |bs| >= 2 && lo <= bs[1] <= hi then
        if |bs| >= 3 && IsCont(bs[2]) then
          if |bs| >= 4 && IsCont(bs[3]) then
            (((b0 - 0xF0) * 262144 + (b1 - 0x80) * 4096 + (b2 - 0x80) * 64 + (b3 - 0x80)) as char, 4)
          else (Replacement, 3)
        else (Replacement, 2)
      else (Replacement, 1)
    else (Replacement, 1)
  }

  /** `force_encoding(UTF_8).scrub`. */
  function Utf8Decode(bs: seq<Byte>): string
    decreases |bs|
  {
    if |bs| == 0 then ""
    else
      var (c, n) := DecodeOne(bs);
      [c] + Utf8Decode(bs[n..])
  }

  lemma DecodeTwo(c: char, rest: seq<Byte>)
    requires 0x80 <= c as int < 0x800
    ensures DecodeOne(EncodeChar(c) + rest) == (c, 2)
  {
    var n := c as int;
    var bs := EncodeChar(c) + rest;
    assert bs[0] == 0xC0 + n / 64 && bs[1] == 0x80 + n % 64;
  }

  lemma DecodeThree(c: char, rest: seq<Byte>)
    requires 0x800 <= c as int < 0x10000
    ensures DecodeOne(EncodeChar(c) + rest) == (c, 3)
  {
    var n := c as int;
    var bs := EncodeChar(c) + rest;
    assert bs[0] == 0xE0 + n / 4096;
    assert bs[1] == 0x80 + (n / 64) % 64 && bs[2] == 0x80 + n % 64;
    assert (n / 64) / 64 == n / 4096;
  }

  lemma DecodeFour(c: char, rest: seq<Byte>)
    requires 0x10000 <= c as int
    ensures DecodeOne(EncodeChar(c) + rest) == (c, 4)
  {
    var n := c as int;
    var bs := EncodeChar(c) + rest;
    assert bs[0] == 0xF0 + n / 262144;
    assert bs[1] == 0x80 + (n / 4096) % 64;
    assert bs[2] == 0x80 + (n / 64) % 64 && bs[3] == 0x80 + n % 64;
    assert (n / 64) / 64 == n / 4096;
    assert (n / 4096) / 64 == n / 262144;
  }

  /** The first scalar value read from a string's UTF-8 form is its first character. */
  lemma DecodeOneOfEncode(c: char, rest: seq<Byte>)
    ensures DecodeOne(EncodeChar(c) + rest) == (c, |EncodeChar(c)|)
  {
    var n := c as int;
    if n < 0x80 {
    } else if n < 0x800 {
      DecodeTwo(c, rest);
    } else if n < 0x10000 {
      DecodeThree(c, rest);
    } else {
      DecodeFour(c, rest);
    }
  }

  /** Reading back the UTF-8 form of a string gives the string. */
  lemma {:induction false} Utf8RoundTrip(s: string)
    ensures Utf8Decode(Utf8(s)) == s
  {
    if |s| > 0 {
      DecodeOneOfEncode(s[0], Utf8(s[1..]));
      assert (EncodeChar(s[0]) + Utf8(s[1..]))[|EncodeChar(s[0])|..] == Utf8(s[1..]);
      Utf8RoundTrip(s[1..]);
      assert s == [s[0]] + s[1..];
    }
  }

  // ---------------------------------------------------------------------
  // Percent-encoding of one name or value

  /** The bytes the serializer leaves as they are: `*-._0-9A-Za-z`. */
  predicate Unreserved(b: Byte) {
    b == 0x2A || b == 0x2D || b == 0x2E || b == 0x5F
    || (0x30 <= b <= 0x39) || (0x41 <= b <= 0x5A) || (0x61 <= b <= 0x7A)
  }

  function HexDigit(d: int): char
    requires 0 <= d < 16
  {
    if d < 10 then ('0' as int + d) as char else ('A' as int + d - 10) as char
  }

  predicate IsHex(c: char) { ('0' <= c <= '9') || ('a' <= c <= 'f') || ('A' <= c <= 'F') }

  function HexValue(c: char): (d: int)
    requires IsHex(c)
    ensures 0 <= d < 16
  {
    if '0' <= c <= '9' then c as int - '0' as int
    else if 'a' <= c <= 'f' then c as int - 'a' as int + 10
    else c as int - 'A' as int + 10
  }

  function EscapeByte(b: Byte): (e: string)
    ensures |e| > 0
  {
    if Unreserved(b) then [b as char]
    else if b == 0x20 then "+"
    else ['%', HexDigit(b / 16), HexDigit(b % 16)]
  }

  function EscapeBytes(bs: seq<Byte>): string {
    if |bs| == 0 then "" else EscapeByte(bs[0]) + EscapeBytes(bs[1..])
  }

  /** `URI.encode_www_form_component(s)`. */
  function EncodeComponent(s: string): string {
    EscapeBytes(Utf8(s))
  }

  /** The byte-level decoding of `+` and `%XX` (other characters as their UTF-8 bytes). */
  function UnescapeBytes(s: string): seq<Byte> {
    if |s| == 0 then []
    else if s[0] == '+' then [0x20] + UnescapeBytes(s[1..])
    else if s[0] == '%' && |s| >= 3 && IsHex(s[1]) && IsHex(s[2]) then
      [HexValue(s[1]) * 16 + HexValue(s[2])] + UnescapeBytes(s[3..])
    else EncodeChar(s[0]) + UnescapeBytes(s[1..])
  }

  /** One name or value of `URI.decode_www_form`. */
  function DecodeComponent(s: string): string {
    Utf8Decode(UnescapeBytes(s))
  }

  predicate Ascii(s: string) { forall i :: 0 <= i < |s| ==> s[i] < '\U{80}' }

  /** What an escaped byte can contain: ASCII, never a pair or field separator. */
  predicate Escaped(s: string) {
    Ascii(s) && '&' !in s && '=' !in s
  }

  lemma EscapeBytesEscaped(bs: seq<Byte>)
    ensures Escaped(EscapeBytes(bs))
  {
    if |bs| > 0 { EscapeBytesEscaped(bs[1..]); }
  }

  lemma UnescapeFront(b: Byte, rest: string)
    ensures UnescapeBytes(EscapeByte(b) + rest) == [b] + UnescapeBytes(rest)
  {
    var e := EscapeByte(b) + rest;
    if Unreserved(b) {
      assert e[1..] == rest;
    } else if b == 0x20 {
      assert e[1..] == rest;
    } else {
      assert e[3..] == rest;
      assert HexValue(HexDigit(b / 16)) == b / 16;
      assert HexValue(HexDigit(b % 16)) == b % 16;
    }
  }

  lemma {:induction false} UnescapeEscape(bs: seq<Byte>)
    ensures UnescapeBytes(EscapeBytes(bs)) == bs
  {
    if |bs| > 0 {
      UnescapeFront(bs[0], EscapeBytes(bs[1..]));
      UnescapeEscape(bs[1..]);
      assert bs == [bs[0]] + bs[1..];
    }
  }

  /** A name or value survives encoding and decoding unchanged. */
  lemma ComponentRoundTrip(s: string)
    ensures DecodeComponent(EncodeComponent(s)) == s
    ensures Escaped(EncodeComponent(s))
  {
    UnescapeEscape(Utf8(s));
    Utf8RoundTrip(s);
    EscapeBytesEscaped(Utf8(s));
  }

  // ---------------------------------------------------------------------
  // Whole forms

  function EncodeFields(pairs: seq<(string, string)>): (fs: seq<string>)
    ensures |fs| == |pairs|
    ensures forall i :: 0 <= i < |pairs| ==>
              fs[i] == EncodeComponent(pairs[i].0) + "=" + EncodeComponent(pairs[i].1)
  {
    if |pairs| == 0 then []
    else [EncodeComponent(pairs[0].0) + "=" + EncodeComponent(pairs[0].1)] + EncodeFields(pairs[1..])
  }

  /** `URI.encode_www_form(pairs)` for string names and values. */
  function EncodeForm(pairs: seq<(string, string)>): string {
    Join(EncodeFields(pairs), "&")
  }

  /** The fields `each_line('&')` + `chomp('&')` yields for a non-empty string. */
  function Fields(s: string): (fs: seq<string>)
    requires |s| > 0
  {
    var f := Split(s, '&');
    if f[|f| - 1] == "" then f[..|f| - 1] else f
  }

  /** One field: name before the first `=`, value after it (empty when there is no `=`). */
  function DecodePair(field: string): (string, string) {
    var i := IndexOf(field, '=');
    if i == |field| then (DecodeComponent(field), "")
    else (DecodeComponent(field[..i]), DecodeComponent(field[i + 1..]))
  }

  function DecodeFields(fs: seq<string>): (ps: seq<(string, string)>)
    ensures |ps| == |fs|
    ensures forall i :: 0 <= i < |fs| ==> ps[i] == DecodePair(fs[i])
  {
    if |fs| == 0 then [] else [DecodePair(fs[0])] + DecodeFields(fs[1..])
  }

  /** `URI.decode_www_form(s)`. */
  function DecodeForm(s: string): (r: Result<seq<(string, string)>>)
    ensures r.Raised? <==> !Ascii(s)
    ensures r.Raised? ==> r.failure == ArgumentError
    ensures r == Ok([]) <== s == ""
  {
    if !Ascii(s) then Raised(ArgumentError)
    else if s == "" then Ok([])
    else Ok(DecodeFields(Fields(s)))
  }

  lemma AsciiConcat(a: string, b: string)
    requires Ascii(a) && Ascii(b)
    ensures Ascii(a + b)
  {}

  lemma {:induction false} JoinAscii(parts: seq<string>, sep: string)
    requires Ascii(sep)
    requires forall i :: 0 <= i < |parts| ==> Ascii(parts[i])
    ensures Ascii(Join(parts, sep))
  {
    if |parts| > 1 {
      JoinAscii(parts[1..], sep);
      AsciiConcat(parts[0], sep);
      AsciiConcat(parts[0] + sep, Join(parts[1..], sep));
    }
  }

  /** One written field reads back as its pair. */
  lemma FieldRoundTrip(name: string, value: string)
    ensures var f := EncodeComponent(name) + "=" + EncodeComponent(value);
            '&' !in f && Ascii(f) && |f| > 0 && DecodePair(f) == (name, value)
  {
    var k := EncodeComponent(name);
    var v := EncodeComponent(value);
    var f := k + "=" + v;
    ComponentRoundTrip(name);
    ComponentRoundTrip(value);
    IndexOfAfter(k, '=', v);
    assert f[..|k|] == k && f[|k| + 1..] == v;
    AsciiConcat(k, "=");
    AsciiConcat(k + "=", v);
  }

  /** Decoding what `EncodeForm` wrote gives back the same pairs, in order. */
  lemma FormRoundTrip(pairs: seq<(string, string)>)
    ensures DecodeForm(EncodeForm(pairs)) == Ok(pairs)
  {
    var fs := EncodeFields(pairs);
    var s := EncodeForm(pairs);
    if |pairs| > 0 {
      forall i | 0 <= i < |pairs|
        ensures '&' !in fs[i] && Ascii(fs[i]) && |fs[i]| > 0
        ensures DecodePair(fs[i]) == pairs[i]
      {
        FieldRoundTrip(pairs[i].0, pairs[i].1);
      }
      SplitJoin(fs, '&');
      JoinAscii(fs, "&");
      JoinNonEmpty(fs, "&");
      assert Fields(s) == fs;
      assert DecodeFields(fs) == pairs;
    }
  }

  lemma JoinNonEmpty(parts: seq<string>, sep: string)
    requires |parts| > 0 && |parts[0]| > 0
    ensures |Join(parts, sep)| > 0
  {}
}

=== FILE: hashes.dfy ===
/** Ruby `Hash` with string keys, as its list of pairs in insertion order.

    Assigning an existing key replaces its value in place; a new key goes to
    the end. `Array#to_h` assigns the pairs one after the other, so a later
    pair with a repeated key wins but keeps the first pair's position. */
module Hashes {
  import opened Prelude
  import opened Lists

  type Hash<V> = seq<(string, V)>

  function Keys<V>(h: Hash<V>): (ks: seq<string>)
    ensures |ks| == |h|
    ensures forall i :: 0 <= i < |h| ==> ks[i] == h[i].0
  {
    if |h| == 0 then [] else [h[0].0] + Keys(h[1..])
  }

  lemma KeysConcat<V>(a: Hash<V>, b: Hash<V>)
    ensures Keys(a + b) == Keys(a) + Keys(b)
  {
    assert forall i :: 0 <= i < |a| ==> (a + b)[i] == a[i];
    assert forall i :: |a| <= i < |a + b| ==> (a + b)[i] == b[i - |a|];
  }

  lemma KeysHead<V>(h: Hash<V>)
    ensures |h| > 0 ==> h[0].0 in Keys(h)
  {}

  /** Every key occurs once: the shape every Ruby Hash has. */
  predicate Keyed<V>(h: Hash<V>) { NoDup(Keys(h)) }

  /** `h[k]`. */
  function Get<V>(h: Hash<V>, k: string): (r: Option<V>)
    ensures r.None? <==> k !in Keys(h)
  {
    if |h| == 0 then None else if h[0].0 == k then Some(h[0].1) else Get(h[1..], k)
  }

  /** `h[k] = v`. */
  function Put<V>(h: Hash<V>, k: string, v: V): (r: Hash<V>)
    ensures Get(r, k) == Some(v)
    ensures forall k' :: k' != k ==> Get(r, k') == Get(h, k')
    ensures k in Keys(h) ==> Keys(r) == Keys(h)
    ensures k !in Keys(h) ==> Keys(r) == Keys(h) + [k]
  {
    if |h| == 0 then [(k, v)]
    else
      var head, rest := h[0].0, Keys(h[1..]);
      assert Keys(h) == [head] + rest;
      if head == k then
        var r := [(k, v)] + h[1..];
        assert Keys(r) == [k] + rest;
        r
      else
        var t := Put(h[1..], k, v);
        var r := [h[0]] + t;
        assert r[1..] == t;
        assert Keys(r) == [head] + Keys(t);
        assert k !in rest ==> [head] + (rest + [k]) == ([head] + rest) + [k];
        r
  }

  lemma PutKeyed<V>(h: Hash<V>, k: string, v: V)
    requires Keyed(h)
    ensures Keyed(Put(h, k, v))
  {
    if k !in Keys(h) { NoDupSnoc(Keys(h), k); }
  }

  lemma KeyedTail<V>(h: Hash<V>)
    requires Keyed(h) && |h| > 0
    ensures Keyed(h[1..])
    ensures h[0].0 !in Keys(h[1..])
  {
    assert Keys(h) == [h[0].0] + Keys(h[1..]);
  }

  /** The value of the last pair whose key is `k`. */
  function LastValue<V>(ps: seq<(string, V)>, k: string): Option<V> {
    if |ps| == 0 then None
    else if ps[|ps| - 1].0 == k then Some(ps[|ps| - 1].1)
    else LastValue(ps[..|ps| - 1], k)
  }

  /** When every pair for `k` carries `v`, the last one does too. */
  lemma {:induction false} LastValueUniform<V>(ps: seq<(string, V)>, k: string, v: V)
    requires forall i :: 0 <= i < |ps| && ps[i].0 == k ==> ps[i].1 == v
    ensures LastValue(ps, k) == if k in Keys(ps) then Some(v) else None
  {
    if |ps| > 0 {
      var init := ps[..|ps| - 1];
      assert ps == init + [ps[|ps| - 1]];
      KeysConcat(init, [ps[|ps| - 1]]);
      LastValueUniform(init, k, v);
    }
  }

  /** `pairs.to_h`. */
  function FromPairs<V>(ps: seq<(string, V)>): (h: Hash<V>)
    ensures Keyed(h)
    ensures forall k :: Get(h, k) == LastValue(ps, k)
  {
    if |ps| == 0 then []
    else
      var h := FromPairs(ps[..|ps| - 1]);
      PutKeyed(h, ps[|ps| - 1].0, ps[|ps| - 1].1);
      Put(h, ps[|ps| - 1].0, ps[|ps| - 1].1)
  }

  /** Two Ruby hashes with the same contents list the same keys, up to order. */
  lemma {:induction false} SameContentsSameKeys<V>(h1: Hash<V>, h2: Hash<V>)
    requires Keyed(h1) && Keyed(h2)
    requires forall k :: (k in Keys(h1)) == (k in Keys(h2))
    ensures multiset(Keys(h1)) == multiset(Keys(h2))
  {
    forall k ensures multiset(Keys(h1))[k] == multiset(Keys(h2))[k] {
      NoDupCount(Keys(h1), k);
      NoDupCount(Keys(h2), k);
      CountMultiset(Keys(h1), k);
      CountMultiset(Keys(h2), k);
    }
  }

  lemma NoDupCount(s: seq<string>, x: string)
    requires NoDup(s)
    ensures Count(s, x) == if x in s then 1 else 0
  {
    if |s| > 0 {
      NoDupCount(s[1..], x);
      assert s == [s[0]] + s[1..];
      if s[0] == x { CountZero(s[1..], x); }
    }
  }
}

=== FILE: legacy_client.dfy ===
/** The single-file client of client.rb that preceded the app/ split: its
    tag-only mutation queue, the tag-checksum change detector that keeps
    the checksum in a tag, its location table, and
    `source_from_application`, which reads a lead's self-reported source
    from the answers to the application form. */
module LegacyClient {
  import opened Prelude
  import opened Lists
  import opened Text
  import opened Config
  import opened Opportunity
  import opened Annotations
  import opened Tagging
  import opened ChangeDetector

  // ---------------------------------------------------------------------
  // The tag queue: client.rb's `add_tag`, `remove_tag`, `queue_*_tag` are
  // app/client.rb's annotation code specialised to tags, with a removal
  // that works.

  /** A run of `add_tag` / `remove_tag` calls without `commit`. */
  function TagCalls(st: State, reqs: seq<Request>): (r: State)
    ensures st.batch ==> r.sent == st.sent && GetSide(r, Tags) == Apply(GetSide(st, Tags), reqs)
    ensures GetSide(r, Links) == GetSide(st, Links) && r.batch == st.batch && r.meta == st.meta
    decreases |reqs|
  {
    if |reqs| == 0 then st
    else
      var st1 := match reqs[0]
        case QAdd(vs) => AddAnnotations(st, Tags, vs, false)
        case QRemove(vs) => RemoveAnnotations(st, Tags, vs, false);
      TagCalls(st1, reqs[1..])
  }

  /** With `batch_tag_updates` on, any run of tag calls sends nothing, and
      `_addTags` / `_removeTags` stay duplicate-free and disjoint. */
  lemma BatchedTagCallsKeepQueues(st: State, reqs: seq<Request>)
    requires st.batch && QueuesOk(GetSide(st, Tags))
    ensures TagCalls(st, reqs).sent == st.sent
    ensures QueuesOk(GetSide(TagCalls(st, reqs), Tags))
  {
    QueuesStayOk(GetSide(st, Tags), reqs);
  }

  // ---------------------------------------------------------------------
  // tag_checksum / tags_have_changed?

  /** The string client.rb's `tag_checksum` hashes: the tags other than
      last-change and checksum tags, sorted and joined with `;;`. */
  function TagChecksumInput(tags: seq<string>): string {
    Join(Sort(WithoutPrefix(WithoutPrefix(tags, TAG_CHECKSUM_PREFIX), LAST_CHANGE_TAG_PREFIX)), ";;")
  }

  /** The legacy checksum ignores the order of the tags. */
  lemma TagChecksumIgnoresOrder(a: seq<string>, b: seq<string>)
    requires multiset(a) == multiset(b)
    ensures TagChecksumInput(a) == TagChecksumInput(b)
  {
    var a1 := WithoutPrefix(a, TAG_CHECKSUM_PREFIX);
    var b1 := WithoutPrefix(b, TAG_CHECKSUM_PREFIX);
    WithoutPrefixPermutation(a, b, TAG_CHECKSUM_PREFIX);
    WithoutPrefixPermutation(a1, b1, LAST_CHANGE_TAG_PREFIX);
    SortPermutation(WithoutPrefix(a1, LAST_CHANGE_TAG_PREFIX), WithoutPrefix(b1, LAST_CHANGE_TAG_PREFIX));
  }

  lemma WithoutPrefixPermutation(a: seq<string>, b: seq<string>, p: string)
    requires multiset(a) == multiset(b)
    ensures multiset(WithoutPrefix(a, p)) == multiset(WithoutPrefix(b, p))
  {
    WithoutPrefixMultiset(a, p);
    WithoutPrefixMultiset(b, p);
    forall x ensures multiset(WithoutPrefix(a, p))[x] == multiset(WithoutPrefix(b, p))[x] {}
  }

  /** Only last-change and checksum tags are excluded: any other bot tag
      counts here, whereas the current checksum drops every bot tag. */
  lemma LegacyChecksumCountsOtherBotTags()
    ensures TagChecksumInput([BOT_TAG_PREFIX + "x"]) == BOT_TAG_PREFIX + "x"
    ensures ChecksumInput([BOT_TAG_PREFIX + "x"], BOT_TAG_PREFIX) == ""
  {
    var t := BOT_TAG_PREFIX + "x";
    var k := |BOT_TAG_PREFIX|;
    assert !StartsWith(t, TAG_CHECKSUM_PREFIX) by { assert t[k] == 'x' && TAG_CHECKSUM_PREFIX[k] == 't'; }
    assert !StartsWith(t, LAST_CHANGE_TAG_PREFIX) by { assert t[k] == 'x' && LAST_CHANGE_TAG_PREFIX[k] == 'l'; }
    assert WithoutPrefix([t], TAG_CHECKSUM_PREFIX) == [t];
    assert WithoutPrefix([t], LAST_CHANGE_TAG_PREFIX) == [t];
    assert Sort([t]) == [t];
    assert WithoutPrefix([t], BOT_TAG_PREFIX) == [];
  }

  /** `existing_tag_checksum`: the first checksum tag, with the prefix
      dropped. */
  function ExistingTagChecksum(tags: seq<string>): (r: Option<string>)
    ensures r == if WithPrefix(tags, TAG_CHECKSUM_PREFIX) == [] then None
                 else Some(DeletePrefix(WithPrefix(tags, TAG_CHECKSUM_PREFIX)[0], TAG_CHECKSUM_PREFIX))
  {
    if |tags| == 0 then None
    else if StartsWith(tags[0], TAG_CHECKSUM_PREFIX) then Some(DeletePrefix(tags[0], TAG_CHECKSUM_PREFIX))
    else ExistingTagChecksum(tags[1..])
  }

  /** `tags_have_changed?` of client.rb: a differing checksum tag is
      replaced; the change (timed `now`) is reported only when there was one. */
  function TagsHaveChanged(digest: string -> string, now: int, st: State): (r: (State, Option<int>))
    ensures var c := digest(TagChecksumInput(Local(st, Tags)));
            var existing := ExistingTagChecksum(Local(st, Tags));
            && (r.1.Some? <==> existing.Some? && existing != Some(c))
            && (r.1.Some? ==> r.1.value == now)
            && (existing == Some(c) ==> r.0 == st)
            && (existing != Some(c) ==> WithPrefix(Local(r.0, Tags), TAG_CHECKSUM_PREFIX) == [TAG_CHECKSUM_PREFIX + c])
            && ExistingTagChecksum(Local(r.0, Tags)) == Some(c)
    ensures GetSide(r.0, Links) == GetSide(st, Links) && r.0.meta == st.meta && r.0.batch == st.batch
  {
    var c := digest(TagChecksumInput(Local(st, Tags)));
    var existing := ExistingTagChecksum(Local(st, Tags));
    if existing == Some(c) then (st, None)
    else
      var st1 := Replace(st, Tags, TAG_CHECKSUM_PREFIX, TAG_CHECKSUM_PREFIX + c);
      assert DeletePrefix(TAG_CHECKSUM_PREFIX + c, TAG_CHECKSUM_PREFIX) == c;
      (st1, if existing.Some? then Some(now) else None)
  }

  /** Replacing the checksum tag does not change what the checksum covers. */
  lemma ChecksumTagOutsideInput(tags: seq<string>, c: string)
    ensures TagChecksumInput(WithoutPrefix(tags, TAG_CHECKSUM_PREFIX) + [TAG_CHECKSUM_PREFIX + c]) == TagChecksumInput(tags)
  {
    var w := WithoutPrefix(tags, TAG_CHECKSUM_PREFIX);
    var x := w + [TAG_CHECKSUM_PREFIX + c];
    WithoutPrefixConcat(w, [TAG_CHECKSUM_PREFIX + c], TAG_CHECKSUM_PREFIX);
    assert WithoutPrefix([TAG_CHECKSUM_PREFIX + c], TAG_CHECKSUM_PREFIX) == [];
    WithoutPrefixIdempotent(tags, TAG_CHECKSUM_PREFIX);
    assert WithoutPrefix(x, TAG_CHECKSUM_PREFIX) == w;
  }

  lemma {:induction false} WithoutPrefixIdempotent(s: seq<string>, p: string)
    ensures WithoutPrefix(WithoutPrefix(s, p), p) == WithoutPrefix(s, p)
  {
    if |s| > 0 {
      var t := WithoutPrefix(s[1..], p);
      WithoutPrefixIdempotent(s[1..], p);
      if !StartsWith(s[0], p) {
        assert WithoutPrefix(s, p) == [s[0]] + t;
        assert ([s[0]] + t)[0] == s[0];
        assert ([s[0]] + t)[1..] == t;
      } else {
        assert WithoutPrefix(s, p) == [] + t == t;
      }
    }
  }

  /** An immediate second call finds the checksum it just wrote and reports nothing. */
  lemma LegacySecondCallQuiet(digest: string -> string, now: int, later: int, st: State)
    ensures var st1 := TagsHaveChanged(digest, now, st).0;
            TagsHaveChanged(digest, later, st1) == (st1, None)
  {
    var c := digest(TagChecksumInput(Local(st, Tags)));
    var st1 := TagsHaveChanged(digest, now, st).0;
    if ExistingTagChecksum(Local(st, Tags)) != Some(c) {
      ChecksumTagOutsideInput(Local(st, Tags), c);
    }
  }

  /** First sight: with no checksum tag the change goes unreported but the tag is written. */
  lemma LegacyFirstSightQuiet(digest: string -> string, now: int, st: State)
    requires forall t :: t in Local(st, Tags) ==> !StartsWith(t, TAG_CHECKSUM_PREFIX)
    ensures TagsHaveChanged(digest, now, st).1 == None
    ensures TAG_CHECKSUM_PREFIX + digest(TagChecksumInput(Local(st, Tags))) in Local(TagsHaveChanged(digest, now, st).0, Tags)
  {
    WithPrefixNone(Local(st, Tags), TAG_CHECKSUM_PREFIX);
    var st1 := TagsHaveChanged(digest, now, st).0;
    assert WithPrefix(Local(st1, Tags), TAG_CHECKSUM_PREFIX)[0] in Local(st1, Tags);
  }

  // ---------------------------------------------------------------------
  // location_from_tags

  /** client.rb's `COHORT_JOBS`: location names and their postings. */
  const LEGACY_COHORT_JOBS: seq<(string, string)> := [
    ("bangalore", "23bf8c07-b32e-483f-9007-1b9c2a004eb6"),
    ("london", "c404cfc6-0621-4fce-9e76-5d908e36fd9c"),
    ("singapore", "3b2c714a-edee-4fd0-974d-413bae32c818"),
    ("paris", "e23deb1a-c0ab-43b8-9a3a-e47e3cca0970"),
    ("berlin", "b9c2b6b8-3d82-4c45-9b06-b549d223b017"),
    ("toronto", "0b785d4c-3a6e-4597-829e-fcafb06cae2b")
  ]

  function LegacyNames(): (r: seq<string>)
    ensures |r| == |LEGACY_COHORT_JOBS|
    ensures forall j :: 0 <= j < |r| ==> r[j] == LEGACY_COHORT_JOBS[j].0
  {
    seq(|LEGACY_COHORT_JOBS|, j requires 0 <= j < |LEGACY_COHORT_JOBS| => LEGACY_COHORT_JOBS[j].0)
  }

  /** client.rb's `location_from_tags`: tags in order, then the table in
      order, by substring of the downcased tag. */
  function LegacyLocationFromTags(tags: seq<string>): (r: Option<(string, string)>)
    ensures r.Some? ==> r.value in LEGACY_COHORT_JOBS
    ensures r.Some? ==> exists i :: 0 <= i < |tags| && Includes(Downcase(tags[i]), r.value.0)
    ensures r.Some? ==>
              exists i, j ::
                && 0 <= i < |tags| && 0 <= j < |LEGACY_COHORT_JOBS|
                && r.value == LEGACY_COHORT_JOBS[j] && TagHit(tags[i], LegacyNames()) == Some(j)
                && forall i' :: 0 <= i' < i ==> TagHit(tags[i'], LegacyNames()).None?
    ensures r.None? <==> forall i, j :: 0 <= i < |tags| && 0 <= j < |LEGACY_COHORT_JOBS| ==>
                                         !Includes(Downcase(tags[i]), LEGACY_COHORT_JOBS[j].0)
  {
    match FirstMatch(tags, LegacyNames())
    case None => None
    case Some((i, j)) =>
      assert TagHit(tags[i], LegacyNames()) == Some(j);
      Some(LEGACY_COHORT_JOBS[j])
  }

  /** The legacy table and the current intakes list the same locations in
      the same order, so both lookups pick the same location name. */
  lemma LocationsAgree(tags: seq<string>)
    ensures LegacyLocationFromTags(tags).Some? <==> LocationFromTags(tags).Some?
    ensures LegacyLocationFromTags(tags).Some? ==>
              LegacyLocationFromTags(tags).value.0 == LocationFromTags(tags).value.tag.value
  {
    assert LegacyNames() == LOCATION_NAMES;
    LocationNamesAreCohortTags();
  }

  // ---------------------------------------------------------------------
  // source_from_application

  /** What `source_from_application` returns: a message hash, a found
      source with the question it came from, or nil. */
  datatype SourceOutcome = Message(msg: string) | Found(source: string, field: string) | NoSource

  /** `s.downcase.gsub(/[^a-z ]/, '')`. */
  function Simplify(s: string): (r: string)
    ensures forall c :: c in r ==> 'a' <= c <= 'z' || c == ' '
  {
    var d := Downcase(s);
    if |d| == 0 then ""
    else (if 'a' <= d[0] <= 'z' || d[0] == ' ' then [d[0]] else []) + Simplify(s[1..])
  }

  /** The answer as a string: a list of choices joined with spaces. */
  function AnswerText(a: Answer): string
    requires !a.Blank?
  {
    match a
    case Text(t) => t
    case Choices(cs) => Join(cs, " ")
  }

  /** The custom question sets combined into one list of questions. */
  function Flatten(sets: seq<QuestionSet>): (r: seq<Question>)
    ensures forall q :: q in r <==> exists i :: 0 <= i < |sets| && q in sets[i].fields
  {
    if |sets| == 0 then []
    else
      var r := sets[0].fields + Flatten(sets[1..]);
      assert forall q, i :: 0 < i < |sets| && q in sets[i].fields ==> q in sets[1..][i - 1].fields;
      r
  }

  /** The first question whose simplified title contains `phrase`. */
  function FirstWith(qs: seq<Question>, phrase: string): (r: Option<nat>)
    ensures r.Some? ==> r.value < |qs| && Includes(Simplify(qs[r.value].text), phrase)
    ensures r.Some? ==> forall j :: 0 <= j < r.value ==> !Includes(Simplify(qs[j].text), phrase)
    ensures r.None? <==> forall j :: 0 <= j < |qs| ==> !Includes(Simplify(qs[j].text), phrase)
  {
    if |qs| == 0 then None
    else if Includes(Simplify(qs[0].text), phrase) then Some(0)
    else match FirstWith(qs[1..], phrase)
      case None => None
      case Some(j) => Some(j + 1)
  }

  /** `source = nil; map.each { |m| source = m[1] if value.include?(m[0]) }`. */
  function MapSource(value: string, table: seq<(string, string)>, acc: Option<string>): Option<string>
    decreases |table|
  {
    if |table| == 0 then acc
    else MapSource(value, table[1..], if Includes(value, table[0].0) then Some(table[0].1) else acc)
  }

  /** The index of the last phrase of the table that the value contains. */
  function LastMatch(value: string, table: seq<(string, string)>): (r: Option<nat>)
    ensures r.Some? ==> r.value < |table| && Includes(value, table[r.value].0)
    ensures r.Some? ==> forall j :: r.value < j < |table| ==> !Includes(value, table[j].0)
    ensures r.None? <==> forall j :: 0 <= j < |table| ==> !Includes(value, table[j].0)
  {
    if |table| == 0 then None
    else if Includes(value, table[|table| - 1].0) then Some(|table| - 1)
    else LastMatch(value, table[..|table| - 1])
  }

  /** Within one table the last matching phrase wins: later matches overwrite earlier ones. */
  lemma {:induction false} MapSourceIsLastMatch(value: string, table: seq<(string, string)>, acc: Option<string>)
    ensures MapSource(value, table, acc) ==
              match LastMatch(value, table)
              case None => acc
              case Some(i) => Some(table[i].1)
    decreases |table|
  {
    if |table| > 0 {
      var acc' := if Includes(value, table[0].0) then Some(table[0].1) else acc;
      MapSourceIsLastMatch(value, table[1..], acc');
      LastMatchTail(value, table);
    }
  }

  /** A match in the tail is the last match of the whole table. */
  lemma LastMatchInTail(value: string, table: seq<(string, string)>)
    requires |table| > 0 && LastMatch(value, table[1..]).Some?
    ensures LastMatch(value, table) == Some(LastMatch(value, table[1..]).value + 1)
  {
    var r := LastMatch(value, table);
    var t := LastMatch(value, table[1..]).value;
    assert table[1..][t] == table[t + 1];
    forall j | t + 1 < j < |table| ensures !Includes(value, table[j].0) {
      assert table[1..][j - 1] == table[j];
    }
  }

  /** Without a match in the tail, only the first phrase can match. */
  lemma LastMatchNotInTail(value: string, table: seq<(string, string)>)
    requires |table| > 0 && LastMatch(value, table[1..]).None?
    ensures LastMatch(value, table) == if Includes(value, table[0].0) then Some(0) else None
  {
    forall j | 0 < j < |table| ensures !Includes(value, table[j].0) {
      assert table[1..][j - 1] == table[j];
    }
  }

  /** The last match of a non-empty table, seen from its tail. */
  lemma LastMatchTail(value: string, table: seq<(string, string)>)
    requires |table| > 0
    ensures LastMatch(value, table) ==
              match LastMatch(value, table[1..])
              case Some(i) => Some(i + 1)
              case None => if Includes(value, table[0].0) then Some(0) else None
  {
    if LastMatch(value, table[1..]).Some? {
      LastMatchInTail(value, table);
    } else {
      LastMatchNotInTail(value, table);
    }
  }

  const TOLD_YOU_TABLE: seq<(string, string)> := [
    ("been on the ef programme", "Referral"),
    ("worked at ef", "Referral"),
    ("professional network", "Organic"),
    ("friends or family", "Organic")
  ]

  const HEAR_ABOUT_TABLE: seq<(string, string)> := [
    ("directly contacted by ef", "Sourced"),
    ("cohort member", "Referral"),
    ("someone else", "Organic"),
    ("came across ef", "Offline-or-Organic"),
    ("event", "Offline")
  ]

  /** Steps 2 and 3: the first question with the title phrase is looked up
      in the table; no question, or no phrase matched, passes on. */
  function TableStep(qs: seq<Question>, phrase: string, table: seq<(string, string)>): (r: Option<SourceOutcome>)
    requires forall i :: 0 <= i < |qs| ==> !qs[i].value.Blank?
    ensures r.Some? <==> FirstWith(qs, phrase).Some? && LastMatch(Simplify(AnswerText(qs[FirstWith(qs, phrase).value].value)), table).Some?
    ensures r.Some? ==> var q := qs[FirstWith(qs, phrase).value];
                        r.value == Found(table[LastMatch(Simplify(AnswerText(q.value)), table).value].1, q.text)
  {
    match FirstWith(qs, phrase)
    case None => None
    case Some(i) =>
      var v := Simplify(AnswerText(qs[i].value));
      MapSourceIsLastMatch(v, table, None);
      match MapSource(v, table, None)
      case None => None
      case Some(s) => Some(Found(s, qs[i].text))
  }

  /** `source_from_application` on the combined questions. Simplifying the
      answers comes first and calls `downcase` on every answer, so a
      question left blank raises NoMethodError; so does comparing a list of
      choices with `''` in the "who referred you" step. */
  function SourceFromQuestions(qs: seq<Question>): (r: Result<SourceOutcome>)
    ensures (exists i :: 0 <= i < |qs| && qs[i].value.Blank?) ==> r == Raised(NoMethodError)
    ensures (forall i :: 0 <= i < |qs| ==> !qs[i].value.Blank?) && FirstWith(qs, "who referred you").Some? ==>
              var q := qs[FirstWith(qs, "who referred you").value];
              (q.value.Choices? ==> r == Raised(NoMethodError))
              && (q.value.Text? && |q.value.text| > 0 ==> r == Ok(Found("Referral", q.text)))
    ensures r.Ok? && r.value != NoSource ==> r.value.Found?
  {
    if exists i :: 0 <= i < |qs| && qs[i].value.Blank? then Raised(NoMethodError)
    else
      var referred := FirstWith(qs, "who referred you");
      if referred.Some? && qs[referred.value].value.Choices? then Raised(NoMethodError)
      else if referred.Some? && |qs[referred.value].value.text| > 0 then Ok(Found("Referral", qs[referred.value].text))
      else match TableStep(qs, "who told you about ef", TOLD_YOU_TABLE)
        case Some(o) => Ok(o)
        case None =>
          match TableStep(qs, "how did you hear about ef", HEAR_ABOUT_TABLE)
          case Some(o) => Ok(o)
          case None => Ok(NoSource)
  }

  /** `source_from_application(opp)`. `has_application` guarantees custom
      questions, so the "Couldn't find custom question responses." message
      cannot be returned. */
  function SourceFromApplication(opp: Opp): (r: Result<SourceOutcome>)
    ensures !HasApplication(opp) ==> r == Ok(Message("No application"))
    ensures r.Ok? && r.value.Message? ==> !HasApplication(opp)
  {
    if !HasApplication(opp) then Ok(Message("No application"))
    else SourceFromQuestions(Flatten(opp.applications[0].customQuestions))
  }

  /** Only the first question carrying each title phrase is examined:
      further questions (with answers) never change the outcome once the
      three phrases have all been seen. */
  lemma LaterQuestionsIgnored(qs: seq<Question>, extra: seq<Question>)
    requires FirstWith(qs, "who referred you").Some?
    requires FirstWith(qs, "who told you about ef").Some?
    requires FirstWith(qs, "how did you hear about ef").Some?
    requires forall i :: 0 <= i < |extra| ==> !extra[i].value.Blank?
    ensures SourceFromQuestions(qs + extra) == SourceFromQuestions(qs)
  {
    FirstWithPrefix(qs, extra, "who referred you");
    BlankPrefix(qs, extra);
    if forall i :: 0 <= i < |qs| ==> !qs[i].value.Blank? {
      TableStepPrefix(qs, extra, "who told you about ef", TOLD_YOU_TABLE);
      TableStepPrefix(qs, extra, "how did you hear about ef", HEAR_ABOUT_TABLE);
    }
  }

  lemma BlankPrefix(qs: seq<Question>, extra: seq<Question>)
    requires forall i :: 0 <= i < |extra| ==> !extra[i].value.Blank?
    ensures (exists i :: 0 <= i < |qs + extra| && (qs + extra)[i].value.Blank?) <==>
            (exists i :: 0 <= i < |qs| && qs[i].value.Blank?)
  {
    if exists i :: 0 <= i < |qs + extra| && (qs + extra)[i].value.Blank? {
      var i :| 0 <= i < |qs + extra| && (qs + extra)[i].value.Blank?;
    }
    if exists i :: 0 <= i < |qs| && qs[i].value.Blank? {
      var i :| 0 <= i < |qs| && qs[i].value.Blank?;
      assert (qs + extra)[i] == qs[i];
    }
  }

  lemma TableStepPrefix(qs: seq<Question>, extra: seq<Question>, phrase: string, table: seq<(string, string)>)
    requires FirstWith(qs, phrase).Some?
    requires forall i :: 0 <= i < |qs| ==> !qs[i].value.Blank?
    requires forall i :: 0 <= i < |extra| ==> !extra[i].value.Blank?
    ensures forall i :: 0 <= i < |qs + extra| ==> !(qs + extra)[i].value.Blank?
    ensures TableStep(qs + extra, phrase, table) == TableStep(qs, phrase, table)
  {
    forall i | 0 <= i < |qs + extra| ensures !(qs + extra)[i].value.Blank? {
      if i >= |qs| { assert (qs + extra)[i] == extra[i - |qs|]; } else { assert (qs + extra)[i] == qs[i]; }
    }
    FirstWithPrefix(qs, extra, phrase);
  }

  lemma {:induction false} FirstWithPrefix(qs: seq<Question>, extra: seq<Question>, phrase: string)
    requires FirstWith(qs, phrase).Some?
    ensures FirstWith(qs + extra, phrase) == FirstWith(qs, phrase)
    ensures (qs + extra)[FirstWith(qs, phrase).value] == qs[FirstWith(qs, phrase).value]
  {
    var all := qs + extra;
    var i := FirstWith(qs, phrase).value;
    forall k | 0 <= k <= i ensures all[k] == qs[k] {}
    var r := FirstWith(all, phrase);
    assert Includes(Simplify(all[i].text), phrase);
    assert r.Some?;
    assert r.value == i;
  }
}

=== FILE: lists.dfy ===
/** Ruby Array operations the bookkeeping relies on, over Dafny sequences. */
module Lists {
  import opened Prelude

  /** Number of occurrences of `x` in `s`. */
  function Count<T(==)>(s: seq<T>, x: T): nat {
    if |s| == 0 then 0 else (if s[0] == x then 1 else 0) + Count(s[1..], x)
  }

  /** No value occurs twice. */
  predicate NoDup<T(==)>(s: seq<T>) {
    forall i, j :: 0 <= i < j < |s| ==> s[i] != s[j]
  }

  lemma NoDupCons<T>(x: T, s: seq<T>)
    requires NoDup(s) && x !in s
    ensures NoDup([x] + s)
  {
    forall i, j | 0 <= i < j < |s| + 1 ensures ([x] + s)[i] != ([x] + s)[j] {
      if i == 0 { assert ([x] + s)[j] == s[j - 1]; }
    }
  }

  lemma NoDupSnoc<T>(s: seq<T>, x: T)
    requires NoDup(s) && x !in s
    ensures NoDup(s + [x])
  {
    forall i, j | 0 <= i < j < |s| + 1 ensures (s + [x])[i] != (s + [x])[j] {
      if j == |s| { assert (s + [x])[i] == s[i]; }
    }
  }

  /** `Array#delete(x)`: every occurrence of `x` is removed, the rest keeps its order. */
  function Delete<T(==,!new)>(s: seq<T>, x: T): (r: seq<T>)
    ensures x !in r
    ensures forall y :: y in r <==> y in s && y != x
    ensures forall y :: y != x ==> Count(r, y) == Count(s, y)
    ensures |r| <= |s|
  {
    if |s| == 0 then []
    else if s[0] == x then Delete(s[1..], x)
    else [s[0]] + Delete(s[1..], x)
  }

  /** `ary << x unless ary.include?(x)`. */
  function AppendNew<T(==,!new)>(s: seq<T>, x: T): (r: seq<T>)
    ensures x in r
    ensures forall y :: y in r <==> y in s || y == x
    ensures x !in s ==> Count(r, x) == 1
    ensures x in s ==> r == s
  {
    if x in s then s else CountAppend(s, x); CountZero(s, x); s + [x]
  }

  /** `select { p }`: the elements satisfying `p`, in order. */
  function Filter<T(!new)>(s: seq<T>, p: T -> bool): (r: seq<T>)
    ensures |r| <= |s|
    ensures forall y :: y in r <==> y in s && p(y)
  {
    if |s| == 0 then [] else (if p(s[0]) then [s[0]] else []) + Filter(s[1..], p)
  }

  /** Index of the first element satisfying `p`, or `|s|` when there is none. */
  function FirstIndex<T>(s: seq<T>, p: T -> bool): (i: nat)
    ensures i <= |s|
    ensures forall j :: 0 <= j < i ==> !p(s[j])
    ensures i < |s| ==> p(s[i])
  {
    if |s| == 0 then 0 else if p(s[0]) then 0 else 1 + FirstIndex(s[1..], p)
  }

  /** `find { p }`: the first element satisfying `p`, if any. */
  function Find<T>(s: seq<T>, p: T -> bool): (r: Option<T>)
    ensures r.None? <==> forall j :: 0 <= j < |s| ==> !p(s[j])
    ensures r.Some? ==> r.value == s[FirstIndex(s, p)] && p(r.value)
  {
    var i := FirstIndex(s, p);
    if i < |s| then Some(s[i]) else None
  }

  lemma CountAppend<T>(s: seq<T>, x: T)
    ensures Count(s + [x], x) == Count(s, x) + 1
  {
    if |s| > 0 {
      assert (s + [x])[1..] == s[1..] + [x];
      CountAppend(s[1..], x);
    }
  }

  lemma CountSnoc<T>(s: seq<T>, x: T, y: T)
    ensures Count(s + [x], y) == Count(s, y) + (if x == y then 1 else 0)
  {
    if |s| > 0 {
      assert (s + [x])[1..] == s[1..] + [x];
      CountSnoc(s[1..], x, y);
    }
  }

  lemma CountLast<T>(s: seq<T>, y: T)
    requires |s| > 0
    ensures Count(s, y) == Count(s[..|s| - 1], y) + (if s[|s| - 1] == y then 1 else 0)
  {
    assert s == s[..|s| - 1] + [s[|s| - 1]];
    CountSnoc(s[..|s| - 1], s[|s| - 1], y);
  }

  lemma CountZero<T>(s: seq<T>, x: T)
    ensures Count(s, x) == 0 <==> x !in s
  {
    if |s| > 0 {
      CountZero(s[1..], x);
      assert s == [s[0]] + s[1..];
    }
  }

  lemma CountMultiset<T>(s: seq<T>, x: T)
    ensures Count(s, x) == multiset(s)[x]
  {
    if |s| > 0 {
      CountMultiset(s[1..], x);
      assert s == [s[0]] + s[1..];
    }
  }

  lemma FilterConcat<T(!new)>(a: seq<T>, b: seq<T>, p: T -> bool)
    ensures Filter(a + b, p) == Filter(a, p) + Filter(b, p)
  {
    if |a| == 0 {
      assert a + b == b;
    } else {
      assert (a + b)[1..] == a[1..] + b;
      FilterConcat(a[1..], b, p);
    }
  }

  lemma FilterMultiset<T(!new)>(a: seq<T>, b: seq<T>, p: T -> bool)
    requires multiset(a) == multiset(b)
    ensures multiset(Filter(a, p)) == multiset(Filter(b, p))
  {
    forall x ensures multiset(Filter(a, p))[x] == multiset(Filter(b, p))[x] {
      FilterCount(a, p, x);
      FilterCount(b, p, x);
    }
  }

  lemma FilterCount<T(!new)>(a: seq<T>, p: T -> bool, x: T)
    ensures multiset(Filter(a, p))[x] == if p(x) then multiset(a)[x] else 0
  {
    if |a| > 0 {
      FilterCount(a[1..], p, x);
      assert a == [a[0]] + a[1..];
    }
  }
}

=== FILE: notifier.dfy ===
/** The notify decision of controller/process_updates.rb: when the record
    last changed (`latest_change`), whether that is news
    (`last_change_detected + 100`, or a change the rules caused), and the
    bookkeeping of `last_change_detected` on both paths. */
module Notifier {
  import opened Prelude
  import opened Hashes
  import opened Opportunity
  import opened Annotations
  import opened BotMetadata
  import opened ChangeDetector

  // ---------------------------------------------------------------------
  // latest_change

  /** `cs.max_by { |c| c[:time] }`: the index of the first candidate with the greatest time. */
  function MaxBy(cs: seq<Change>): (i: nat)
    requires |cs| > 0
    ensures i < |cs|
    ensures forall j :: 0 <= j < |cs| ==> cs[j].time <= cs[i].time
    ensures forall j :: 0 <= j < i ==> cs[j].time < cs[i].time
  {
    if |cs| == 1 then 0
    else
      var k := MaxBy(cs[1..]) + 1;
      assert forall j :: 1 <= j < |cs| ==> cs[j] == cs[1..][j - 1];
      if cs[0].time >= cs[k].time then 0 else k
  }

  function Present(o: Option<Change>): seq<Change> {
    if o.Some? then [o.value] else []
  }

  /** The candidates `latest_change` compares, in order: the last
      interaction, then a tag change, then a link change. */
  function Candidates(interaction: Change, tags: Option<Change>, links: Option<Change>): seq<Change> {
    [interaction] + Present(tags) + Present(links)
  }

  /** The winning candidate: the latest one, and of equally late ones the first. */
  function LatestOf(interaction: Change, tags: Option<Change>, links: Option<Change>): (r: Change)
    ensures r in Candidates(interaction, tags, links)
    ensures r.time >= interaction.time
    ensures tags.Some? ==> r.time >= tags.value.time
    ensures links.Some? ==> r.time >= links.value.time
    ensures r.time == interaction.time ==> r == interaction
    ensures tags.Some? && r.time == tags.value.time && r != interaction ==> r == tags.value
  {
    var cs := Candidates(interaction, tags, links);
    var i := MaxBy(cs);
    assert cs[0] == interaction;
    assert tags.Some? ==> cs[1] == tags.value;
    assert links.Some? ==> cs[|cs| - 1] == links.value;
    cs[i]
  }

  /** Both checksum detectors run at time `now`, tags first. */
  function Detect(digest: string -> string, now: int, st: State): (r: Result<(State, Option<Change>, Option<Change>)>)
    requires MetaOk(st)
    ensures r.Raised? <==> Metadata(st).Raised?
    ensures r.Ok? ==> MetaOk(r.value.0) && r.value.0.meta.Some?
    ensures r.Ok? ==> r.value.0.opp == st.opp && r.value.0.sent == st.sent && r.value.0.batch == st.batch
                      && r.value.0.tagQ == st.tagQ && r.value.0.linkQ == st.linkQ && r.value.0.notes == st.notes
    ensures r.Ok? ==> (r.value.1.Some? ==> r.value.1.value == Change(now, TagsUpdated))
                      && (r.value.2.Some? ==> r.value.2.value == Change(now, LinksUpdated))
    ensures r.Ok? ==> Get(r.value.0.meta.value, MetaKey(Links)) == Some(Str(Checksum(digest, st, Links)))
  {
    var r1 := HaveChanged(digest, now, st, Tags);
    if r1.Raised? then Raised(r1.failure)
    else
      var st1 := r1.value.0;
      assert Metadata(st1).Ok?;
      var r2 := HaveChanged(digest, now, st1, Links);
      assert GetSide(st1, Links) == GetSide(st, Links);
      Ok((r2.value.0, r1.value.1, r2.value.1))
  }

  /** `latest_change(opp)`. */
  function LatestChange(digest: string -> string, now: int, st: State): (r: Result<(State, Change)>)
    requires MetaOk(st)
    ensures r.Raised? <==> Metadata(st).Raised?
    ensures r.Ok? ==> var (st1, t, l) := Detect(digest, now, st).value;
                      r.value.0 == st1 && r.value.1 == LatestOf(Change(st.opp.lastInteractionAt, NewInteraction), t, l)
  {
    match Detect(digest, now, st)
    case Raised(e) => Raised(e)
    case Ok((st1, t, l)) => Ok((st1, LatestOf(Change(st.opp.lastInteractionAt, NewInteraction), t, l)))
  }

  /** What the latest change is: a detected change only when it is strictly
      later than the last interaction, the tag change ahead of the link
      change (both are timed `now`). */
  lemma LatestChangeIs(interaction: Change, now: int, t: Option<Change>, l: Option<Change>)
    requires t.Some? ==> t.value == Change(now, TagsUpdated)
    requires l.Some? ==> l.value == Change(now, LinksUpdated)
    ensures LatestOf(interaction, t, l) ==
              if (t.Some? || l.Some?) && now > interaction.time then
                (if t.Some? then t.value else l.value)
              else interaction
  {}

  // ---------------------------------------------------------------------
  // The decision

  /** `[tags_have_changed?, links_have_changed?].each { |u| unless u.nil? ... }`:
      each detected change replaces the change to report and forces a notification. */
  function FoldUpdates(notify: bool, last: Change, updates: seq<Option<Change>>): (r: (bool, Change))
    ensures r.0 <==> notify || exists i :: 0 <= i < |updates| && updates[i].Some?
    ensures (forall i :: 0 <= i < |updates| ==> updates[i].None?) ==> r.1 == last
    ensures |updates| > 0 && updates[|updates| - 1].Some? ==> r.1 == updates[|updates| - 1].value
    ensures |updates| > 0 && updates[|updates| - 1].None? ==> r == FoldUpdates(notify, last, updates[..|updates| - 1])
    decreases |updates|
  {
    if |updates| == 0 then (notify, last)
    else
      var (n, c) := FoldUpdates(notify, last, updates[..|updates| - 1]);
      var u := updates[|updates| - 1];
      assert forall i :: 0 <= i < |updates| - 1 ==> updates[..|updates| - 1][i] == updates[i];
      if u.Some? then (true, u.value) else (n, c)
  }

  /** Whether to notify, and of which change: notify when the latest change
      is more than 100 ms past `last_change_detected`, or when the rules
      caused a tag or link change; a link change is reported over a tag
      change, and either over the change found before the rules ran. */
  function Decide(latest: Change, lcd: int, tags: Option<Change>, links: Option<Change>): (r: (bool, Change))
    ensures r.0 <==> latest.time > lcd + 100 || tags.Some? || links.Some?
    ensures r.1 == if links.Some? then links.value else if tags.Some? then tags.value else latest
  {
    var r := FoldUpdates(latest.time > lcd + 100, latest, [tags, links]);
    assert [tags, links][..1] == [tags];
    assert [tags][..0] == [];
    r
  }

  // ---------------------------------------------------------------------
  // The no-notify update

  function MaxOf(s: seq<int>, m: int): (r: int)
    ensures r >= m && forall i :: 0 <= i < |s| ==> r >= s[i]
    ensures forall x :: x in s ==> r >= x
    ensures r == m || r in s
  {
    if |s| == 0 then m else MaxOf(s[1..], Max(m, s[0]))
  }

  /** The time recorded when nothing is notified, as intended: the latest
      of the notes the bot added, the last interaction and the stored
      `last_change_detected`, so the stored time never decreases. */
  function NoNotifyTime(notes: seq<int>, lastInteractionAt: int, lcd: int): (t: int)
    ensures t >= lcd && t >= lastInteractionAt
    ensures forall i :: 0 <= i < |notes| ==> t >= notes[i]
    ensures t == lcd || t == lastInteractionAt || t in notes
  {
    MaxOf(notes, Max(lastInteractionAt, lcd))
  }

  /** `opp['_addedNoteTimestamp']` after the notes of a pass, as app/client.rb:184
      sets it: the misspelled `_addedNote` is never set, so each note
      stores the pair `[0, time]`. */
  function AddedNoteTimestampAsWritten(notes: seq<int>): (r: Option<seq<int>>)
    ensures r.None? <==> |notes| == 0
    ensures r.Some? ==> r.value == [0, notes[|notes| - 1]]
  {
    if |notes| == 0 then None else Some([0, notes[|notes| - 1]])
  }

  /** controller/process_updates.rb:51 as written: `max` over an Array and two
      Integers raises ArgumentError as soon as a note was added. */
  function NoNotifyTimeAsWritten(notes: seq<int>, lastInteractionAt: int, lcd: int): (r: Result<int>)
    ensures r.Raised? <==> |notes| > 0
    ensures r.Raised? ==> r.failure == ArgumentError
  {
    match AddedNoteTimestampAsWritten(notes)
    case Some(_) => Raised(ArgumentError)
    case None => Ok(Max(lastInteractionAt, lcd))
  }

  /** Without notes the source computes the intended time; with one it fails. */
  lemma NoNotifyTimeAgrees(notes: seq<int>, lastInteractionAt: int, lcd: int)
    ensures |notes| == 0 ==> NoNotifyTimeAsWritten(notes, lastInteractionAt, lcd) == Ok(NoNotifyTime(notes, lastInteractionAt, lcd))
    ensures |notes| > 0 ==> NoNotifyTimeAsWritten(notes, lastInteractionAt, lcd) == Raised(ArgumentError)
  {}

  /** The daemon's no-notify time (app/controller.rb:142) as intended: the
      latest of the notes the bot added and the last interaction. Unlike
      `NoNotifyTime` it does not look at the stored time. */
  function DaemonNoNotifyTime(notes: seq<int>, lastInteractionAt: int): (t: int)
    ensures t >= lastInteractionAt
    ensures forall i :: 0 <= i < |notes| ==> t >= notes[i]
    ensures t == lastInteractionAt || t in notes
  {
    MaxOf(notes, lastInteractionAt)
  }

  /** `[opp['_addedNoteTimestamp'], opp['lastInteractionAt']].reject(&:nil?).max`
      as app/controller.rb:142 writes it: once a note was added the first
      entry is the pair `[0, time]`, and comparing it with an Integer
      raises ArgumentError. */
  function DaemonNoNotifyTimeAsWritten(notes: seq<int>, lastInteractionAt: int): (r: Result<int>)
    ensures r.Raised? <==> |notes| > 0
    ensures r.Raised? ==> r.failure == ArgumentError
  {
    match AddedNoteTimestampAsWritten(notes)
    case Some(_) => Raised(ArgumentError)
    case None => Ok(lastInteractionAt)
  }

  /** Without notes the daemon computes the intended time; with one it fails. */
  lemma DaemonNoNotifyTimeAgrees(notes: seq<int>, lastInteractionAt: int)
    ensures |notes| == 0 ==> DaemonNoNotifyTimeAsWritten(notes, lastInteractionAt) == Ok(DaemonNoNotifyTime(notes, lastInteractionAt))
    ensures |notes| > 0 ==> DaemonNoNotifyTimeAsWritten(notes, lastInteractionAt) == Raised(ArgumentError)
  {}

  // ---------------------------------------------------------------------
  // notify_of_change / update_changed_tag

  /** `update_changed_tag(opp, time)` for a known time. */
  function UpdateChangedTag(st: State, t: int): (r: Result<State>)
    requires MetaOk(st)
    ensures r.Raised? <==> Metadata(st).Raised?
    ensures r.Ok? ==> MetaOk(r.value) && r.value.meta.Some? && LastChangeDetected(r.value.meta.value) == t
    ensures r.Ok? ==> r.value.opp == st.opp && r.value.sent == st.sent && r.value.batch == st.batch
                      && r.value.tagQ == st.tagQ && r.value.linkQ == st.linkQ && r.value.notes == st.notes
  {
    SetMetadata(st, "last_change_detected", Num(t))
  }

  /** `notify_of_change(opp, last_update)`: webhooks are owed only for a
      record with a posting, that is a non-empty `applications` list; the
      change's time is recorded either way. */
  function NotifyOfChange(st: State, last: Change): (r: Result<(State, bool)>)
    requires MetaOk(st)
    ensures r.Raised? <==> Metadata(st).Raised?
    ensures r.Ok? ==> (r.value.1 <==> |st.opp.applications| > 0)
    ensures r.Ok? ==> MetaOk(r.value.0) && r.value.0.meta.Some? && LastChangeDetected(r.value.0.meta.value) == last.time
    ensures r.Ok? ==> r.value.0.opp == st.opp && r.value.0.sent == st.sent && r.value.0.batch == st.batch
                      && r.value.0.tagQ == st.tagQ && r.value.0.linkQ == st.linkQ && r.value.0.notes == st.notes
  {
    match UpdateChangedTag(st, last.time)
    case Raised(e) => Raised(e)
    case Ok(st1) => Ok((st1, |st.opp.applications| > 0))
  }
}

=== FILE: numerals.dfy ===
/** Ruby `Integer#to_s` and the lenient `String#to_i` (base 10). */
module Numerals {

  predicate IsDigit(c: char) { '0' <= c <= '9' }

  function DigitChar(d: int): char
    requires 0 <= d < 10
  {
    ('0' as int + d) as char
  }

  function NatToString(n: nat): (s: string)
    ensures |s| > 0
    ensures forall i :: 0 <= i < |s| ==> IsDigit(s[i])
  {
    if n < 10 then [DigitChar(n)] else NatToString(n / 10) + [DigitChar(n % 10)]
  }

  /** `n.to_s`. */
  function IntToString(n: int): string {
    if n < 0 then "-" + NatToString(-n) else NatToString(n)
  }

  predicate IsSpace(c: char) { c == ' ' || c == '\t' || c == '\n' || c == '\r' || c == '\U{B}' || c == '\U{C}' }

  /** The digits of the longest prefix shaped `digit ('_'? digit)*`, underscores dropped. */
  function DigitRun(s: string): (d: string)
    ensures forall i :: 0 <= i < |d| ==> IsDigit(d[i])
  {
    if |s| > 0 && IsDigit(s[0]) then [s[0]] + DigitRun(s[1..])
    else if |s| > 1 && s[0] == '_' && IsDigit(s[1]) then [s[1]] + DigitRun(s[2..])
    else []
  }

  function DigitsValue(d: string): nat
    requires forall i :: 0 <= i < |d| ==> IsDigit(d[i])
  {
    if |d| == 0 then 0
    else
      assert IsDigit(d[|d| - 1]);
      DigitsValue(d[..|d| - 1]) * 10 + (d[|d| - 1] as int - '0' as int)
  }

  /** `s.to_i`: leading white space, an optional sign, then digits; 0 when there are none. */
  function ToI(s: string): int {
    if |s| > 0 && IsSpace(s[0]) then ToI(s[1..])
    else if |s| > 0 && s[0] == '-' then
      (if |s| > 1 && IsDigit(s[1]) then 0 - DigitsValue(DigitRun(s[1..])) as int else 0)
    else if |s| > 0 && s[0] == '+' then
      (if |s| > 1 && IsDigit(s[1]) then DigitsValue(DigitRun(s[1..])) else 0)
    else if |s| > 0 && IsDigit(s[0]) then DigitsValue(DigitRun(s))
    else 0
  }

  /** An integer written with `to_s` reads back with `to_i`: stored timestamps survive. */
  lemma {:induction false} ToIOfToS(n: int)
    ensures ToI(IntToString(n)) == n
  {
    var m: nat := if n < 0 then -n else n;
    var s := NatToString(m);
    DigitRunAll(s);
    NatDigitsValue(m);
    if n < 0 {
      assert IntToString(n)[1..] == s;
    }
  }

  lemma {:induction false} DigitRunAll(s: string)
    requires forall i :: 0 <= i < |s| ==> IsDigit(s[i])
    ensures DigitRun(s) == s
  {
    if |s| > 0 {
      DigitRunAll(s[1..]);
      assert s == [s[0]] + s[1..];
    }
  }

  lemma {:induction false} NatDigitsValue(n: nat)
    ensures DigitsValue(NatToString(n)) == n
  {
    var s := NatToString(n);
    if n >= 10 {
      NatDigitsValue(n / 10);
      assert s[..|s| - 1] == NatToString(n / 10);
    }
  }
}

=== FILE: opportunity.dfy ===
/** The Lever opportunity record as the bot sees it (the JSON the API
    returns with `applications` and `stage` expanded), and the predicates and
    helpers of app/util.rb. */
module Opportunity {
  import opened Prelude
  import opened Lists
  import opened Hashes
  import opened FormCodec
  import Config

  /** `opp['stage']`: a bare stage id, or the expanded stage object. */
  datatype Stage = Plain(name: string) | Expanded(id: string)

  /** The answer to one custom question: text, a list of choices, or nil. */
  datatype Answer = Text(text: string) | Choices(choices: seq<string>) | Blank

  datatype Question = Question(text: string, value: Answer)

  /** One custom question set of an application; its `fields` are the questions. */
  datatype QuestionSet = QuestionSet(fields: seq<Question>)

  datatype Application = Application(
    posting: Option<string>,
    kind: string,
    user: string,
    createdAt: int,
    customQuestions: seq<QuestionSet>)

  datatype StageChange = StageChange(toStageId: string, userId: string, updatedAt: int)

  datatype Opp = Opp(
    id: string,
    contact: string,
    tags: seq<string>,
    links: seq<string>,
    applications: seq<Application>,
    stage: Stage,
    origin: string,
    sources: seq<string>,
    emails: seq<string>,
    phones: seq<string>,
    createdAt: int,
    lastInteractionAt: int,
    lastAdvancedAt: Option<int>,
    archived: bool,
    anonymized: bool,
    stageChanges: seq<StageChange>)

  /** A value the bot stores in its metadata link: a string, or an Integer
      timestamp set during this run. */
  datatype MetaValue = Str(s: string) | Num(n: int)

  /** `Util.has_posting`: the record is attached to at least one posting. */
  predicate HasPosting(opp: Opp) { |opp.applications| > 0 }

  /** `Util.has_application`: the first application is a real application with answers. */
  predicate HasApplication(opp: Opp)
    ensures HasApplication(opp) ==> HasPosting(opp)
  {
    |opp.applications| > 0
    && opp.applications[0].kind == "posting"
    && |opp.applications[0].customQuestions| > 0
  }

  /** `Util.is_cohort_app`. */
  predicate IsCohortApp(opp: Opp) { Config.COHORT_JOB_TAG in opp.tags }

  /** `Util.is_archived`, which app/util.rb does not define: taken to mean the record is archived. */
  predicate IsArchived(opp: Opp) { opp.archived }

  // ---------------------------------------------------------------------
  // dup_hash

  /** `h[k]` of a `Hash.new(0)`: 0 for a missing key. */
  function Val(h: Hash<nat>, k: string): nat {
    if Get(h, k).Some? then Get(h, k).value else 0
  }

  /** `h[e] += 1` on a `Hash.new(0)`. */
  function Bump(h: Hash<nat>, e: string): (r: Hash<nat>)
    ensures Val(r, e) == Val(h, e) + 1 && Get(r, e).Some?
    ensures forall k :: k != e ==> Get(r, k) == Get(h, k)
    ensures e in Keys(h) ==> Keys(r) == Keys(h)
    ensures e !in Keys(h) ==> Keys(r) == Keys(h) + [e]
  {
    Put<nat>(h, e, Val(h, e) + 1)
  }

  lemma BumpKeyed(h: Hash<nat>, e: string)
    requires Keyed(h)
    ensures Keyed(Bump(h, e))
  {
    if e !in Keys(h) { NoDupSnoc(Keys(h), e); }
  }

  /** `ary.inject(h) { |h, e| h[e] += 1; h }`. */
  function TallyInto(h: Hash<nat>, ary: seq<string>): Hash<nat>
    decreases |ary|
  {
    if |ary| == 0 then h else TallyInto(Bump(h, ary[0]), ary[1..])
  }

  /** `ary.inject(Hash.new(0)) { |h, e| h[e] += 1; h }`: occurrences, keyed in order of first occurrence. */
  function Tally(ary: seq<string>): Hash<nat> {
    TallyInto([], ary)
  }

  lemma {:induction false} TallyIntoKeyed(h: Hash<nat>, ary: seq<string>)
    requires Keyed(h)
    ensures Keyed(TallyInto(h, ary))
    decreases |ary|
  {
    if |ary| > 0 {
      BumpKeyed(h, ary[0]);
      TallyIntoKeyed(Bump(h, ary[0]), ary[1..]);
    }
  }

  lemma {:induction false} TallyIntoAt(h: Hash<nat>, ary: seq<string>, k: string)
    ensures Val(TallyInto(h, ary), k) == Val(h, k) + Count(ary, k)
    ensures Get(TallyInto(h, ary), k).Some? <==> Get(h, k).Some? || Count(ary, k) > 0
    decreases |ary|
  {
    if |ary| > 0 {
      var h' := Bump(h, ary[0]);
      TallyIntoAt(h', ary[1..], k);
      if ary[0] == k {
        assert Val(h', k) == Val(h, k) + 1;
      } else {
        assert Get(h', k) == Get(h, k);
      }
    }
  }

  lemma TallyAt(ary: seq<string>, k: string)
    ensures Get(Tally(ary), k) == if Count(ary, k) > 0 then Some(Count(ary, k)) else None
  {
    TallyIntoAt([], ary, k);
  }

  /** `select { |_k, v| v > 1 }` on a Hash. */
  function SelectDups(h: Hash<nat>): Hash<nat> {
    if |h| == 0 then []
    else (if h[0].1 > 1 then [h[0]] else []) + SelectDups(h[1..])
  }

  lemma {:induction false} SelectDupsKeyed(h: Hash<nat>)
    requires Keyed(h)
    ensures Keyed(SelectDups(h))
    ensures forall k :: k in Keys(SelectDups(h)) ==> k in Keys(h)
  {
    if |h| > 0 {
      var t := SelectDups(h[1..]);
      KeyedTail(h);
      SelectDupsKeyed(h[1..]);
      assert Keys(h) == [h[0].0] + Keys(h[1..]);
      if h[0].1 > 1 {
        var r := [h[0]] + t;
        assert r[1..] == t;
        assert Keys(r) == [h[0].0] + Keys(t);
        NoDupCons(h[0].0, Keys(t));
      }
    }
  }

  lemma {:induction false} SelectDupsAt(h: Hash<nat>, k: string)
    requires Keyed(h)
    ensures Get(SelectDups(h), k) == if Get(h, k).Some? && Get(h, k).value > 1 then Get(h, k) else None
  {
    if |h| > 0 {
      var t := SelectDups(h[1..]);
      KeyedTail(h);
      SelectDupsAt(h[1..], k);
      if h[0].0 == k {
        assert Get(h, k) == Some(h[0].1);
        if h[0].1 > 1 {
          assert SelectDups(h) == [h[0]] + t;
        } else {
          assert SelectDups(h) == t;
          assert Get(h[1..], k) == None;
        }
      } else {
        assert Get(h, k) == Get(h[1..], k);
        if h[0].1 > 1 {
          assert SelectDups(h) == [h[0]] + t;
          assert ([h[0]] + t)[1..] == t;
        } else {
          assert SelectDups(h) == t;
        }
      }
    }
  }

  /** `Util.dup_hash(ary)`. */
  function DupHash(ary: seq<string>): Hash<nat> {
    SelectDups(Tally(ary))
  }

  /** `dup_hash` maps exactly the elements occurring more than once to their number of occurrences. */
  lemma DupHashCounts(ary: seq<string>)
    ensures Keyed(DupHash(ary))
    ensures forall k :: Get(DupHash(ary), k) == if Count(ary, k) > 1 then Some(Count(ary, k)) else None
  {
    TallyIntoKeyed([], ary);
    SelectDupsKeyed(Tally(ary));
    forall k ensures Get(DupHash(ary), k) == if Count(ary, k) > 1 then Some(Count(ary, k)) else None {
      TallyAt(ary, k);
      SelectDupsAt(Tally(ary), k);
    }
  }

  /** `dup_hash(ary)` is empty exactly when no element repeats. */
  lemma DupHashEmpty(ary: seq<string>)
    ensures DupHash(ary) == [] <==> NoDup(ary)
  {
    var r := DupHash(ary);
    DupHashCounts(ary);
    if NoDup(ary) {
      forall k ensures k !in Keys(r) { NoDupCount(ary, k); }
      KeysHead(r);
    } else {
      var i, j :| 0 <= i < j < |ary| && ary[i] == ary[j];
      TwoOccurrences(ary, i, j);
      assert Get(r, ary[i]).Some?;
    }
  }

  lemma TwoOccurrences(s: seq<string>, i: nat, j: nat)
    requires i < j < |s| && s[i] == s[j]
    ensures Count(s, s[i]) > 1
  {
    if i > 0 {
      TwoOccurrences(s[1..], i - 1, j - 1);
    } else {
      CountZero(s[1..], s[i]);
      assert s[1..][j - 1] == s[i];
    }
  }

  // ---------------------------------------------------------------------
  // to_query

  /** `BASE_PARAMS` of app/client.rb: `{limit: 100}`, its value written as the serializer writes it. */
  const BASE_PARAMS: Hash<string> := [("limit", "100")]

  /** `a.merge(b)`: `b`'s value wins for a shared key; `a`'s keys keep their places. */
  function Merge(a: Hash<string>, b: Hash<string>): (r: Hash<string>)
    requires Keyed(b)
    ensures forall k :: Get(r, k) == if k in Keys(b) then Get(b, k) else Get(a, k)
    decreases |b|
  {
    if |b| == 0 then a
    else
      assert Keys(b) == [b[0].0] + Keys(b[1..]);
      KeyedTail(b);
      Merge(Put(a, b[0].0, b[0].1), b[1..])
  }

  /** `Util.to_query(params)`. */
  function ToQuery(params: Hash<string>): string
    requires Keyed(params)
  {
    EncodeForm(Merge(BASE_PARAMS, params))
  }

  /** Reading back a query: every caller-supplied parameter is there with the caller's
      value, and `limit` is 100 unless the caller set it. */
  lemma ToQueryReadsBack(params: Hash<string>)
    requires Keyed(params)
    ensures DecodeForm(ToQuery(params)).Ok?
    ensures var ps := DecodeForm(ToQuery(params)).value;
            (forall k :: k in Keys(params) ==> Get(ps, k) == Get(params, k))
            && ("limit" !in Keys(params) ==> Get(ps, "limit") == Some("100"))
  {
    FormRoundTrip(Merge(BASE_PARAMS, params));
  }
}

=== FILE: prelude.dfy ===
/** Failure-carrying wrappers shared by every module of the model.

    The Ruby code signals errors by raising; the model returns a `Result`
    whose failure names the Ruby exception class that would be raised. */
module Prelude {

  /** Ruby `nil` versus a value. */
  datatype Option<+T> = None | Some(value: T)

  /** The Ruby exception classes the modelled code can raise. */
  datatype Failure =
    | ArgumentError   // URI.decode_www_form on a non-ASCII string; Array <=> Integer in `max`
    | TypeError       // String#include?(nil), String + nil
    | NoMethodError   // a method that is not defined on the receiver
    | NameError       // a bare identifier that is neither a local nor a method

  /** The value of a Ruby expression, or the exception it raises. */
  datatype Result<+T> = Ok(value: T) | Raised(failure: Failure)

  function Max(a: int, b: int): int { if a < b then b else a }
}

=== FILE: process.dfy ===
/** One pass over one record: `process_opportunity` of
    controller/process_updates.rb, and the daemon-era copy in
    app/controller.rb with its `last_webhook_change`. The rule engine,
    feedback summaries and link rules are an arbitrary list of uncommitted
    tag and link calls plus the times of the notes they add; reloading a
    record after it is assigned to a posting is a given record. */
module Process {
  import opened Prelude
  import opened Lists
  import opened Text
  import opened Hashes
  import opened Config
  import opened Opportunity
  import opened Annotations
  import opened BotMetadata
  import opened ChangeDetector
  import opened Tagging
  import opened Notifier

  /** The `result` hash of one pass. `webhooksOwed` is whether webhooks
      were due (`notify_of_change` on a record with a posting,
      that is a non-empty `applications` list). */
  datatype Outcome = Outcome(anonymized: bool, assignedToJob: bool, sentWebhook: bool, updated: bool, webhooksOwed: bool)

  /** One uncommitted call of the rule and feedback steps. */
  datatype RuleCall = RuleCall(kind: Kind, req: Request)

  function ApplyRules(st: State, calls: seq<RuleCall>): (r: State)
    ensures st.batch ==> r.sent == st.sent
    ensures r.batch == st.batch && r.meta == st.meta && r.notes == st.notes && r.opp.id == st.opp.id
    decreases |calls|
  {
    if |calls| == 0 then st
    else
      var c := calls[0];
      var st1 := match c.req
        case QAdd(vs) => AddAnnotations(st, c.kind, vs, false)
        case QRemove(vs) => RemoveAnnotations(st, c.kind, vs, false);
      ApplyRules(st1, calls[1..])
  }

  // ---------------------------------------------------------------------
  // remove_legacy_attributes

  /** Tags of the bot's first naming scheme. */
  const LEGACY_AUTO_TAG_PREFIX: string := "\U{1F916} [auto]"

  /** A tag the legacy cleanup drops. */
  predicate LegacyTag(t: string, dropOldOptout: bool) {
    StartsWith(t, TAG_CHECKSUM_PREFIX) || StartsWith(t, LAST_CHANGE_TAG_PREFIX)
    || StartsWith(t, LEGACY_AUTO_TAG_PREFIX) || (dropOldOptout && t == TAG_LINKEDIN_OPTOUT_OLD)
  }

  /** A link the legacy cleanup drops. */
  predicate LegacyLink(l: string) {
    StartsWith(l, LEGACY_METADATA_PREFIX) || StartsWith(l, LINK_CHECKSUM_PREFIX)
  }

  /** `remove_legacy_attributes(opp)`; the daemon's copy keeps the old opt-out tag. */
  function RemoveLegacy(st: State, dropOldOptout: bool): (r: State)
    ensures forall t :: t in Local(r, Tags) <==> t in Local(st, Tags) && !LegacyTag(t, dropOldOptout)
    ensures forall l :: l in Local(r, Links) <==> l in Local(st, Links) && !LegacyLink(l)
    ensures r.batch == st.batch && r.meta == st.meta && r.notes == st.notes && r.opp.id == st.opp.id
  {
    var st1 := RemoveWithPrefix(st, Links, LEGACY_METADATA_PREFIX);
    RemoveWithPrefixLocal(st, Links, LEGACY_METADATA_PREFIX);
    var st2 := RemoveWithPrefix(st1, Links, LINK_CHECKSUM_PREFIX);
    RemoveWithPrefixLocal(st1, Links, LINK_CHECKSUM_PREFIX);
    var st3 := RemoveWithPrefix(st2, Tags, TAG_CHECKSUM_PREFIX);
    RemoveWithPrefixLocal(st2, Tags, TAG_CHECKSUM_PREFIX);
    var st4 := RemoveWithPrefix(st3, Tags, LAST_CHANGE_TAG_PREFIX);
    RemoveWithPrefixLocal(st3, Tags, LAST_CHANGE_TAG_PREFIX);
    var st5 := RemoveWithPrefix(st4, Tags, LEGACY_AUTO_TAG_PREFIX);
    RemoveWithPrefixLocal(st4, Tags, LEGACY_AUTO_TAG_PREFIX);
    if dropOldOptout then RemoveIfSet(st5, Tags, [TAG_LINKEDIN_OPTOUT_OLD]) else st5
  }

  /** The cleanup leaves the tags the current rules set alone: none of them
      is under a legacy prefix. */
  lemma CurrentTagsSurviveCleanup()
    ensures !LegacyTag(TAG_LINKEDIN_OPTOUT, true) && !LegacyTag(TAG_LINKEDIN_OPTIN, true)
    ensures !LegacyTag(TAG_LINKEDIN_OPTIN_LIKELY, true)
    ensures !LegacyTag(TAG_ASSIGN_TO_LOCATION_NONE_FOUND, true) && !LegacyTag(TAG_ASSIGNED_TO_LOCATION, true)
  {
    var k := |AUTO_TAG_PREFIX|;
    assert LEGACY_AUTO_TAG_PREFIX[k] == '[' && TAG_CHECKSUM_PREFIX[k] == '[' && LAST_CHANGE_TAG_PREFIX[k] == '[';
    assert TAG_LINKEDIN_OPTOUT[k] == 'L' && TAG_LINKEDIN_OPTIN[k] == 'L' && TAG_LINKEDIN_OPTIN_LIKELY[k] == 'L';
    assert TAG_ASSIGN_TO_LOCATION_NONE_FOUND[k] == 'N' && TAG_ASSIGNED_TO_LOCATION[k] == 'A';
    assert TAG_LINKEDIN_OPTOUT[k + 16] == 'l' && TAG_LINKEDIN_OPTOUT_OLD[k + 16] == 'd';
    assert TAG_LINKEDIN_OPTIN[k + 16] != TAG_LINKEDIN_OPTOUT_OLD[k + 16];
    assert TAG_LINKEDIN_OPTIN_LIKELY[k + 16] != TAG_LINKEDIN_OPTOUT_OLD[k + 16];
  }

  /** The daemon's cleanup keeps the suspected-opt-out tag its classifier
      sets, while the current cleanup drops it: the tag survives the
      daemon's `remove_legacy_attributes` whenever the classifier left it. */
  lemma DaemonCleanupKeepsSuspectedTag(st: State)
    ensures LegacyTag(TAG_LINKEDIN_SUSPECTED_OPTOUT, true) && !LegacyTag(TAG_LINKEDIN_SUSPECTED_OPTOUT, false)
    ensures var st1 := CheckLinkedInDaemon(st, TAG_LINKEDIN_SUSPECTED_OPTOUT);
            (TAG_LINKEDIN_SUSPECTED_OPTOUT in Local(RemoveLegacy(st1, false), Tags) <==> TAG_LINKEDIN_SUSPECTED_OPTOUT in Local(st1, Tags))
  {
    var k := |AUTO_TAG_PREFIX|;
    assert TAG_LINKEDIN_SUSPECTED_OPTOUT[k] == 'L';
    assert LEGACY_AUTO_TAG_PREFIX[k] == '[' && TAG_CHECKSUM_PREFIX[k] == '[' && LAST_CHANGE_TAG_PREFIX[k] == '[';
  }

  // ---------------------------------------------------------------------
  // process_opportunity (controller/process_updates.rb)

  /** `check_no_posting` followed, when it assigned a posting, by
      `refresh_opp`: the reloaded record replaces the local one. */
  function Assign(st: State, refreshed: Opp, skipArchived: bool): (r: (State, bool))
    ensures r.1 <==> !HasPosting(st.opp) && !(skipArchived && IsArchived(st.opp)) && LocationFromTags(st.opp.tags).Some?
    ensures r.1 ==> r.0.opp == refreshed
    ensures !r.1 ==> r.0.opp.id == st.opp.id
    ensures r.0.meta == st.meta && r.0.batch == st.batch && r.0.notes == st.notes
  {
    var c := CheckNoPosting(st, skipArchived);
    if c.1.Some? then (c.0.(opp := refreshed), true) else (c.0, false)
  }

  /** Everything before the cohort branch: batching on, the latest change,
      the stored `last_change_detected`, the posting assignment, the
      LinkedIn classifier and the legacy cleanup. Yields the state, the
      latest change, `last_change_detected` and whether the record was
      assigned. */
  function Prepare(digest: string -> string, now: int, st: State, refreshed: Opp): (r: Result<(State, Change, int, bool)>)
    requires MetaOk(st)
    ensures r.Raised? <==> Metadata(st).Raised?
    ensures r.Ok? ==> MetaOk(r.value.0) && r.value.0.meta.Some? && r.value.0.batch
    ensures r.Ok? ==> r.value.1.time >= st.opp.lastInteractionAt
    ensures r.Ok? ==> var lc := LatestChange(digest, now, BatchUpdates(st, true));
                      && lc.Ok?
                      && r.value.1 == lc.value.1
                      && r.value.2 == LastChangeDetected(lc.value.0.meta.value)
    ensures r.Ok? && r.value.3 ==> !HasPosting(st.opp) && !IsArchived(st.opp)
  {
    var st0 := BatchUpdates(st, true);
    assert Metadata(st0).Raised? == Metadata(st).Raised?;
    var lc := LatestChange(digest, now, st0);
    if lc.Raised? then Raised(lc.failure)
    else
      var st1 := lc.value.0;
      var a := Assign(st1, refreshed, true);
      var st2 := RemoveLegacy(CheckLinkedIn(a.0), true);
      Ok((st2, lc.value.1, LastChangeDetected(st1.meta.value), a.1))
  }

  /** The `last_change_detected` update when nothing is notified. */
  function NoNotifyUpdate(st: State, daemon: bool): (r: State)
    requires MetaOk(st) && st.meta.Some?
    ensures MetaOk(r) && r.meta.Some? && r.batch == st.batch && r.opp == st.opp
    ensures LastChangeDetected(r.meta.value) >= st.opp.lastInteractionAt
    ensures forall x :: x in st.notes ==> LastChangeDetected(r.meta.value) >= x
    ensures !daemon ==> LastChangeDetected(r.meta.value) >= LastChangeDetected(st.meta.value)
    ensures daemon ==> LastChangeDetected(r.meta.value) == DaemonNoNotifyTime(st.notes, st.opp.lastInteractionAt)
    ensures !daemon ==> LastChangeDetected(r.meta.value) == NoNotifyTime(st.notes, st.opp.lastInteractionAt, LastChangeDetected(st.meta.value))
  {
    var time := if daemon then DaemonNoNotifyTime(st.notes, st.opp.lastInteractionAt)
                else NoNotifyTime(st.notes, st.opp.lastInteractionAt, LastChangeDetected(st.meta.value));
    UpdateChangedTag(st, time).value
  }

  /** The notify step and the metadata commit after the decision. Yields
      the state, whether webhooks were owed and whether the metadata link
      was rewritten. */
  function Report(st: State, notify: bool, last: Change, daemon: bool): (r: (State, bool, bool))
    requires MetaOk(st) && st.meta.Some?
    ensures r.0.meta.Some? && r.0.batch == st.batch
    ensures notify ==> LastChangeDetected(r.0.meta.value) == last.time
    ensures r.1 <==> notify && |st.opp.applications| > 0
    ensures !notify ==> LastChangeDetected(r.0.meta.value) >= st.opp.lastInteractionAt
                        && forall x :: x in st.notes ==> LastChangeDetected(r.0.meta.value) >= x
    ensures !notify && !daemon ==> LastChangeDetected(r.0.meta.value) >= LastChangeDetected(st.meta.value)
    ensures !notify && daemon ==> LastChangeDetected(r.0.meta.value) == DaemonNoNotifyTime(st.notes, st.opp.lastInteractionAt)
    ensures !notify && !daemon ==>
              LastChangeDetected(r.0.meta.value) == NoNotifyTime(st.notes, st.opp.lastInteractionAt, LastChangeDetected(st.meta.value))
  {
    var u: (State, bool) := if notify then NotifyOfChange(st, last).value else (NoNotifyUpdate(st, daemon), false);
    var c := if daemon then CommitMetadataDaemon(u.0) else CommitMetadata(u.0);
    (c.0, u.1, c.1)
  }

  /** The state the post-rules detectors see: the rules' calls applied and
      their notes added. */
  function AfterRules(st: State, calls: seq<RuleCall>, notes: seq<int>): (r: State)
    ensures r.meta == st.meta && r.batch == st.batch && r.notes == st.notes + notes && r.opp.id == st.opp.id
  {
    ApplyRules(st, calls).(notes := st.notes + notes)
  }

  /** The post-rules detection of the cohort branch: the detectors run once
      the rule `calls` have acted and the tidied `notes` were added. */
  function PostRules(digest: string -> string, now: int, st: State,
                     calls: seq<RuleCall>, notes: seq<int>): (r: (State, Option<Change>, Option<Change>))
    requires MetaOk(st) && st.meta.Some?
    ensures MetaOk(r.0) && r.0.meta.Some? && r.0.notes == st.notes + notes && r.0.batch == st.batch
  {
    Detect(digest, now, AfterRules(st, calls, notes)).value
  }

  /** The cohort branch: rules, the post-rules detectors, the decision, the
      `last_change_detected` update and the metadata commit. `daemon`
      selects app/controller.rb's no-notify time (without the stored time)
      and its metadata commit. Yields the state, whether a webhook was
      reported, whether webhooks were owed and whether the metadata link
      was rewritten. */
  function CohortSteps(digest: string -> string, now: int, st: State, latest: Change, base: int,
                       calls: seq<RuleCall>, notes: seq<int>, daemon: bool): (r: (State, bool, bool, bool))
    requires MetaOk(st) && st.meta.Some?
    ensures (r.2 ==> r.1) && r.0.meta.Some? && r.0.batch == st.batch
    ensures var d := PostRules(digest, now, st, calls, notes);
            var dec := Decide(latest, base, d.1, d.2);
            && (r.1 <==> dec.0)
            && (r.1 ==> LastChangeDetected(r.0.meta.value) == dec.1.time)
    ensures !r.1 ==> var s := PostRules(digest, now, st, calls, notes).0;
                     && LastChangeDetected(r.0.meta.value) >= s.opp.lastInteractionAt
                     && (forall x :: x in notes ==> LastChangeDetected(r.0.meta.value) >= x)
                     && (!daemon ==> LastChangeDetected(r.0.meta.value) >= LastChangeDetected(s.meta.value))
                     && (daemon ==> LastChangeDetected(r.0.meta.value) == DaemonNoNotifyTime(s.notes, s.opp.lastInteractionAt))
                     && (!daemon ==>
                           LastChangeDetected(r.0.meta.value) == NoNotifyTime(s.notes, s.opp.lastInteractionAt, LastChangeDetected(s.meta.value)))
  {
    var d := PostRules(digest, now, st, calls, notes);
    var st2 := d.0;
    var dec := Decide(latest, base, d.1, d.2);
    var u := Report(st2, dec.0, dec.1, daemon);
    assert st2.notes == st.notes + notes;
    assert !dec.0 ==> forall x :: x in notes ==> x in st2.notes && LastChangeDetected(u.0.meta.value) >= x;
    (u.0, dec.0, u.1, u.2)
  }

  /** What `add_links` needs from the link rules, whose class is not part of
      this model: the checksum of their source, the calls they make and the
      links they report as new. */
  datatype LinkRules = LinkRules(checksum: string, calls: seq<RuleCall>, added: seq<string>)

  const LINK_RULES_KEY: string := "link_rules"

  /** `add_links(opp)`: nothing when the stored `link_rules` is the rules'
      checksum; otherwise the link rules run, and the checksum is stored
      once they report a new link. */
  function AddLinks(st: State, links: LinkRules): (r: State)
    requires MetaOk(st) && st.meta.Some?
    ensures MetaOk(r) && r.meta.Some? && r.batch == st.batch && r.notes == st.notes && r.opp.id == st.opp.id
    ensures st.batch ==> r.sent == st.sent
    ensures Get(st.meta.value, LINK_RULES_KEY) == Some(Str(links.checksum)) ==> r == st
    ensures Get(r.meta.value, LINK_RULES_KEY) == Some(Str(links.checksum)) <==>
              Get(st.meta.value, LINK_RULES_KEY) == Some(Str(links.checksum)) || |links.added| > 0
    ensures forall k :: k != LINK_RULES_KEY ==> Get(r.meta.value, k) == Get(st.meta.value, k)
  {
    if Get(st.meta.value, LINK_RULES_KEY) == Some(Str(links.checksum)) then st
    else
      var st1 := ApplyRules(st, links.calls);
      if |links.added| == 0 then st1
      else SetMetadata(st1, LINK_RULES_KEY, Str(links.checksum)).value
  }

  /** Once `add_links` has stored the checksum, later passes with the same
      link rules skip them, whatever they would report. */
  lemma AddLinksOnce(st: State, links: LinkRules, later: LinkRules)
    requires MetaOk(st) && st.meta.Some? && |links.added| > 0 && later.checksum == links.checksum
    ensures AddLinks(AddLinks(st, links), later) == AddLinks(st, links)
  {
    var st1 := AddLinks(st, links);
    assert Get(st1.meta.value, LINK_RULES_KEY) == Some(Str(later.checksum));
  }

  /** The cohort branch up to the rules: `prepare_app_responses` (`early`)
      and `add_links`. */
  function CohortStart(st: State, early: seq<RuleCall>, links: LinkRules): (r: State)
    requires MetaOk(st) && st.meta.Some?
    ensures MetaOk(r) && r.meta.Some? && r.batch == st.batch && r.notes == st.notes && r.opp.id == st.opp.id
  {
    AddLinks(ApplyRules(st, early), links)
  }

  /** Everything after `remove_legacy_attributes`: the cohort branch when
      the record has no posting or a cohort application, then `commit_opp`
      and `batch_updates(false)`. */
  function Finish(digest: string -> string, now: int, st: State, latest: Change, base: int, wasAssigned: bool,
                  early: seq<RuleCall>, links: LinkRules, calls: seq<RuleCall>, notes: seq<int>): (r: (State, Outcome))
    requires MetaOk(st) && st.meta.Some?
    ensures !r.0.batch && !r.1.anonymized && r.1.assignedToJob == wasAssigned && r.0.meta.Some?
    ensures (r.1.webhooksOwed ==> r.1.sentWebhook) && (r.1.sentWebhook ==> r.1.updated)
    ensures HasPosting(st.opp) && !IsCohortApp(st.opp) ==>
              && r.0.meta == st.meta
              && !r.1.sentWebhook
              && r.0.sent == st.sent + OwedFor(st, Tags) + OwedFor(st, Links)
    ensures !HasPosting(st.opp) || IsCohortApp(st.opp) ==>
              var d := PostRules(digest, now, CohortStart(st, early, links), calls, notes);
              && (r.1.sentWebhook <==> Decide(latest, base, d.1, d.2).0)
              && (!r.1.sentWebhook ==>
                    LastChangeDetected(r.0.meta.value) == NoNotifyTime(d.0.notes, d.0.opp.lastInteractionAt, LastChangeDetected(d.0.meta.value)))
  {
    if !HasPosting(st.opp) || IsCohortApp(st.opp) then
      var c := CohortSteps(digest, now, CohortStart(st, early, links), latest, base, calls, notes, false);
      var o := CommitOpp(c.0);
      (BatchUpdates(o.0, false), Outcome(false, wasAssigned, c.1, c.1 || c.3 || o.1, c.2))
    else
      var o := CommitOpp(st);
      (BatchUpdates(o.0, false), Outcome(false, wasAssigned, false, o.1, false))
  }

  /** `process_opportunity(opp)` of controller/process_updates.rb, with
      `commit_opp` reporting whether it sent anything. The batch flag is a
      plain boolean: a pass turns batching off at the end even when it was
      on before the pass began. */
  function ProcessOpportunity(digest: string -> string, now: int, st: State, refreshed: Opp,
                              early: seq<RuleCall>, links: LinkRules, calls: seq<RuleCall>, notes: seq<int>): (r: Result<(State, Outcome)>)
    requires MetaOk(st)
    ensures st.opp.anonymized ==> r == Ok((st, Outcome(true, false, false, false, false)))
    ensures r.Raised? <==> !st.opp.anonymized && Metadata(st).Raised?
    ensures r.Ok? && !st.opp.anonymized ==> !r.value.0.batch && !r.value.1.anonymized
    ensures r.Ok? ==> (r.value.1.webhooksOwed ==> r.value.1.sentWebhook) && (r.value.1.sentWebhook ==> r.value.1.updated)
    ensures r.Ok? && r.value.1.assignedToJob ==> !HasPosting(st.opp) && !IsArchived(st.opp)
    ensures r.Ok? && !st.opp.anonymized ==>
              var pr := Prepare(digest, now, st, refreshed);
              && pr.Ok?
              && (HasPosting(pr.value.0.opp) && !IsCohortApp(pr.value.0.opp) ==>
                    && r.value.0.meta == pr.value.0.meta
                    && !r.value.1.sentWebhook
                    && r.value.0.sent == pr.value.0.sent + OwedFor(pr.value.0, Tags) + OwedFor(pr.value.0, Links))
              && (!HasPosting(pr.value.0.opp) || IsCohortApp(pr.value.0.opp) ==>
                    var d := PostRules(digest, now, CohortStart(pr.value.0, early, links), calls, notes);
                    (r.value.1.sentWebhook <==> pr.value.1.time > pr.value.2 + 100 || d.1.Some? || d.2.Some?))
  {
    if st.opp.anonymized then Ok((st, Outcome(true, false, false, false, false)))
    else
      var p := Prepare(digest, now, st, refreshed);
      if p.Raised? then Raised(p.failure)
      else Ok(Finish(digest, now, p.value.0, p.value.1, p.value.2, p.value.3, early, links, calls, notes))
  }

  // ---------------------------------------------------------------------
  // The daemon (app/controller.rb)

  /** The times of the legacy last-change tags, read with `parse`
      (`datetimestr_to_timestamp`). */
  function LegacyChangeTimes(tags: seq<string>, parse: string -> int): (r: seq<int>)
    ensures |r| == |WithPrefix(tags, LAST_CHANGE_TAG_PREFIX)|
    ensures forall i :: 0 <= i < |r| ==>
              r[i] == parse(DeletePrefix(WithPrefix(tags, LAST_CHANGE_TAG_PREFIX)[i], LAST_CHANGE_TAG_PREFIX))
  {
    var w := WithPrefix(tags, LAST_CHANGE_TAG_PREFIX);
    assert forall i :: 0 <= i < |w| ==> w[i] in w;
    seq(|w|, i requires 0 <= i < |w| => parse(DeletePrefix(w[i], LAST_CHANGE_TAG_PREFIX)))
  }

  function AppCreatedAts(apps: seq<Application>): (r: seq<int>)
    ensures |r| == |apps| && forall i :: 0 <= i < |apps| ==> r[i] == apps[i].createdAt
  {
    seq(|apps|, i requires 0 <= i < |apps| => apps[i].createdAt)
  }

  /** `last_webhook_change(opp)`: the latest of creation, last advance,
      `last_change_detected`, the applications' creation and the legacy
      last-change tags. */
  function LastWebhookChange(opp: Opp, h: Hash<MetaValue>, parse: string -> int): (t: int)
    ensures t >= opp.createdAt && t >= LastChangeDetected(h)
    ensures opp.lastAdvancedAt.Some? ==> t >= opp.lastAdvancedAt.value
    ensures forall i :: 0 <= i < |opp.applications| ==> t >= opp.applications[i].createdAt
    ensures forall x :: x in LegacyChangeTimes(opp.tags, parse) ==> t >= x
    ensures t == opp.createdAt || t == LastChangeDetected(h) || (opp.lastAdvancedAt.Some? && t == opp.lastAdvancedAt.value)
            || t in AppCreatedAts(opp.applications) || t in LegacyChangeTimes(opp.tags, parse)
  {
    var advanced := if opp.lastAdvancedAt.Some? then [opp.lastAdvancedAt.value] else [];
    var rest := advanced + [LastChangeDetected(h)] + AppCreatedAts(opp.applications) + LegacyChangeTimes(opp.tags, parse);
    var t := MaxOf(rest, opp.createdAt);
    assert forall x :: x in LegacyChangeTimes(opp.tags, parse) ==> x in rest;
    assert forall i :: 0 <= i < |opp.applications| ==> AppCreatedAts(opp.applications)[i] in rest;
    assert LastChangeDetected(h) in rest;
    assert opp.lastAdvancedAt.Some? ==> opp.lastAdvancedAt.value in rest;
    t
  }

  /** The daemon's steps before its cohort branch: the latest change, the
      baseline `last_webhook_change`, the suspected opt-out tag and the
      posting assignment (archived records included). */
  function DaemonPrepare(digest: string -> string, now: int, parse: string -> int, st: State, refreshed: Opp,
                         suspectedTag: string): (r: Result<(State, Change, int, bool)>)
    requires MetaOk(st)
    ensures r.Raised? <==> Metadata(st).Raised?
    ensures r.Ok? ==> MetaOk(r.value.0) && r.value.0.meta.Some? && r.value.0.batch == st.batch
    ensures r.Ok? ==> r.value.1.time >= st.opp.lastInteractionAt && r.value.2 >= st.opp.createdAt
    ensures r.Ok? ==> var lc := LatestChange(digest, now, st);
                      && lc.Ok?
                      && r.value.1 == lc.value.1
                      && r.value.2 == LastWebhookChange(lc.value.0.opp, lc.value.0.meta.value, parse)
    ensures r.Ok? && r.value.3 ==> !HasPosting(st.opp)
  {
    var lc := LatestChange(digest, now, st);
    if lc.Raised? then Raised(lc.failure)
    else
      var st1 := lc.value.0;
      var base := LastWebhookChange(st1.opp, st1.meta.value, parse);
      var st2 := CheckLinkedInDaemon(st1, suspectedTag);
      var a := Assign(st2, refreshed, false);
      Ok((a.0, lc.value.1, base, a.1))
  }

  /** The daemon's steps after the assignment: when the record has no
      posting or a cohort application, the response and feedback steps
      (`early`), the legacy cleanup, then the rules and the rest of the
      cohort branch; then `commit_opp`, whose report the daemon ignores. */
  function DaemonFinish(digest: string -> string, now: int, st: State, latest: Change, base: int, wasAssigned: bool,
                        early: seq<RuleCall>, calls: seq<RuleCall>, notes: seq<int>): (r: (State, Outcome))
    requires MetaOk(st) && st.meta.Some?
    ensures r.0.batch == st.batch && !r.1.anonymized && !r.1.updated && r.1.assignedToJob == wasAssigned && r.0.meta.Some?
    ensures r.1.webhooksOwed ==> r.1.sentWebhook
    ensures HasPosting(st.opp) && !IsCohortApp(st.opp) ==>
              && r.0.meta == st.meta
              && !r.1.sentWebhook
              && r.0.sent == st.sent + OwedFor(st, Tags) + OwedFor(st, Links)
    ensures !HasPosting(st.opp) || IsCohortApp(st.opp) ==>
              var d := PostRules(digest, now, RemoveLegacy(ApplyRules(st, early), false), calls, notes);
              && (r.1.sentWebhook <==> Decide(latest, base, d.1, d.2).0)
              && (!r.1.sentWebhook ==> LastChangeDetected(r.0.meta.value) == DaemonNoNotifyTime(d.0.notes, d.0.opp.lastInteractionAt))
  {
    if !HasPosting(st.opp) || IsCohortApp(st.opp) then
      var c := CohortSteps(digest, now, RemoveLegacy(ApplyRules(st, early), false), latest, base, calls, notes, true);
      var o := CommitOpp(c.0);
      (o.0, Outcome(false, wasAssigned, c.1, false, c.2))
    else
      var o := CommitOpp(st);
      (o.0, Outcome(false, wasAssigned, false, false, false))
  }

  /** `process_opportunity(opp)` of app/controller.rb. It never touches
      the batch flag, compares against `last_webhook_change`, classifies
      LinkedIn leads first, assigns archived leads too, and ignores what
      the commits report. */
  function DaemonProcessOpportunity(digest: string -> string, now: int, parse: string -> int, st: State, refreshed: Opp,
                                    early: seq<RuleCall>, calls: seq<RuleCall>, notes: seq<int>, suspectedTag: string): (r: Result<(State, Outcome)>)
    requires MetaOk(st)
    ensures r.Ok? ==> r.value.0.batch == st.batch && !r.value.1.anonymized && !r.value.1.updated
    ensures r.Ok? ==> (r.value.1.webhooksOwed ==> r.value.1.sentWebhook)
    ensures r.Ok? && r.value.1.assignedToJob ==> !HasPosting(st.opp)
    ensures r.Ok? ==>
              var pr := DaemonPrepare(digest, now, parse, st, refreshed, suspectedTag);
              && pr.Ok?
              && (!HasPosting(pr.value.0.opp) || IsCohortApp(pr.value.0.opp) ==>
                    var d := PostRules(digest, now, RemoveLegacy(ApplyRules(pr.value.0, early), false), calls, notes);
                    (r.value.1.sentWebhook <==> pr.value.1.time > pr.value.2 + 100 || d.1.Some? || d.2.Some?))
  {
    var p := DaemonPrepare(digest, now, parse, st, refreshed, suspectedTag);
    if p.Raised? then Raised(p.failure)
    else Ok(DaemonFinish(digest, now, p.value.0, p.value.1, p.value.2, p.value.3, early, calls, notes))
  }
}

=== FILE: tagging.dfy ===
/** The pure tagging rules of controller/process_updates.rb and their
    daemon-era copies in app/controller.rb: the LinkedIn InMail classifier,
    the cohort location read from a lead's tags, and the assignment of a
    lead without a posting to its cohort's posting. */
module Tagging {
  import opened Prelude
  import opened Text
  import opened Config
  import opened Opportunity
  import opened Annotations

  // ---------------------------------------------------------------------
  // Finding a location in the tags

  /** The index of the first of `names` that `t` contains. */
  function FirstName(t: string, names: seq<string>): (r: Option<nat>)
    ensures r.Some? ==> r.value < |names| && Includes(t, names[r.value])
    ensures r.Some? ==> forall j :: 0 <= j < r.value ==> !Includes(t, names[j])
    ensures r.None? <==> forall j :: 0 <= j < |names| ==> !Includes(t, names[j])
  {
    if |names| == 0 then None
    else if Includes(t, names[0]) then Some(0)
    else match FirstName(t, names[1..])
      case None => None
      case Some(j) => Some(j + 1)
  }

  /** The first of `names` that the downcased tag contains. */
  function TagHit(tag: string, names: seq<string>): Option<nat> {
    FirstName(Downcase(tag), names)
  }

  /** Scan the tags in order and, for each, the names in order; the first hit
      gives (tag index, name index). Tags are compared downcased. */
  function FirstMatch(tags: seq<string>, names: seq<string>): (r: Option<(nat, nat)>)
    ensures r.Some? ==> r.value.0 < |tags| && TagHit(tags[r.value.0], names) == Some(r.value.1)
    ensures r.Some? ==> forall i :: 0 <= i < r.value.0 ==> TagHit(tags[i], names).None?
    ensures r.None? <==> forall i :: 0 <= i < |tags| ==> TagHit(tags[i], names).None?
  {
    if |tags| == 0 then None
    else
      var h := TagHit(tags[0], names);
      if h.Some? then Some((0, h.value))
      else
        var t := FirstMatch(tags[1..], names);
        assert forall i :: 1 <= i < |tags| ==> tags[i] == tags[1..][i - 1];
        if t.None? then None
        else
          assert tags[t.value.0 + 1] == tags[1..][t.value.0];
          Some((t.value.0 + 1, t.value.1))
  }

  /** `location_from_tags` as controller/process_updates.rb:344-351 has it:
      `tag.downcase.include?(cohort[:name])` for each tag and cohort. No
      entry of `COHORT_JOBS` has `:name`, so the very first comparison is
      `include?(nil)`, which raises TypeError. */
  function LocationFromTagsAsWritten(tags: seq<string>): (r: Result<Option<CohortJob>>)
    ensures |tags| == 0 ==> r == Ok(None)
    ensures |tags| > 0 ==> r == Raised(TypeError)
  {
    if |tags| == 0 then Ok(None)
    else
      match Lookup(COHORT_JOBS[0], NameKey)
      case None => Raised(TypeError)
      case Some(name) =>
        assert false;
        Ok(None)
  }

  /** The location names the current intakes are tagged with, in table order. */
  const LOCATION_NAMES: seq<string> := ["bangalore", "london", "singapore", "paris", "berlin", "toronto"]

  lemma LocationNamesAreCohortTags()
    ensures |LOCATION_NAMES| == 6
    ensures forall j :: 0 <= j < 6 ==> COHORT_JOBS[j].tag == Some(LOCATION_NAMES[j])
  {}

  /** `location_from_tags` as intended: match on each cohort's `:tag`,
      skipping the entries that have none. */
  function LocationFromTags(tags: seq<string>): (r: Option<CohortJob>)
    ensures r.Some? ==> r.value in COHORT_JOBS && r.value.tag.Some?
    ensures r.Some? ==> exists i :: 0 <= i < |tags| && Includes(Downcase(tags[i]), r.value.tag.value)
    ensures r.Some? ==>
              exists i, j ::
                && 0 <= i < |tags| && 0 <= j < |LOCATION_NAMES|
                && r.value == COHORT_JOBS[j] && TagHit(tags[i], LOCATION_NAMES) == Some(j)
                && forall i' :: 0 <= i' < i ==> TagHit(tags[i'], LOCATION_NAMES).None?
    ensures r.None? <==> forall i, j :: 0 <= i < |tags| && 0 <= j < |LOCATION_NAMES| ==> !Includes(Downcase(tags[i]), LOCATION_NAMES[j])
  {
    LocationNamesAreCohortTags();
    match FirstMatch(tags, LOCATION_NAMES)
    case None => None
    case Some((i, j)) =>
      assert TagHit(tags[i], LOCATION_NAMES) == Some(j);
      Some(COHORT_JOBS[j])
  }

  /** The tag wins over the table: the first tag that names any location
      decides, whatever later tags say. */
  lemma FirstLocationTagDecides(tags: seq<string>, later: seq<string>)
    requires LocationFromTags(tags).Some?
    ensures LocationFromTags(tags + later) == LocationFromTags(tags)
  {
    FirstMatchPrefix(tags, later, LOCATION_NAMES);
  }

  lemma {:induction false} FirstMatchPrefix(tags: seq<string>, later: seq<string>, names: seq<string>)
    requires FirstMatch(tags, names).Some?
    ensures FirstMatch(tags + later, names) == FirstMatch(tags, names)
  {
    var all := tags + later;
    var (i, j) := FirstMatch(tags, names).value;
    forall k | 0 <= k <= i ensures all[k] == tags[k] {}
    var r := FirstMatch(all, names);
    assert TagHit(all[i], names) == Some(j);
    assert r.Some?;
    assert r.value.0 == i;
  }

  // ---------------------------------------------------------------------
  // check_no_posting

  /** What `check_no_posting` decides for a lead: nothing (it has a posting,
      or is archived), no location found, or the cohort to assign. */
  datatype Assignment = NotApplicable | NoLocation | AssignTo(cohort: CohortJob)

  /** `check_no_posting(opp)` with the intended location lookup; `skipArchived`
      is false for the daemon's copy, which does not look at archiving. The
      posting the lead is added to is returned (`add_candidate_to_posting`). */
  function CheckNoPosting(st: State, skipArchived: bool): (r: (State, Option<string>))
    ensures HasPosting(st.opp) || (skipArchived && IsArchived(st.opp)) ==> r == (st, None)
    ensures r.1.Some? <==> !HasPosting(st.opp) && !(skipArchived && IsArchived(st.opp)) && LocationFromTags(st.opp.tags).Some?
    ensures r.1.Some? ==> r.1.value == LocationFromTags(st.opp.tags).value.postingId
    ensures r.1.Some? ==>
              && TAG_ASSIGN_TO_LOCATION_NONE_FOUND !in Local(r.0, Tags)
              && TAG_ASSIGNED_TO_LOCATION in Local(r.0, Tags)
              && TAG_ASSIGN_TO_LOCATION_PREFIX + LocationFromTags(st.opp.tags).value.tag.value in Local(r.0, Tags)
    ensures !HasPosting(st.opp) && !(skipArchived && IsArchived(st.opp)) && r.1.None? ==>
              TAG_ASSIGN_TO_LOCATION_NONE_FOUND in Local(r.0, Tags)
    ensures GetSide(r.0, Links) == GetSide(st, Links) && r.0.meta == st.meta && r.0.batch == st.batch
  {
    if HasPosting(st.opp) || (skipArchived && IsArchived(st.opp)) then (st, None)
    else
      match LocationFromTags(st.opp.tags)
      case None => (AddIfUnset(st, Tags, [TAG_ASSIGN_TO_LOCATION_NONE_FOUND]), None)
      case Some(cohort) => (TagAssigned(st, cohort.tag.value), Some(cohort.postingId))
  }

  /** `check_no_posting(opp)` as controller/process_updates.rb:106-122 and
      app/controller.rb:176-192 write it, given a location lookup that
      works: the assignment tag is `TAG_ASSIGN_TO_LOCATION_PREFIX +
      location[:name]`, and no cohort entry has `:name`, so `String + nil`
      raises TypeError whenever a location is found. */
  function CheckNoPostingAsWritten(st: State, skipArchived: bool): (r: Result<(State, Option<string>)>)
    ensures r.Raised? <==> CheckNoPosting(st, skipArchived).1.Some?
    ensures r.Raised? ==> r.failure == TypeError
    ensures r.Ok? ==> r.value == CheckNoPosting(st, skipArchived)
  {
    if HasPosting(st.opp) || (skipArchived && IsArchived(st.opp)) then Ok((st, None))
    else
      match LocationFromTags(st.opp.tags)
      case None => Ok((AddIfUnset(st, Tags, [TAG_ASSIGN_TO_LOCATION_NONE_FOUND]), None))
      case Some(cohort) =>
        match Lookup(cohort, NameKey)
        case None => Raised(TypeError)
        case Some(name) =>
          assert false;
          Raised(TypeError)
  }

  /** The tags of a lead assigned to the cohort tagged `location`: the
      "none found" tag goes, the location tag and the "assigned" tag come. */
  function TagAssigned(st: State, location: string): (r: State)
    ensures TAG_ASSIGN_TO_LOCATION_NONE_FOUND !in Local(r, Tags)
    ensures TAG_ASSIGNED_TO_LOCATION in Local(r, Tags)
    ensures TAG_ASSIGN_TO_LOCATION_PREFIX + location in Local(r, Tags)
    ensures GetSide(r, Links) == GetSide(st, Links) && r.meta == st.meta && r.batch == st.batch
  {
    var st1 := RemoveIfSet(st, Tags, [TAG_ASSIGN_TO_LOCATION_NONE_FOUND]);
    var st2 := AddAnnotations(st1, Tags, [TAG_ASSIGN_TO_LOCATION_PREFIX + location], false);
    var st3 := AddAnnotations(st2, Tags, [TAG_ASSIGNED_TO_LOCATION], false);
    AssignTagsDistinct(location);
    st3
  }

  lemma AssignTagsDistinct(name: string)
    ensures TAG_ASSIGN_TO_LOCATION_PREFIX + name != TAG_ASSIGN_TO_LOCATION_NONE_FOUND
    ensures TAG_ASSIGNED_TO_LOCATION != TAG_ASSIGN_TO_LOCATION_NONE_FOUND
  {
    var k := |AUTO_TAG_PREFIX|;
    assert (TAG_ASSIGN_TO_LOCATION_PREFIX + name)[k] == 'A';
    assert TAG_ASSIGN_TO_LOCATION_NONE_FOUND[k] == 'N';
    assert TAG_ASSIGNED_TO_LOCATION[k] == 'A';
  }

  // ---------------------------------------------------------------------
  // The LinkedIn InMail classifier

  /** `[opp['stage'], opp['stage']['id']].include?(name)`; for a bare stage id,
      `stage['id']` is a substring lookup and never equals a stage name. */
  predicate StageIs(stage: Stage, name: string) {
    match stage
    case Plain(s) => s == name
    case Expanded(id) => id == name
  }

  /** The lead looks like an InMail reply: no posting, stage "lead-responded",
      sourced from LinkedIn only, and no interaction since 5 s after creation. */
  predicate InMailLead(opp: Opp) {
    !HasPosting(opp)
    && StageIs(opp.stage, "lead-responded")
    && opp.origin == "sourced"
    && opp.sources == ["LinkedIn"]
    && opp.lastInteractionAt < opp.createdAt + 5000
  }

  /** The one LinkedIn tag an InMail lead should carry. */
  function ExpectedLinkedInTag(opp: Opp): string {
    if |opp.emails| > 0 || |opp.phones| > 0 then TAG_LINKEDIN_OPTIN
    else if opp.lastInteractionAt > opp.createdAt + 1500 then TAG_LINKEDIN_OPTIN_LIKELY
    else TAG_LINKEDIN_OPTOUT
  }

  function LinkedInTags(): seq<string> { [TAG_LINKEDIN_OPTOUT, TAG_LINKEDIN_OPTIN, TAG_LINKEDIN_OPTIN_LIKELY] }

  lemma LinkedInTagsDistinct()
    ensures TAG_LINKEDIN_OPTOUT != TAG_LINKEDIN_OPTIN
    ensures TAG_LINKEDIN_OPTOUT != TAG_LINKEDIN_OPTIN_LIKELY
    ensures TAG_LINKEDIN_OPTIN != TAG_LINKEDIN_OPTIN_LIKELY
  {
    var k := |AUTO_TAG_PREFIX| + 16;
    assert TAG_LINKEDIN_OPTOUT[k] == 'l';
    assert TAG_LINKEDIN_OPTIN[k] == 'a';
    assert TAG_LINKEDIN_OPTIN_LIKELY[k] == 'p';
  }

  /** Set `keep` and clear the others, as the three branches of the classifier do. */
  function KeepOnly(st: State, keep: string, others: seq<string>): (r: State)
    requires keep !in others
    ensures keep in Local(r, Tags)
    ensures forall t :: t in others ==> t !in Local(r, Tags)
    ensures forall t :: t != keep && t !in others ==> (t in Local(r, Tags) <==> t in Local(st, Tags))
    ensures GetSide(r, Links) == GetSide(st, Links) && r.meta == st.meta && r.batch == st.batch && r.opp.id == st.opp.id
  {
    RemoveIfSet(AddIfUnset(st, Tags, [keep]), Tags, others)
  }

  /** `check_linkedin_optout(opp)`. */
  function CheckLinkedIn(st: State): (r: State)
    ensures GetSide(r, Links) == GetSide(st, Links) && r.meta == st.meta && r.batch == st.batch && r.opp.id == st.opp.id
  {
    LinkedInTagsDistinct();
    var opp := st.opp;
    if InMailLead(opp) then
      if |opp.emails| > 0 || |opp.phones| > 0 then
        KeepOnly(st, TAG_LINKEDIN_OPTIN, [TAG_LINKEDIN_OPTOUT, TAG_LINKEDIN_OPTIN_LIKELY])
      else if opp.lastInteractionAt > opp.createdAt + 1500 then
        KeepOnly(st, TAG_LINKEDIN_OPTIN_LIKELY, [TAG_LINKEDIN_OPTIN, TAG_LINKEDIN_OPTOUT])
      else
        KeepOnly(st, TAG_LINKEDIN_OPTOUT, [TAG_LINKEDIN_OPTIN, TAG_LINKEDIN_OPTIN_LIKELY])
    else
      RemoveIfSet(st, Tags, LinkedInTags())
  }

  /** Afterwards an InMail lead carries exactly the expected one of the three
      LinkedIn tags, any other lead none of them; other tags are untouched. */
  lemma LinkedInExactlyOne(st: State, t: string)
    ensures t in LinkedInTags() ==>
              (t in Local(CheckLinkedIn(st), Tags) <==> InMailLead(st.opp) && t == ExpectedLinkedInTag(st.opp))
    ensures t !in LinkedInTags() ==> (t in Local(CheckLinkedIn(st), Tags) <==> t in Local(st, Tags))
  {
    LinkedInTagsDistinct();
  }

  /** `check_linkedin_optout` of app/controller.rb: a single suspected-opt-out
      tag, set when the stage is the bare id "lead-responded" and the other
      conditions hold, removed otherwise. The tag's constant is defined
      nowhere, so the tag is a parameter; `TAG_LINKEDIN_SUSPECTED_OPTOUT`
      below is the value it evidently stands for. */
  function CheckLinkedInDaemon(st: State, suspectedTag: string): (r: State)
    ensures suspectedTag in Local(r, Tags) <==>
              !HasPosting(st.opp) && st.opp.stage == Plain("lead-responded") && st.opp.origin == "sourced"
              && st.opp.sources == ["LinkedIn"] && st.opp.lastInteractionAt < st.opp.createdAt + 5000
    ensures forall t :: t != suspectedTag ==> (t in Local(r, Tags) <==> t in Local(st, Tags))
    ensures r.meta == st.meta && r.batch == st.batch && r.opp.id == st.opp.id && r.opp.applications == st.opp.applications
  {
    var opp := st.opp;
    if !HasPosting(opp) && opp.stage == Plain("lead-responded") && opp.origin == "sourced"
       && opp.sources == ["LinkedIn"] && opp.lastInteractionAt < opp.createdAt + 5000
    then AddIfUnset(st, Tags, [suspectedTag])
    else RemoveIfSet(st, Tags, [suspectedTag])
  }

  /** The suspected-opt-out tag app/controller.rb:164 and :166 evidently
      mean: the configuration's "decline (suspected)" tag, the one the
      daemon's legacy cleanup keeps. */
  const TAG_LINKEDIN_SUSPECTED_OPTOUT: string := TAG_LINKEDIN_OPTOUT_OLD

  /** `check_linkedin_optout` of app/controller.rb as written. Both branches
      pass the constant `TAG_LINKEDIN_SUSPECTED_OPTOUT`, which no loaded
      file defines, so evaluating the argument raises NameError whichever
      branch runs. */
  function CheckLinkedInDaemonAsWritten(st: State): (r: Result<State>)
    ensures r.Raised? && r.failure == NameError
  {
    var opp := st.opp;
    if !HasPosting(opp) && opp.stage == Plain("lead-responded") && opp.origin == "sourced"
       && opp.sources == ["LinkedIn"] && opp.lastInteractionAt < opp.createdAt + 5000
    then Raised(NameError)
    else Raised(NameError)
  }

  /** The daemon's classifier ignores an expanded stage object that the current one accepts. */
  lemma DaemonIgnoresExpandedStage(st: State, suspectedTag: string)
    requires InMailLead(st.opp) && st.opp.stage == Expanded("lead-responded")
    ensures suspectedTag !in Local(CheckLinkedInDaemon(st, suspectedTag), Tags)
    ensures ExpectedLinkedInTag(st.opp) in Local(CheckLinkedIn(st), Tags)
  {
    LinkedInExactlyOne(st, ExpectedLinkedInTag(st.opp));
  }
}

=== FILE: text.dfy ===
/** Ruby String operations over Dafny strings (sequences of Unicode scalar values).

    Ruby compares strings byte by byte on their UTF-8 form; UTF-8 preserves
    code-point order, so `Lt` below (code-point lexicographic order) is the
    order `Array#sort` uses on the tags and links. */
module Text {
  import opened Lists

  /** `s.start_with?(p)`. */
  predicate StartsWith(s: string, p: string) { p <= s }

  /** `list.select { |x| x.start_with?(p) }`. */
  function WithPrefix(list: seq<string>, p: string): (r: seq<string>)
    ensures forall x :: x in r <==> x in list && StartsWith(x, p)
  {
    if |list| == 0 then []
    else (if StartsWith(list[0], p) then [list[0]] else []) + WithPrefix(list[1..], p)
  }

  /** `list.reject { |x| x.start_with?(p) }`. */
  function WithoutPrefix(list: seq<string>, p: string): (r: seq<string>)
    ensures forall x :: x in r <==> x in list && !StartsWith(x, p)
  {
    if |list| == 0 then []
    else (if StartsWith(list[0], p) then [] else [list[0]]) + WithoutPrefix(list[1..], p)
  }

  lemma {:induction false} WithPrefixConcat(a: seq<string>, b: seq<string>, p: string)
    ensures WithPrefix(a + b, p) == WithPrefix(a, p) + WithPrefix(b, p)
  {
    if |a| == 0 {
      assert a + b == b;
    } else {
      assert (a + b)[0] == a[0] && (a + b)[1..] == a[1..] + b;
      WithPrefixConcat(a[1..], b, p);
    }
  }

  lemma {:induction false} WithoutPrefixConcat(a: seq<string>, b: seq<string>, p: string)
    ensures WithoutPrefix(a + b, p) == WithoutPrefix(a, p) + WithoutPrefix(b, p)
  {
    if |a| == 0 {
      assert a + b == b;
    } else {
      assert (a + b)[0] == a[0] && (a + b)[1..] == a[1..] + b;
      WithoutPrefixConcat(a[1..], b, p);
    }
  }

  lemma {:induction false} WithPrefixNone(s: seq<string>, p: string)
    requires forall i :: 0 <= i < |s| ==> !StartsWith(s[i], p)
    ensures WithPrefix(s, p) == []
  {
    if |s| > 0 { WithPrefixNone(s[1..], p); }
  }

  /** Nothing is left under a prefix once the entries under it are dropped. */
  lemma {:induction false} WithPrefixOfWithout(s: seq<string>, p: string)
    ensures WithPrefix(WithoutPrefix(s, p), p) == []
  {
    if |s| > 0 {
      WithPrefixOfWithout(s[1..], p);
      WithPrefixConcat(if StartsWith(s[0], p) then [] else [s[0]], WithoutPrefix(s[1..], p), p);
    }
  }

  /** When every entry under `p` is also under the longer `q`, selecting by either is the same. */
  lemma {:induction false} WithPrefixNarrow(s: seq<string>, p: string, q: string)
    requires StartsWith(q, p)
    requires forall i :: 0 <= i < |s| ==> StartsWith(s[i], p) ==> StartsWith(s[i], q)
    ensures WithPrefix(s, p) == WithPrefix(s, q)
  {
    if |s| > 0 { WithPrefixNarrow(s[1..], p, q); }
  }

  /** Dropping the entries under a prefix commutes with reordering. */
  lemma {:induction false} WithoutPrefixMultiset(a: seq<string>, p: string)
    ensures forall x :: multiset(WithoutPrefix(a, p))[x] == if StartsWith(x, p) then 0 else multiset(a)[x]
  {
    if |a| > 0 {
      WithoutPrefixMultiset(a[1..], p);
      assert a == [a[0]] + a[1..];
      assert multiset(a) == multiset{a[0]} + multiset(a[1..]);
      var h := if StartsWith(a[0], p) then [] else [a[0]];
      assert multiset(WithoutPrefix(a, p)) == multiset(h) + multiset(WithoutPrefix(a[1..], p));
    }
  }

  /** `s.include?(sub)`: `sub` occurs contiguously in `s`. */
  predicate Includes(s: string, sub: string)
    decreases |s|
  {
    StartsWith(s, sub) || (|s| > 0 && Includes(s[1..], sub))
  }

  /** `s.delete_prefix(p)` for an `s` that starts with `p`. */
  function DeletePrefix(s: string, p: string): (r: string)
    requires StartsWith(s, p)
    ensures p + r == s
  {
    s[|p|..]
  }

  /** `parts.join(sep)`. */
  function Join(parts: seq<string>, sep: string): string {
    if |parts| == 0 then ""
    else if |parts| == 1 then parts[0]
    else parts[0] + sep + Join(parts[1..], sep)
  }

  /** Index of the first `c` in `s`, or `|s|`. */
  function IndexOf(s: string, c: char): (i: nat)
    ensures i <= |s|
    ensures c !in s[..i]
    ensures i < |s| ==> s[i] == c
  {
    if |s| == 0 then 0 else if s[0] == c then 0 else 1 + IndexOf(s[1..], c)
  }

  /** `s.split(c, -1)`: every field between separators, empty ones included. */
  function Split(s: string, c: char): (r: seq<string>)
    ensures |r| > 0
    decreases |s|
  {
    var i := IndexOf(s, c);
    if i == |s| then [s] else [s[..i]] + Split(s[i + 1..], c)
  }

  /** ASCII `downcase`. */
  function Downcase(s: string): (r: string)
    ensures |r| == |s|
  {
    if |s| == 0 then ""
    else [if 'A' <= s[0] <= 'Z' then (s[0] as int + 32) as char else s[0]] + Downcase(s[1..])
  }

  lemma {:induction false} SplitJoin(parts: seq<string>, c: char)
    requires |parts| > 0
    requires forall i :: 0 <= i < |parts| ==> c !in parts[i]
    ensures Split(Join(parts, [c]), c) == parts
  {
    if |parts| == 1 {
      IndexOfAbsent(parts[0], c);
    } else {
      var rest := Join(parts[1..], [c]);
      var s := parts[0] + [c] + rest;
      assert Join(parts, [c]) == s;
      IndexOfAfter(parts[0], c, rest);
      assert s[..|parts[0]|] == parts[0];
      assert s[|parts[0]| + 1..] == rest;
      assert Split(s, c) == [parts[0]] + Split(rest, c);
      assert forall i :: 0 <= i < |parts[1..]| ==> parts[1..][i] == parts[i + 1];
      SplitJoin(parts[1..], c);
      assert parts == [parts[0]] + parts[1..];
    }
  }

  lemma IndexOfAbsent(s: string, c: char)
    requires c !in s
    ensures IndexOf(s, c) == |s|
  {
    if |s| > 0 { IndexOfAbsent(s[1..], c); }
  }

  lemma IndexOfAfter(a: string, c: char, b: string)
    requires c !in a
    ensures IndexOf(a + [c] + b, c) == |a|
  {
    if |a| > 0 {
      assert (a + [c] + b)[1..] == a[1..] + [c] + b;
      IndexOfAfter(a[1..], c, b);
    }
  }

  lemma JoinAbsent(parts: seq<string>, sep: string, c: char)
    requires c !in sep
    requires forall i :: 0 <= i < |parts| ==> c !in parts[i]
    ensures c !in Join(parts, sep)
  {
    if |parts| > 1 { JoinAbsent(parts[1..], sep, c); }
  }

  // ---------------------------------------------------------------------
  // Order and sorting

  /** Strict code-point lexicographic order (Ruby `String#<=>` is -1). */
  predicate Lt(a: string, b: string) {
    if |a| == 0 then |b| > 0
    else if |b| == 0 then false
    else if a[0] != b[0] then a[0] < b[0]
    else Lt(a[1..], b[1..])
  }

  predicate Le(a: string, b: string) { a == b || Lt(a, b) }

  lemma LtIrreflexive(a: string)
    ensures !Lt(a, a)
  {
    if |a| > 0 { LtIrreflexive(a[1..]); }
  }

  lemma LtAsymmetric(a: string, b: string)
    ensures !(Lt(a, b) && Lt(b, a))
  {
    if |a| > 0 && |b| > 0 && a[0] == b[0] { LtAsymmetric(a[1..], b[1..]); }
  }

  lemma LtTotal(a: string, b: string)
    ensures a == b || Lt(a, b) || Lt(b, a)
  {
    if |a| > 0 && |b| > 0 && a[0] == b[0] {
      LtTotal(a[1..], b[1..]);
      if a[1..] == b[1..] {
        assert a == [a[0]] + a[1..] && b == [b[0]] + b[1..];
      }
    }
  }

  lemma LtTransitive(a: string, b: string, c: string)
    requires Lt(a, b) && Lt(b, c)
    ensures Lt(a, c)
  {
    if |a| > 0 && a[0] == b[0] && b[0] == c[0] { LtTransitive(a[1..], b[1..], c[1..]); }
  }

  lemma LeTransitive(a: string, b: string, c: string)
    requires Le(a, b) && Le(b, c)
    ensures Le(a, c)
  {
    if Lt(a, b) && Lt(b, c) { LtTransitive(a, b, c); }
  }

  /** Ascending order, duplicates allowed. */
  predicate Sorted(s: seq<string>) {
    forall i, j :: 0 <= i < j < |s| ==> Le(s[i], s[j])
  }

  /** One insertion step of the insertion sort. */
  function Insert(x: string, s: seq<string>): (r: seq<string>)
    requires Sorted(s)
    ensures Sorted(r)
    ensures multiset(r) == multiset(s) + multiset{x}
  {
    if |s| == 0 then [x]
    else if Le(x, s[0]) then
      InsertFront(x, s); [x] + s
    else
      LtTotal(x, s[0]);
      var t := Insert(x, s[1..]);
      InsertBehind(x, s, t);
      assert s == [s[0]] + s[1..];
      [s[0]] + t
  }

  lemma InsertFront(x: string, s: seq<string>)
    requires Sorted(s) && |s| > 0 && Le(x, s[0])
    ensures Sorted([x] + s)
  {
    forall j | 0 < j < |s| + 1 ensures Le(x, ([x] + s)[j]) {
      LeTransitive(x, s[0], s[j - 1]);
    }
  }

  lemma InsertBehind(x: string, s: seq<string>, t: seq<string>)
    requires Sorted(s) && |s| > 0 && Lt(s[0], x) && Sorted(t)
    requires multiset(t) == multiset(s[1..]) + multiset{x}
    ensures Sorted([s[0]] + t)
  {
    forall j | 0 <= j < |t| ensures Le(s[0], t[j]) {
      assert t[j] in multiset(t);
      if t[j] != x {
        assert t[j] in multiset(s[1..]);
        var k :| 0 <= k < |s[1..]| && s[1..][k] == t[j];
        assert s[k + 1] == t[j];
      }
    }
  }

  /** `Array#sort` on strings (insertion sort; the result is unique, see `SortedUnique`). */
  function Sort(s: seq<string>): (r: seq<string>)
    ensures Sorted(r)
    ensures multiset(r) == multiset(s)
  {
    if |s| == 0 then []
    else
      assert s == [s[0]] + s[1..];
      Insert(s[0], Sort(s[1..]))
  }

  /** Two sorted arrangements of one multiset start with the same string. */
  lemma SortedHeads(a: seq<string>, b: seq<string>)
    requires Sorted(a) && Sorted(b) && |a| > 0
    requires multiset(a) == multiset(b)
    ensures |b| > 0 && a[0] == b[0]
  {
    assert |b| == |multiset(b)| == |multiset(a)| == |a|;
    assert a[0] in multiset(b) && b[0] in multiset(a);
    var i :| 0 <= i < |b| && b[i] == a[0];
    var j :| 0 <= j < |a| && a[j] == b[0];
    assert Le(b[0], a[0]) && Le(a[0], b[0]);
    LtAsymmetric(a[0], b[0]);
  }

  /** Removing the same first string from two equal multisets leaves equal multisets. */
  lemma MultisetTails<T>(a: seq<T>, b: seq<T>)
    requires |a| > 0 && |b| > 0 && a[0] == b[0]
    requires multiset(a) == multiset(b)
    ensures multiset(a[1..]) == multiset(b[1..])
  {
    assert a == [a[0]] + a[1..] && b == [b[0]] + b[1..];
    assert multiset(a) == multiset{a[0]} + multiset(a[1..]);
    assert multiset(b) == multiset{b[0]} + multiset(b[1..]);
    forall x ensures multiset(a[1..])[x] == multiset(b[1..])[x] {
      assert multiset(a)[x] == multiset{a[0]}[x] + multiset(a[1..])[x];
      assert multiset(b)[x] == multiset{b[0]}[x] + multiset(b[1..])[x];
    }
  }

  /** A sorted arrangement of a multiset is unique. */
  lemma {:induction false} SortedUnique(a: seq<string>, b: seq<string>)
    requires Sorted(a) && Sorted(b)
    requires multiset(a) == multiset(b)
    ensures a == b
  {
    if |a| == 0 {
      assert |b| == |multiset(b)| == 0;
    } else {
      SortedHeads(a, b);
      MultisetTails(a, b);
      SortedUnique(a[1..], b[1..]);
      assert a == [a[0]] + a[1..] && b == [b[0]] + b[1..];
    }
  }

  /** The sorted result depends only on the multiset of its input. */
  lemma SortPermutation(a: seq<string>, b: seq<string>)
    requires multiset(a) == multiset(b)
    ensures Sort(a) == Sort(b)
  {
    SortedUnique(Sort(a), Sort(b));
  }
}
